=== FILE: README.md ===
# obsidian-whisper transcript core, in Dafny

This project models the transcript-processing core of the obsidian-whisper
plugin and proves properties of the model. A speech recogniser writes lines
of the form `[hh:mm:ss.mmm --> hh:mm:ss.mmm] text`. The core has five parts:

- **Line rewrite.** The plugin shifts each line's times to absolute time
  (`main.ts`: `timestampToMs`, `msToTimestamp` and the per-line rewrite in
  the stdout handler).
- **Clean-up.** It de-duplicates overlapping, repeated and out-of-order
  segments into one plain text (`cleanUpTranscript` with `TranscriptChunk`'s
  `includes`, `sameTextIgnoringPunction` and `equals`).
- **Summary.** It condenses the text by chain of density: it extracts the
  last dense summary of every chunk, groups the summaries under a
  1024-token budget and reduces them (`chain_of_density`).
- **String distance.** It contains an optimal-string-alignment distance
  (`optimalStringAlignmentDistance`).
- **Language filter.** The language picker filters its two language codes
  (`LanguageModal.getSuggestions`).

## Modules

| module | file | contents |
|---|---|---|
| `Wrappers` | `wrappers.dfy` | `Option` and `Result` |
| `Text` | `text.dfy` | `\d`, `\w`, `\s` and `.`; ASCII `toLowerCase`; the punctuation-stripping normalisation; `split`, `join`, `trim`, `startsWith` and `endsWith` |
| `Decimal` | `decimal.dfy` | `Number(digits)`, `n.toString()` and `padStart` |
| `Timestamps` | `timestamps.dfy` | `timestampToMs` and `msToTimestamp`, with their round trip |
| `TranscriptLine` | `transcript_line.dfy` | the bracket-line pattern as a leftmost search, and the absolute-time rewrite of a recogniser block |
| `Chunks` | `chunks.dfy` | `TranscriptChunk`, parsing a transcript into chunks, and the stable sort by start time |
| `Reconcile` | `reconcile.dfy` | the de-duplication pass: a fold over the sorted chunks carrying the marks and `previousChunk` |
| `Strip` | `strip.dfy` | `fullText.replace(/\[.*\]\s/g, '')` |
| `CleanUp` | `cleanup.dfy` | `cleanUpTranscript` end to end |
| `CleanUpScenarios` | `cleanup_scenarios.dfy` | two-line transcripts worked through the whole clean-up |
| `Osa` | `osa.dfy` | the distance: a recurrence, and the source's table-filling loops as a method |
| `Density` | `density.dfy` | extracting the last dense summary from one answer |
| `Grouping` | `grouping.dfy` | grouping the summaries under the token budget |
| `Reduction` | `reduction.dfy` | the reduce steps and `chain_of_density` as a whole |
| `Languages` | `languages.dfy` | `getSuggestions` |

## Parameters

The language model, the tokenizer and the text splitter are parameters of
the model:

- `densify` maps a chunk's text to the answer to the density prompt;
- `generate` maps a prompt to its answer;
- `tokens` maps a text to its token count;
- `docs` is the list of chunk texts the splitter produced.

The block start `t0` of the line rewrite is also a parameter.

## Where the code departs from its comments, and other surprises

The model follows the code in each of these cases:

- The comment on the second rule says a chunk that starts with the previous chunk's text discards the previous chunk. The rules test the chunk's input index, not its sorted position, and `previousChunk` starts as the first sorted chunk. So on the first visit that chunk is compared with itself and discards itself when it was not read first; see Findings.
- The comment on the fourth rule says a chunk with the same text as the previous one is discarded. That branch is never taken: equal normalised texts already satisfy the second rule's `startsWith` (`Reconcile.Classify`).
- The comment above the final `replace` speaks of removing the `[start --> end]` header. The `\s` after `]` also takes a newline. So a text ending in a bracket runs into the next line: "a [x]\nb\n" becomes "a b\n" (`Strip.NewlineAfterCloseJoinsLines`).
- A header whose `]` is followed by anything but whitespace is not removed: "[t]x\n" stays as it is (`Strip.CloseNeedsFollowingSpace`). Cleaning up the output again therefore does not in general give "". It does when no '[' is left (`CleanUp.SecondCleanUpIsEmpty`).
- The comment "extract the last dense summary" holds for the JSON answer. For the marker answer, two lines `Denser summary: X` and `Denser summary: Y` yield `Denser summary: Y`, not `Y`. The greedy `.*` of the first match eats the rest of the marker line, and its `\n*(.*)` then captures the whole second marker line (`Density.SecondMarkerSwallowed`).
- The comment above the grouping test speaks of 2000 tokens. The code compares with 1024, and the model uses 1024 (`Grouping.Budget`).
- A single group's combined summary is returned untrimmed. Only the second-level combination is trimmed (`Reduction.ChainWithinBudget`).
- When the splitter yields no chunk at all, `docs[0].pageContent` throws. The model gives a `Failure` (`Reduction.ChainOfDensity`).

## Model

| member | source | states |
|---|---|---|
| Chunks.IncludesNeedsAnotherChunk | transcription_post_processing.ts:58-83 | no chunk includes itself, nor any chunk it `equals`, whatever the tolerance |
| Chunks.IncludesByLength | transcription_post_processing.ts:58-66 | inclusion looks only at the time spans, the text lengths and the indices, not at the text content |
| Chunks.SameTextIsEquivalence | transcription_post_processing.ts:69-73 | "same text ignoring punctuation" is reflexive, symmetric and transitive |
| Chunks.SameTextExample | transcription_post_processing.ts:69-73 | "Hi!" and "hi" are the same text once punctuation and case are dropped |
| Chunks.FromMatches | transcription_post_processing.ts:188-203 | the chunks carry exactly the matches, in line order; `index` runs 0..n-1 and `sortIndex` starts equal to it, so the chunks are in input order |
| Chunks.ParseChunksFromLines | transcription_post_processing.ts:189-203 | every chunk comes from a line the bracket pattern matches; every matching line gives a chunk; there are no chunks exactly when no line matches |
| Chunks.ChunkFromLine | transcription_post_processing.ts:189-203 | the i-th chunk is the match of some line of `transcript.split('\n')` |
| Chunks.LineToChunk | transcription_post_processing.ts:189-203 | every matching line of the transcript yields a chunk |
| Chunks.Insert | transcription_post_processing.ts:207 | one insertion step of the stable sort adds exactly that chunk to the multiset |
| Chunks.InsertKeepsOrder | transcription_post_processing.ts:207 | inserting keeps neighbours in start order, and ties stay in input order when the inserted chunk was read last |
| Chunks.SortByStart | transcription_post_processing.ts:207 | the sort is a permutation of its input |
| Chunks.SortByStartOrders | transcription_post_processing.ts:207 | the sort orders neighbours by start time, and it is stable on chunks in input order |
| Chunks.SortByStartSorted | transcription_post_processing.ts:207 | start times never decrease after the sort; on input-ordered chunks, ties keep input order |
| Chunks.Renumber | transcription_post_processing.ts:209-211 | only `sortIndex` changes: each chunk with its old `sortIndex` put back is the input chunk, and the new one is its position |
| Chunks.RenumberNumbered | transcription_post_processing.ts:209-211 | renumbering chunks already numbered by position changes nothing |
| Chunks.Arrange | transcription_post_processing.ts:206-211 | after sort and renumbering, chunks are in start order, ties in index order, with `sortIndex` equal to position |
| Chunks.ArrangeIsPermutation | transcription_post_processing.ts:206-211 | each position holds an input chunk with its `sortIndex` set, and every input chunk appears somewhere |
| Chunks.ArrangedFromInput | transcription_post_processing.ts:206-211 | the chunk at each position after arranging is an input chunk |
| Chunks.InputArranged | transcription_post_processing.ts:206-211 | every input chunk sits at some position after arranging |
| Reconcile.Classify | transcription_post_processing.ts:216-241 | the branch a visit takes: included by a live chunk iff some unmarked chunk includes it; otherwise the previous chunk is dropped iff the chunk is compared and its normalised text starts with the previous one; otherwise the chunk is dropped iff the previous text ends with it; the fourth branch is never taken |
| Reconcile.Apply | transcription_post_processing.ts:223-244 | a visit marks at most the chunk or the previous chunk, never unmarks, and moves `previousChunk` to the chunk exactly when the chunk stays unmarked |
| Reconcile.Run | transcription_post_processing.ts:214-246 | after n visits nothing unvisited is marked, everything visited after `previousChunk` is marked, and `previousChunk` is unmarked unless every visited chunk is |
| Reconcile.Visit | transcription_post_processing.ts:216-244 | each visit of the pass takes the branch `Classify` picks on the current marks |
| Reconcile.EqualTextReplacesPrevious | transcription_post_processing.ts:226-244 | of two chunks with equal normalised texts, the later one, when compared and not included, drops the earlier one and becomes `previousChunk` |
| Reconcile.DropsPersist | transcription_post_processing.ts:216-246 | a mark, once set, stays set for the rest of the pass |
| Reconcile.Settled | transcription_post_processing.ts:242-244 | a visited chunk that is no longer `previousChunk` never changes its mark and never becomes `previousChunk` again |
| Reconcile.KeptAlong | transcription_post_processing.ts:216-246 | a chunk that survives was unmarked at every point of the pass |
| Reconcile.NotIncludedAtVisit | transcription_post_processing.ts:218-224 | a chunk unmarked right after its own visit was not included by any chunk live at that moment |
| Reconcile.KeptChunksDoNotInclude | transcription_post_processing.ts:218-224 | no surviving chunk includes another surviving chunk |
| Reconcile.KeptNeighbours | transcription_post_processing.ts:226-244 | when a compared chunk and its `previousChunk` both survive, the later normalised text does not start with the earlier one, the earlier does not end with the later one, and everything between them was dropped. The other two directions are not promised (`CleanUpScenarios.PrefixFollowerSurvives`) |
| Reconcile.Replaced | transcription_post_processing.ts:226-230 | a live `previousChunk` that is dropped in the end while the visited chunk survives was replaced: the chunk's text extends it |
| Reconcile.ConsecutiveKept | transcription_post_processing.ts:226-244 | for two consecutive survivors, either the later normalised text does not start with the earlier one and the earlier does not end with the later one, or the later one replaced a dropped chunk between them whose text it starts with |
| Reconcile.FirstChunkDropsItself | transcription_post_processing.ts:214-228 | as written, the first sorted chunk, when it was not read first and nothing includes it, is dropped by being compared with itself |
| Reconcile.FirstChunkKeptUnlessIncluded | transcription_post_processing.ts:214-228 | with the first visit skipped, the first sorted chunk is dropped on its visit exactly when another chunk includes it |
| CleanUp.Positions | transcription_post_processing.ts:249 | the unmarked positions, strictly increasing |
| CleanUp.PositionsSkipMarked | transcription_post_processing.ts:249 | every position `Positions` skips is marked |
| CleanUp.PositionOf | transcription_post_processing.ts:249 | every unmarked position occurs in `Positions` |
| CleanUp.Survivors | transcription_post_processing.ts:249 | the filter keeps the chunks at the unmarked positions, in order |
| CleanUp.SurvivorsAreUnmarked | transcription_post_processing.ts:249 | a chunk survives the filter iff its position is unmarked |
| CleanUp.SortedTextsCaptured | transcription_post_processing.ts:191-195 | no chunk's text holds a line terminator |
| CleanUp.FullText | transcription_post_processing.ts:253-258 | when no text holds a newline, `fullText` split at newlines gives back the texts and one empty last line |
| CleanUp.FullTextFree | transcription_post_processing.ts:253-258 | `fullText` adds no character other than newlines |
| CleanUp.StripFullText | transcription_post_processing.ts:253-265 | removing brackets from `fullText` is removing them from each text with its newline separately: a match can take the newline after `]` but never reaches into the next text |
| CleanUp.SearchNeedsBracket | transcription_post_processing.ts:191 | a line without '[' never matches the chunk pattern |
| CleanUp.NoLinesNoText | transcription_post_processing.ts:185-267 | a transcript with no matching line cleans up to "" |
| CleanUp.NoBracketNoText | transcription_post_processing.ts:185-267 | a transcript without '[' cleans up to "" |
| CleanUp.SecondCleanUpIsEmpty | transcription_post_processing.ts:185-267 | a clean-up that holds no '[' cleans up again to "", not to itself, because its lines carry no header |
| CleanUp.CleanUpPerLine | transcription_post_processing.ts:249-267 | the output is each surviving text's line with the bracket removal applied, in order |
| CleanUp.CleanUpTranscriptAsWritten | transcription_post_processing.ts:185-268 | the output is each kept chunk's line with the brackets removed; "" for a transcript without '['; and the kept texts line by line when none holds '[' |
| CleanUp.CleanUpTranscriptCorrected | transcription_post_processing.ts:185-268 | the same three facts for the clean-up whose first visit compares nothing |
| CleanUp.CleanUpOfPlainTexts | transcription_post_processing.ts:249-267 | when no surviving text holds '[', the output is every surviving text followed by a newline, and reads back as those texts |
| CleanUp.KeptInOrder | transcription_post_processing.ts:206-249 | the surviving chunks come out in start order, ties in input order |
| CleanUp.KeptDoNotInclude | transcription_post_processing.ts:216-249 | no surviving chunk includes another |
| CleanUp.NeighboursInOutput | transcription_post_processing.ts:226-249 | of two neighbouring output chunks, the second's normalised text does not start with the first's and the first's does not end with the second's, unless a dropped chunk between them is a prefix of the second |
| Strip.LastClose | transcription_post_processing.ts:265 | the last `]` followed by whitespace in a range, or none |
| Strip.BracketEnd | transcription_post_processing.ts:265 | a match starting at '[' ends at least three characters later, within the text |
| Strip.StripBrackets | transcription_post_processing.ts:265 | the removal never lengthens the text, and text without '[' is left unchanged |
| Strip.NewlineAfterCloseJoinsLines | transcription_post_processing.ts:264-265 | the `\s` after `]` takes a newline: "a [x]\nb\n" becomes "a b\n" |
| Strip.CloseNeedsFollowingSpace | transcription_post_processing.ts:264-265 | a `]` followed by a non-space closes nothing: "[t]x\n" is left as it is |
| Strip.StripFromSuffix | transcription_post_processing.ts:265 | removal after a prefix is removal in the suffix alone |
| Strip.StripFromPrefix | transcription_post_processing.ts:265 | from any point of a text that ends in a line terminator, removal over that text followed by more is removal over the text alone followed by removal over the rest: no match reaches past the terminator |
| Strip.StripConcat | transcription_post_processing.ts:265 | stripping a text whose first part ends a line strips the two parts separately |
| CleanUpScenarios.ParseTwoLines | transcription_post_processing.ts:189-203 | two rendered lines parse into their two chunks, indexed 0 and 1 |
| CleanUpScenarios.InOrderSorted | transcription_post_processing.ts:206-211 | two lines in time order keep their order |
| CleanUpScenarios.ArrangeSwapped | transcription_post_processing.ts:206-211 | two chunks out of start order swap places and are renumbered |
| CleanUpScenarios.IncludedLineDropped | transcription_post_processing.ts:218-224 | when the first of two lines includes the second, only the first text is left |
| CleanUpScenarios.PrefixFollowerSurvives | transcription_post_processing.ts:226-244 | "ab" at 0–1 s followed by "a" at 5–6 s keeps both chunks although the earlier text starts with the later one: the neighbour tests look one way only |
| CleanUpScenarios.ContainmentExample | transcription_post_processing.ts:218-224 | `[0 s → 3 s] hello world` with `[1 s → 2 s] hello` cleans up to "hello world\n" |
| CleanUpScenarios.SwappedAsWritten | transcription_post_processing.ts:214-228 | as written, two lines out of time order, neither including the other, lose the earlier-timed line's text |
| CleanUpScenarios.SwappedCorrected | transcription_post_processing.ts:214-228 | with the first visit skipped, both texts are kept, in time order |
| CleanUpScenarios.OutOfOrderExampleAsWritten | transcription_post_processing.ts:214-228 | as written, `[5 s → 6 s] b` then `[1 s → 2 s] a` cleans up to "b\n" |
| CleanUpScenarios.OutOfOrderExampleCorrected | transcription_post_processing.ts:214-228 | corrected, the same transcript cleans up to "a\nb\n" |
| Osa.ComputeDistance | transcription_post_processing.ts:91-129 | the table-filling loops return the recurrence's value for the whole strings, and 99 when either string is empty |
| Osa.FillCell | transcription_post_processing.ts:115-123 | one cell is filled with the minimum of insertion, deletion, substitution and, when the characters cross, the transposition step charged `cost` |
| Osa.DiagonalStep | transcription_post_processing.ts:117-119 | a cell is at most its diagonal neighbour plus the substitution cost |
| Osa.TranspositionStep | transcription_post_processing.ts:121-123 | a cell where the characters cross is at most the cell two back diagonally plus `cost` |
| Osa.CellAtMostMax | transcription_post_processing.ts:104-125 | every cell is at most the longer prefix length |
| Osa.CellAtLeastGap | transcription_post_processing.ts:104-125 | every cell is at least the difference of the prefix lengths |
| Osa.Distance | transcription_post_processing.ts:91-129 | for non-empty strings, the distance is at most max(\|s\|,\|t\|), at least the length difference, and 0 iff the strings are equal |
| Osa.CellZeroEqual | transcription_post_processing.ts:104-125 | a cell of 0 means equal prefix lengths and equal prefixes |
| Osa.CellOfEqualPrefixes | transcription_post_processing.ts:104-125 | conversely, equal prefixes of equal length give a cell of 0 |
| Osa.CellZeroIffEqual | transcription_post_processing.ts:91-129 | the last cell of the table is 0 exactly when the two texts are the same |
| Osa.CellSymmetric | transcription_post_processing.ts:104-125 | swapping the strings transposes the table |
| Osa.DistanceSymmetric | transcription_post_processing.ts:91-129 | the distance does not depend on the order of its arguments |
| Osa.FreeSwapNoBetter | transcription_post_processing.ts:121-123 | a transposition of two equal characters is never better than the diagonal step |
| Osa.SameAsUnitTransposition | transcription_post_processing.ts:121-123 | charging `cost` for a transposition gives the same table as the textbook charge of 1 |
| Osa.TranspositionExample | transcription_post_processing.ts:146 | "Abxy" against "bAxy" is 1 |
| Osa.SubstitutionExample | transcription_post_processing.ts:147 | "Abxy" against "aBxy" is 2: the comparison is case-sensitive and the letters do not cross |
| Density.LastQuote | transcription_post_processing.ts:389 | the last '"' in a range, which is where the backtracking `(.*)"` closes |
| Density.MatchAt | transcription_post_processing.ts:386-422 | a match of either pattern starts where it is found and captures text inside itself |
| Density.Scan | transcription_post_processing.ts:394 | every match `matchAll` yields begins at or after the position the scan resumes from and ends inside the text, and its capture starts after the match's first character and ends within the match |
| Density.ScanYieldsMatches | transcription_post_processing.ts:394 | every match yielded is the pattern's match at its position |
| Density.ScanOrdered | transcription_post_processing.ts:394 | the yielded matches do not overlap |
| Density.ScanFirst | transcription_post_processing.ts:394 | no match starts before the first one yielded |
| Density.ScanGaps | transcription_post_processing.ts:394 | no match starts between two consecutive yielded matches |
| Density.ScanAfterLast | transcription_post_processing.ts:394 | no match starts after the last one yielded |
| Density.ScanOfNoMatch | transcription_post_processing.ts:394 | a text where nothing matches yields nothing |
| Density.LastCaptureIsLast | transcription_post_processing.ts:395-399 | the loop leaves the last match's capture, or "" when there is none |
| Density.ExtractSummary | transcription_post_processing.ts:386-422 | the extracted summary is the capture of the last match of the answer's pattern, or "" when nothing matches |
| Density.LastMatchWins | transcription_post_processing.ts:386-422 | the summary is the capture of a match of the answer's pattern (JSON iff the answer starts with '['), and no match starts after it |
| Density.NoMatchNoSummary | transcription_post_processing.ts:386-422 | an answer where its pattern never matches gives "" |
| Density.MatchesAreLeftmost | transcription_post_processing.ts:386-422 | the matches are exactly the leftmost non-overlapping matches of the answer's pattern: each is a match at its position, they do not overlap, and no match starts before the first, in a gap, or after the last |
| Density.MarkerAtStart | transcription_post_processing.ts:408 | the marker literal matches at the start of a text that begins with it |
| Density.MarkerTakesNextLine | transcription_post_processing.ts:408 | after `Denser summary:` and the rest of its line, the capture is the next line |
| Density.SecondMarkerSwallowed | transcription_post_processing.ts:408 | two marker lines yield the whole second marker line |
| Density.JsonFieldValue | transcription_post_processing.ts:389 | `[{"denser_summary": "x"}]` yields x when x has no quote and no line break |
| Grouping.AddSummary | transcription_post_processing.ts:448-459 | one turn of the grouping loop; the index stays or moves on by one and always names a group or the end |
| Grouping.AddShape | transcription_post_processing.ts:448-459 | one turn appends the summary to the current group, followed by an empty group unless none had been started; the index moves on iff the group's tokens exceed 1024 |
| Grouping.AddValid | transcription_post_processing.ts:448-459 | one turn keeps the invariant: groups before the index went over 1024 with their last summary and not before, the current one is within budget, and at most one empty group follows |
| Grouping.GroupFrom | transcription_post_processing.ts:377-460 | the loop over the summaries keeps that invariant |
| Grouping.GroupFromPacks | transcription_post_processing.ts:377-460 | from a valid state, the loop yields its closed groups followed by the greedy packing of the remaining summaries |
| Grouping.GroupAll | transcription_post_processing.ts:447-459 | the loop keeps the grouping invariant; leaving out empty groups, it builds exactly the greedy packing that closes a group when it goes over 1024; flattening the groups gives back the summaries, in order |
| Grouping.OnlyLastEmpty | transcription_post_processing.ts:448-451 | only the last group can be empty |
| Grouping.PackConcat | transcription_post_processing.ts:447-459 | packing loses, adds and reorders nothing |
| Grouping.PackShape | transcription_post_processing.ts:453-459 | every packed group is non-empty and was within budget before its last summary; every group but the last exceeds 1024 |
| Grouping.PackWithinBudget | transcription_post_processing.ts:457 | summaries within the budget in all stay in one group |
| Grouping.SingleGroup | transcription_post_processing.ts:447-459 | summaries whose tokens total at most 1024 make a single group |
| Grouping.PackCrossing | transcription_post_processing.ts:453-459 | the open group takes the summaries up to the one that first takes it over the budget |
| Grouping.FirstGroupAtCrossing | transcription_post_processing.ts:447-459 | when the running total first exceeds 1024 at summary k, summaries 1..k form the first group and summary k+1 opens the second |
| Reduction.ReduceEach | transcription_post_processing.ts:470 | each group is reduced by the combine prompt over its summaries joined by blank lines |
| Reduction.ReduceGroups | transcription_post_processing.ts:466-474 | there is at most one reduced summary per group |
| Reduction.ReduceSkipsEmpty | transcription_post_processing.ts:468-474 | the reduce loop reduces exactly the non-empty groups, in order |
| Reduction.Summaries | transcription_post_processing.ts:377-447 | the summary of each chunk is the extraction applied to that chunk's answer |
| Reduction.ChainOfDensity | transcription_post_processing.ts:344-485 | the chain fails exactly when there is no chunk |
| Reduction.PackNotEmpty | transcription_post_processing.ts:466-480 | with at least one summary there is at least one group, so at least one reduced summary |
| Reduction.ChainReducesPackedGroups | transcription_post_processing.ts:466-485 | with at least one chunk, the answer is the final step applied to the reduced greedy groups |
| Reduction.ChainWithinBudget | transcription_post_processing.ts:478-480 | summaries within one budget are combined once, and that answer is returned untrimmed |
| Reduction.ChainSeveralGroups | transcription_post_processing.ts:481-485 | with two or more groups, the reduced summaries are combined once more and the answer is trimmed |
| Reduction.FinalSummary | transcription_post_processing.ts:478-485 | one reduced summary is returned as it is; otherwise the answer has no surrounding whitespace |
| Timestamps.TimestampShape | main.ts:403-408 | `timestampToMs` gives a value only for a text `h:m:s.f` with four non-empty digit fields, and the value is h·3600000 + m·60000 + s·1000 + f |
| Timestamps.TimestampOfFields | main.ts:403-408 | conversely, every `h:m:s.f` with non-empty digit fields gives a value, h·3600000 + m·60000 + s·1000 + f |
| Timestamps.FractionIsAnInteger | main.ts:405-406 | "00:00:01.5" is 1005 ms: the fraction is read as an integer |
| Timestamps.ClockOf | main.ts:410-414 | hours = ms div 3600000, with minutes and seconds below 60, millis below 1000, and the fields summing back to ms |
| Timestamps.FormatShape | main.ts:415-418 | a clock in range formats as at least two hour digits, then two, two and three digits |
| Timestamps.MsToTimestamp | main.ts:410-419 | the output has the `HH:MM:SS.mmm` shape |
| Timestamps.FormatParses | main.ts:403-419 | every formatted clock parses back to its total |
| Timestamps.RoundTrip | main.ts:403-419 | `timestampToMs(msToTimestamp(ms)) == ms` for every non-negative ms |
| Decimal.NatToString | main.ts:418 | `n.toString()` is the shortest numeral worth n |
| Decimal.PadStart | main.ts:418 | padding gives at least the width |
| Decimal.PadStartValue | main.ts:418 | zero padding keeps a numeral's value |
| Decimal.LeadingZeros | main.ts:406 | `Number` ignores leading zeros |
| TranscriptLine.ScanTimestamp | main.ts:257 | `\d+:\d+:\d+\.\d+` at a position matches up to the end of a digit run |
| TranscriptLine.ScanConverts | main.ts:257-264 | a scanned timestamp's value is `timestampToMs` of its text |
| TranscriptLine.CaptureText | main.ts:257 | `\s*(.*)` captures text without a line terminator or leading whitespace |
| TranscriptLine.HeaderAt | main.ts:257 | a header match closes on a ']' inside the line |
| TranscriptLine.MatchAt | main.ts:257 | the pattern matches at a position iff a header does |
| TranscriptLine.SearchLine | main.ts:257-258 | `line.match` finds the leftmost position where the pattern matches, or none |
| TranscriptLine.RenderParses | main.ts:257-269 | a line written as `[start --> end] text` is read back as those times and that text |
| TranscriptLine.RenderMatch | main.ts:269 | the rewritten line reads back as the match it was written from |
| TranscriptLine.RewriteLine | main.ts:257-269 | a matching line is rewritten to one that reads back as both times shifted by t0 with the text unchanged; a non-matching line gives nothing |
| TranscriptLine.Bracketed | main.ts:245 | the kept lines are those starting with '[' |
| TranscriptLine.BracketedOne | main.ts:245 | one line is kept exactly when it starts with '[' |
| TranscriptLine.BracketedConcat | main.ts:245 | the filter distributes over concatenation, so kept lines keep their order and their repeats |
| TranscriptLine.FoundConcat | main.ts:253-273 | the matches of two runs of lines are the matches of each, in order |
| TranscriptLine.NoMatches | main.ts:253-273 | there are no matches exactly when no line matches |
| TranscriptLine.RewriteAll | main.ts:252-273 | the k-th output line reads back as the k-th match shifted by t0 |
| TranscriptLine.RewriteBlock | main.ts:245-273 | when no line holds a newline, one output line per matching bracket line, the k-th reading back as the k-th match shifted by t0 |
| TranscriptLine.RewriteBlockLines | main.ts:245-273 | joining the bracket lines and splitting them again gives them back, so the block's rewrite is the rewrite of its bracket lines |
| TranscriptLine.ShapedValueOf | main.ts:403-419 | reading a formatted timestamp field by field gives back the milliseconds |
| Text.Norm | transcription_post_processing.ts:72 | the normalised text holds only lower-case word characters and whitespace |
| Text.NormIdempotent | transcription_post_processing.ts:72 | normalising twice is normalising once |
| Text.NormConcat | transcription_post_processing.ts:72 | normalisation works character by character |
| Text.NormChar | transcription_post_processing.ts:72 | one character is deleted unless it is a word character or whitespace, and a kept one is lowercased; with NormConcat this fixes the normal form of every text |
| Text.Split | main.ts:404 | `split` returns at least one piece |
| Text.JoinSplit | main.ts:245-252 | splitting then joining with the same separator gives back the text |
| Text.SplitJoin | main.ts:245-252 | joining pieces free of the separator then splitting gives back the pieces |
| Text.Trim | transcription_post_processing.ts:483 | the result neither starts nor ends with whitespace, and only whitespace was removed |
| Text.TrimOfTrimmed | transcription_post_processing.ts:483 | text without surrounding whitespace is its own trim |
| Languages.Filter | main.ts:431 | the filter returns no more entries than it is given |
| Languages.FilterMembers | main.ts:431 | the filter keeps every matching entry and only matching entries |
| Languages.FilterAppend | main.ts:431 | the filter keeps the entries' order |
| Languages.Suggestions | main.ts:430-433 | every suggestion is a language whose lower-cased code starts with the lower-cased query, and every such language is suggested |
| Languages.EmptyQueryOffersAll | main.ts:422-433 | an empty query offers 'en' and 'fr', in that order |
| Languages.SuggestionsIgnoreCase | main.ts:431 | the query's letter case does not matter |
| Languages.LongQueryOffersNothing | main.ts:422-433 | a query longer than two characters offers nothing |
| Languages.FirstLetterPicksOne | main.ts:422-433 | a language's first letter, in either case, offers that language alone |

## Left out

- The language model, the tokenizer and the recursive character text splitter (chunk size 2048, overlap 200) are library code. They are parameters (`generate`, `densify`, `tokens`, `docs`), and their behaviour is not modelled.
- Loading the density prompt from disk and formatting its template are file I/O and library code. `densify` stands for the formatted prompt's answer.
- All `console.log` output, the callback handler and the random API-key assignment are side effects with no bearing on results.
- `tldr`, `deduplicateWithGenAI`, `process` and the map-reduce chains are outside the modelled core. So are the Obsidian plugin host, its UI and settings, vault writes, process spawning and stdout buffering.
- The bullet-point branch of the extraction is dead code, because `matchAll` returns an iterator, which is always truthy.
- `toLowerCase` and `\w` are modelled on ASCII only. Non-ASCII letters are neither word characters nor case-folded.
- `String.length` counts UTF-16 code units, but the model counts Dafny characters. The two agree for text in the Basic Multilingual Plane.
- Timestamps.TimestampToMs: JavaScript's `Number` also accepts signs, exponents and whitespace, and `split` tolerates extra separators. The model gives `None` for anything outside `\d+:\d+:\d+\.\d+`. Those are the only texts the bracket pattern hands it.
- Timestamps.TimestampToMs: the fields are read as unbounded naturals. JavaScript's `Number` loses integer precision above 2^53, and so does the sum, so very long numerals do not give the exact value the model gives.
- Timestamps.RoundTrip: holds for unbounded naturals. In JavaScript it fails once the milliseconds pass 2^53 or the hours reach 1e21, where `toString` switches to exponent notation.
- Timestamps.MsToTimestamp: defined on non-negative integers only. The recogniser's offsets and the block start are non-negative whole milliseconds, so floating-point milliseconds are not modelled. The hours are printed as an unbounded numeral, where JavaScript's `toString` would switch to exponent notation at 1e21.
- Osa.ComputeDistance: the source builds its table with JavaScript arrays. The model uses a fixed-size two-dimensional array, which the loops fill in the same order.
- Text.Split: models a one-character separator only, which is all the core uses.

## Findings

| source | as written | input that shows it | evidently intended | confidence | as-written member | corrected member |
|---|---|---|---|---|---|---|
| transcription_post_processing.ts:214-228 | `previousChunk` starts as the first sorted chunk. When that chunk's input index is positive, its first visit compares it with itself, its normalised text starts with itself, and it is marked as not to be kept. | `[00:00:05.000 --> 00:00:06.000] b` followed by `[00:00:01.000 --> 00:00:02.000] a` cleans up to "b\n": the line `a` is lost although nothing includes or repeats it | the first visit compares nothing, so both lines are kept and the output is "a\nb\n" | not executed | CleanUpScenarios.OutOfOrderExampleAsWritten | CleanUpScenarios.OutOfOrderExampleCorrected |

The corrected variant, `FirstSkipped` of `Reconcile.Variant`, skips only
the first visit and keeps every other test of the loop as written. `CleanUp.CleanUpTranscriptCorrected` is the clean-up with that
variant. `CleanUp.CleanUpTranscriptAsWritten` is the code as it stands.

=== FILE: chunks.dfy ===
/**
 * `TranscriptChunk` and the first half of `cleanUpTranscript`: every line of
 * the transcript that matches the bracket pattern becomes a chunk numbered in
 * input order, and the chunks are stably sorted by start time.
 */
module Chunks {
  import opened Wrappers
  import opened Text
  import opened TranscriptLine

  /**
   * A `TranscriptChunk`. `index` is the chunk's position among the matching
   * lines; `sortIndex` its position after sorting. Whether a chunk is kept is
   * not a field here: the clean-up pass keeps it in a map beside the chunks.
   */
  datatype Chunk = Chunk(text: string, startMs: nat, endMs: nat, index: nat, sortIndex: nat)

  /** The tolerance `cleanUpTranscript` passes to `includes`. */
  const ContainmentToleranceMs: nat := 100

  /**
   * `c.includes(other, tol)`: `other`'s time span lies within `c`'s, widened by
   * `tol` on both sides, `c`'s text is at least as long, and the two chunks
   * have different indices.
   */
  predicate Includes(c: Chunk, other: Chunk, tol: int) {
    && c.startMs - tol <= other.startMs
    && c.endMs + tol >= other.endMs
    && |c.text| >= |other.text|
    && c.index != other.index
  }

  /** `sameTextIgnoringPunction`: equal texts once punctuation is dropped and case folded. */
  predicate SameTextIgnoringPunctuation(c: Chunk, other: Chunk) {
    Norm(c.text) == Norm(other.text)
  }

  /** `equals`: chunks are identified by their index. */
  predicate Equals(c: Chunk, other: Chunk) {
    c.index == other.index
  }

  /** No chunk includes itself, nor any chunk it `equals`, whatever the tolerance. */
  lemma IncludesNeedsAnotherChunk(c: Chunk, other: Chunk, tol: int)
    ensures Equals(c, other) ==> !Includes(c, other, tol)
    ensures !Includes(c, c, tol)
  {
  }

  /** Inclusion is decided by time span, text length and index alone: text content is irrelevant. */
  lemma IncludesByLength(c: Chunk, other: Chunk, other2: Chunk, tol: int)
    requires other2 == other.(text := other2.text) && |other2.text| == |other.text|
    ensures Includes(c, other, tol) <==> Includes(c, other2, tol)
  {
  }

  /** Ignoring punctuation, a text is the same as itself, and the relation is symmetric. */
  lemma SameTextIsEquivalence(a: Chunk, b: Chunk, c: Chunk)
    ensures SameTextIgnoringPunctuation(a, a)
    ensures SameTextIgnoringPunctuation(a, b) ==> SameTextIgnoringPunctuation(b, a)
    ensures SameTextIgnoringPunctuation(a, b) && SameTextIgnoringPunctuation(b, c) ==> SameTextIgnoringPunctuation(a, c)
  {
  }

  /** Texts that differ only in punctuation and letter case are the same text. */
  lemma SameTextExample()
    ensures SameTextIgnoringPunctuation(Chunk("Hi!", 0, 0, 0, 0), Chunk("hi", 0, 0, 1, 1))
  {
    assert Norm("!") == "";
    assert Norm("i!") == "i";
    assert Norm("Hi!") == "hi";
    assert Norm("i") == "i";
  }

  /** The matches of a transcript's lines, one per line of `transcript.split('\n')`. */
  function TranscriptMatches(transcript: string): seq<LineMatch> {
    Matches(Split(transcript, '\n'))
  }

  /** The match a chunk was built from. */
  function MatchOf(c: Chunk): LineMatch {
    LineMatch(c.startMs, c.endMs, c.text)
  }

  /**
   * The chunks built while reading the transcript: one per matching line of
   * `transcript.split('\n')`, in input order.
   */
  function ParseChunks(transcript: string): seq<Chunk> {
    FromMatches(TranscriptMatches(transcript))
  }

  /**
   * One chunk per match, numbered in order: projecting the chunks back onto
   * their times and texts gives the matches, `index` counts 0, 1, 2, ... and
   * `sortIndex` starts equal to `index`.
   */
  function FromMatches(ms: seq<LineMatch>): (cs: seq<Chunk>)
    ensures |cs| == |ms|
    ensures forall i :: 0 <= i < |cs| ==> MatchOf(cs[i]) == ms[i]
    ensures forall i :: 0 <= i < |cs| ==> cs[i].index == i
    ensures forall i :: 0 <= i < |cs| ==> cs[i].sortIndex == cs[i].index
    ensures InInputOrder(cs)
  {
    seq(|ms|, i requires 0 <= i < |ms| => Chunk(ms[i].text, ms[i].startMs, ms[i].endMs, i, i))
  }

  /** The `i`-th chunk is the match of line `l` of the transcript. */
  lemma ChunkFromLine(transcript: string, i: nat) returns (l: nat)
    requires i < |ParseChunks(transcript)|
    ensures l < |Split(transcript, '\n')|
    ensures SearchLine(Split(transcript, '\n')[l]) == Some(MatchOf(ParseChunks(transcript)[i]))
  {
    var lines := Split(transcript, '\n');
    var ms := Matches(lines);
    assert ParseChunks(transcript) == FromMatches(ms);
    var c := ParseChunks(transcript)[i];
    assert MatchOf(c) == ms[i];
    MatchFromLine(lines, i);
    l :| 0 <= l < |lines| && SearchLine(lines[l]) == Some(ms[i]);
  }

  /** A matching line of the transcript gives a chunk. */
  lemma LineToChunk(transcript: string, l: nat)
    requires var lines := Split(transcript, '\n'); l < |lines| && SearchLine(lines[l]).Some?
    ensures var lines := Split(transcript, '\n'); var cs := ParseChunks(transcript);
      exists i :: 0 <= i < |cs| && SearchLine(lines[l]) == Some(MatchOf(cs[i]))
  {
    var lines := Split(transcript, '\n');
    var cs := ParseChunks(transcript);
    LineToMatch(lines, l);
    var k :| 0 <= k < |Matches(lines)| && SearchLine(lines[l]) == Some(Matches(lines)[k]);
    assert MatchOf(cs[k]) == Matches(lines)[k];
  }

  /**
   * Every chunk comes from a line of the transcript that the bracket pattern
   * matches, every matching line gives a chunk, and there are no chunks
   * exactly when no line matches.
   */
  lemma ParseChunksFromLines(transcript: string)
    ensures var lines := Split(transcript, '\n'); var cs := ParseChunks(transcript);
      && (forall i :: 0 <= i < |cs| ==> SomeLineGives(lines, MatchOf(cs[i])))
      && (forall l :: 0 <= l < |lines| && SearchLine(lines[l]).Some? ==>
            exists i :: 0 <= i < |cs| && SearchLine(lines[l]) == Some(MatchOf(cs[i])))
      && (cs == [] <==> NoLineMatches(lines))
  {
    ChunksFromLines(transcript);
    LinesToChunks(transcript);
    NoChunksNoMatches(transcript);
  }

  /** Every chunk is the match of some line. */
  lemma ChunksFromLines(transcript: string)
    ensures var cs := ParseChunks(transcript);
      forall i :: 0 <= i < |cs| ==> SomeLineGives(Split(transcript, '\n'), MatchOf(cs[i]))
  {
    var lines := Split(transcript, '\n');
    var cs := ParseChunks(transcript);
    forall i | 0 <= i < |cs|
      ensures SomeLineGives(lines, MatchOf(cs[i]))
    {
      var l := ChunkFromLine(transcript, i);
      assert l < |lines| && SearchLine(lines[l]) == Some(MatchOf(cs[i]));
    }
  }

  /** Every matching line gives a chunk. */
  lemma LinesToChunks(transcript: string)
    ensures var lines := Split(transcript, '\n'); var cs := ParseChunks(transcript);
      forall l :: 0 <= l < |lines| && SearchLine(lines[l]).Some? ==>
        exists i :: 0 <= i < |cs| && SearchLine(lines[l]) == Some(MatchOf(cs[i]))
  {
    var lines := Split(transcript, '\n');
    var cs := ParseChunks(transcript);
    forall l | 0 <= l < |lines| && SearchLine(lines[l]).Some?
      ensures exists i :: 0 <= i < |cs| && SearchLine(lines[l]) == Some(MatchOf(cs[i]))
    {
      LineToChunk(transcript, l);
    }
  }

  /** There are no chunks exactly when no line matches. */
  lemma NoChunksNoMatches(transcript: string)
    ensures ParseChunks(transcript) == [] <==> NoLineMatches(Split(transcript, '\n'))
  {
    var lines := Split(transcript, '\n');
    var ms := Matches(lines);
    var cs := ParseChunks(transcript);
    assert |cs| == |ms|;
    NoMatches(lines);
    if NoLineMatches(lines) {
      assert |ms| == 0;
      assert cs == [];
    } else {
      assert |ms| > 0;
      assert cs != [];
    }
  }

  /** Start times never decrease. */
  predicate ByStart(s: seq<Chunk>) {
    forall i, j :: 0 <= i < j < |s| ==> s[i].startMs <= s[j].startMs
  }

  /** `a` comes before `b` in a stable sort of chunks numbered in input order. */
  predicate Precedes(a: Chunk, b: Chunk) {
    a.startMs < b.startMs || (a.startMs == b.startMs && a.index < b.index)
  }

  /** Ordered by start time, ties in index order. */
  predicate ByStartThenIndex(s: seq<Chunk>) {
    forall i, j :: 0 <= i < j < |s| ==> Precedes(s[i], s[j])
  }

  /** Indices strictly increase: the order chunks are read in. */
  predicate InInputOrder(s: seq<Chunk>) {
    forall i, j :: 0 <= i < j < |s| ==> s[i].index < s[j].index
  }

  /** `ByStart`, stated on neighbours. */
  predicate StartsInOrder(s: seq<Chunk>) {
    forall i :: 0 < i < |s| ==> s[i - 1].startMs <= s[i].startMs
  }

  /** `ByStartThenIndex`, stated on neighbours. */
  predicate StableOrder(s: seq<Chunk>) {
    forall i :: 0 < i < |s| ==> Precedes(s[i - 1], s[i])
  }

  /** Every chunk of `s` has a smaller index than `x`. */
  predicate AllBefore(s: seq<Chunk>, x: Chunk) {
    forall i :: 0 <= i < |s| ==> s[i].index < x.index
  }

  /** Places `x` after every chunk of `s` that does not start later than it. */
  function Insert(x: Chunk, s: seq<Chunk>): (r: seq<Chunk>)
    ensures |r| == |s| + 1
    ensures multiset(r) == multiset(s) + multiset{x}
    ensures r[0] == x || (|s| > 0 && r[0] == s[0])
    decreases |s|
  {
    if |s| == 0 then [x]
    else if x.startMs < s[0].startMs then [x] + s
    else
      var rest := Insert(x, s[1..]);
      assert s == [s[0]] + s[1..];
      [s[0]] + rest
  }

  /** Inserting keeps neighbours in start order, and in stable order when `x` was read last. */
  lemma {:induction false} InsertKeepsOrder(x: Chunk, s: seq<Chunk>)
    ensures StartsInOrder(s) ==> StartsInOrder(Insert(x, s))
    ensures StableOrder(s) && AllBefore(s, x) ==> StableOrder(Insert(x, s))
    decreases |s|
  {
    if |s| > 0 && x.startMs >= s[0].startMs {
      var tail := s[1..];
      InsertKeepsOrder(x, tail);
      var rest := Insert(x, tail);
      var r := [s[0]] + rest;
      assert Insert(x, s) == r;
      if StartsInOrder(s) {
        assert StartsInOrder(tail);
        assert forall i :: 0 < i < |r| ==> r[i] == rest[i - 1];
      }
      if StableOrder(s) && AllBefore(s, x) {
        assert StableOrder(tail) && AllBefore(tail, x);
        assert forall i :: 0 < i < |r| ==> r[i] == rest[i - 1];
      }
    }
  }

  /**
   * `transcriptChunks.sort((a, b) => a.startTimeMs - b.startTimeMs)`: a stable
   * sort by start time (insertion sort, as the ECMAScript sort is stable).
   */
  function SortByStart(cs: seq<Chunk>): (r: seq<Chunk>)
    ensures |r| == |cs|
    ensures multiset(r) == multiset(cs)
    decreases |cs|
  {
    if |cs| == 0 then []
    else
      var init := cs[..|cs| - 1];
      assert cs == init + [cs[|cs| - 1]];
      Insert(cs[|cs| - 1], SortByStart(init))
  }

  /** A rearrangement of the chunks read before `x` holds only smaller indices than `x`'s. */
  lemma EarlierChunks(init: seq<Chunk>, x: Chunk, r: seq<Chunk>)
    requires multiset(r) == multiset(init)
    requires InInputOrder(init + [x])
    ensures AllBefore(r, x)
  {
    forall i | 0 <= i < |r|
      ensures r[i].index < x.index
    {
      assert r[i] in multiset(init);
      var k :| 0 <= k < |init| && init[k] == r[i];
      assert (init + [x])[k] == init[k] && (init + [x])[|init|] == x;
    }
  }

  /** The sort orders by start time; on chunks in input order it is stable. */
  lemma SortByStartOrders(cs: seq<Chunk>)
    ensures StartsInOrder(SortByStart(cs))
    ensures InInputOrder(cs) ==> StableOrder(SortByStart(cs))
  {
    SortByStartInOrder(cs);
    if InInputOrder(cs) {
      SortByStartStable(cs);
    }
  }

  /** The sort leaves neighbours in start order. */
  lemma {:induction false} SortByStartInOrder(cs: seq<Chunk>)
    ensures StartsInOrder(SortByStart(cs))
    decreases |cs|
  {
    if |cs| > 0 {
      var init := cs[..|cs| - 1];
      var x := cs[|cs| - 1];
      SortByStartInOrder(init);
      InsertKeepsOrder(x, SortByStart(init));
    }
  }

  /** On chunks in input order the sort is stable. */
  lemma {:induction false} SortByStartStable(cs: seq<Chunk>)
    requires InInputOrder(cs)
    ensures StableOrder(SortByStart(cs))
    decreases |cs|
  {
    if |cs| > 0 {
      var init := cs[..|cs| - 1];
      var x := cs[|cs| - 1];
      assert InInputOrder(init + [x]) by { assert cs == init + [x]; }
      assert InInputOrder(init) by { assert forall i :: 0 <= i < |init| ==> init[i] == cs[i]; }
      SortByStartStable(init);
      EarlierChunks(init, x, SortByStart(init));
      InsertKeepsOrder(x, SortByStart(init));
    }
  }

  /** Order between neighbours is order between any two positions. */
  lemma {:induction false} NeighboursToAll(s: seq<Chunk>)
    ensures StartsInOrder(s) ==> ByStart(s)
    ensures StableOrder(s) ==> ByStartThenIndex(s)
    decreases |s|
  {
    if |s| > 1 {
      var n := |s| - 1;
      var init := s[..n];
      NeighboursToAll(init);
      assert forall i :: 0 <= i < n ==> init[i] == s[i];
      if StartsInOrder(s) {
        assert StartsInOrder(init);
        forall i, j | 0 <= i < j < |s|
          ensures s[i].startMs <= s[j].startMs
        {
          if j < n {
            assert init[i].startMs <= init[j].startMs;
          } else if i < n - 1 {
            assert init[i].startMs <= init[n - 1].startMs;
          }
        }
      }
      if StableOrder(s) {
        assert StableOrder(init);
        forall i, j | 0 <= i < j < |s|
          ensures Precedes(s[i], s[j])
        {
          if j < n {
            assert Precedes(init[i], init[j]);
          } else if i < n - 1 {
            assert Precedes(init[i], init[n - 1]);
          }
        }
      }
    }
  }

  /** The stable sort of chunks numbered in input order is ordered by start time, ties by index. */
  lemma SortByStartSorted(cs: seq<Chunk>)
    ensures ByStart(SortByStart(cs))
    ensures InInputOrder(cs) ==> ByStartThenIndex(SortByStart(cs))
  {
    SortByStartOrders(cs);
    NeighboursToAll(SortByStart(cs));
  }

  /** The loop after the sort: every chunk's `sortIndex` becomes its position. */
  function Renumber(s: seq<Chunk>): (r: seq<Chunk>)
    ensures |r| == |s|
    ensures forall i :: 0 <= i < |r| ==> r[i].sortIndex == i
    ensures forall i :: 0 <= i < |r| ==> r[i].(sortIndex := s[i].sortIndex) == s[i]
  {
    seq(|s|, i requires 0 <= i < |s| => s[i].(sortIndex := i))
  }

  /** Chunks already numbered by position come through the renumbering unchanged. */
  lemma RenumberNumbered(s: seq<Chunk>)
    requires forall i :: 0 <= i < |s| ==> s[i].sortIndex == i
    ensures Renumber(s) == s
  {
    var r := Renumber(s);
    forall i | 0 <= i < |s|
      ensures r[i] == s[i]
    {
      assert r[i].(sortIndex := s[i].sortIndex) == s[i];
    }
  }

  /** Sorting by start time, then recording each chunk's position as its `sortIndex`. */
  function Arrange(cs: seq<Chunk>): (r: seq<Chunk>)
    ensures |r| == |cs|
    ensures InInputOrder(cs) ==> ByStartThenIndex(r)
    ensures ByStart(r)
    ensures forall i :: 0 <= i < |r| ==> r[i].sortIndex == i
  {
    var s := SortByStart(cs);
    SortByStartSorted(cs);
    Renumber(s)
  }

  /** The chunk at position `i` after arranging is an input chunk with its `sortIndex` set. */
  lemma ArrangedFromInput(cs: seq<Chunk>, i: nat)
    requires i < |cs|
    ensures exists k :: 0 <= k < |cs| && Arrange(cs)[i] == cs[k].(sortIndex := i)
  {
    var s := SortByStart(cs);
    assert Arrange(cs)[i] == s[i].(sortIndex := i);
    assert s[i] in multiset(cs);
    var k :| 0 <= k < |cs| && cs[k] == s[i];
  }

  /** Every input chunk is somewhere after arranging. */
  lemma InputArranged(cs: seq<Chunk>, k: nat)
    requires k < |cs|
    ensures exists i :: 0 <= i < |cs| && Arrange(cs)[i] == cs[k].(sortIndex := i)
  {
    var s := SortByStart(cs);
    assert cs[k] in multiset(s);
    var i :| 0 <= i < |s| && s[i] == cs[k];
    assert Arrange(cs)[i] == s[i].(sortIndex := i);
  }

  /**
   * Arranging only reorders: the chunk at every position is an input chunk
   * with its `sortIndex` set, and every input chunk appears at some position.
   */
  lemma ArrangeIsPermutation(cs: seq<Chunk>)
    ensures var r := Arrange(cs);
      && (forall i :: 0 <= i < |r| ==> exists k :: 0 <= k < |cs| && r[i] == cs[k].(sortIndex := i))
      && (forall k :: 0 <= k < |cs| ==> exists i :: 0 <= i < |r| && r[i] == cs[k].(sortIndex := i))
  {
    var r := Arrange(cs);
    forall i | 0 <= i < |r|
      ensures exists k :: 0 <= k < |cs| && r[i] == cs[k].(sortIndex := i)
    {
      ArrangedFromInput(cs, i);
    }
    forall k | 0 <= k < |cs|
      ensures exists i :: 0 <= i < |r| && r[i] == cs[k].(sortIndex := i)
    {
      InputArranged(cs, k);
    }
  }

  /** The chunks of a transcript as the clean-up pass sees them: parsed, sorted and renumbered. */
  function SortedChunks(transcript: string): seq<Chunk> {
    Arrange(ParseChunks(transcript))
  }
}

=== FILE: cleanup.dfy ===
/**
 * `cleanUpTranscript` end to end: parse the bracket lines into chunks, sort
 * them, run the de-duplication pass, keep the chunks not marked, write each
 * kept text followed by "\n", and remove the `\[.*\]\s` spans.
 */
module CleanUp {
  import opened Wrappers
  import opened Text
  import opened TranscriptLine
  import opened Chunks
  import opened Reconcile
  import opened Strip

  /** The positions from `from` on that are not marked, in increasing order. */
  function Positions(dropped: seq<bool>, from: nat): (ps: seq<nat>)
    requires from <= |dropped|
    ensures forall k :: 0 <= k < |ps| ==> from <= ps[k] < |dropped| && !dropped[ps[k]]
    ensures forall k, l :: 0 <= k < l < |ps| ==> ps[k] < ps[l]
    decreases |dropped| - from
  {
    if from == |dropped| then []
    else
      var rest := Positions(dropped, from + 1);
      if dropped[from] then rest
      else
        var ps := [from] + rest;
        assert forall k :: 0 < k < |ps| ==> ps[k] == rest[k - 1];
        ps
  }

  /** Every position from `from` on that `Positions` skips is marked: before the first, between neighbours, after the last. */
  lemma PositionsSkipMarked(dropped: seq<bool>, from: nat)
    requires from <= |dropped|
    ensures var ps := Positions(dropped, from);
      forall p :: from <= p < |dropped| && (|ps| == 0 || p < ps[0]) ==> dropped[p]
    ensures var ps := Positions(dropped, from);
      forall k, j :: 0 <= k < |ps| - 1 && ps[k] < j < ps[k + 1] ==> dropped[j]
    ensures var ps := Positions(dropped, from);
      forall p :: |ps| > 0 && ps[|ps| - 1] < p < |dropped| ==> dropped[p]
  {
    var ps := Positions(dropped, from);
    SkippedBeforeFirst(dropped, from);
    SkippedBetween(dropped, from);
    SkippedAfterLast(dropped, from);
    forall k, j | 0 <= k < |ps| - 1 && ps[k] < j < ps[k + 1]
      ensures dropped[j]
    {
      assert GapMarked(dropped, ps[k], ps[k + 1]);
    }
  }

  /** The positions before the first kept one are marked. */
  lemma {:induction false} SkippedBeforeFirst(dropped: seq<bool>, from: nat)
    requires from <= |dropped|
    ensures var ps := Positions(dropped, from);
      forall p :: from <= p < |dropped| && (|ps| == 0 || p < ps[0]) ==> dropped[p]
    decreases |dropped| - from
  {
    if from < |dropped| && dropped[from] {
      SkippedBeforeFirst(dropped, from + 1);
    }
  }

  /** Every position strictly between `lo` and `hi` is marked. */
  predicate GapMarked(dropped: seq<bool>, lo: nat, hi: nat) {
    forall j :: lo < j < hi && j < |dropped| ==> dropped[j]
  }

  /** The positions between two neighbouring kept ones are marked. */
  lemma {:induction false} SkippedBetween(dropped: seq<bool>, from: nat)
    requires from <= |dropped|
    ensures var ps := Positions(dropped, from);
      forall k :: 0 <= k < |ps| - 1 ==> GapMarked(dropped, ps[k], ps[k + 1])
    decreases |dropped| - from
  {
    if from < |dropped| {
      SkippedBetween(dropped, from + 1);
      var rest := Positions(dropped, from + 1);
      var ps := Positions(dropped, from);
      if !dropped[from] {
        SkippedBeforeFirst(dropped, from + 1);
        forall k | 0 <= k < |ps| - 1
          ensures GapMarked(dropped, ps[k], ps[k + 1])
        {
          assert ps[k + 1] == rest[k];
          if k > 0 {
            assert ps[k] == rest[k - 1];
          }
        }
      } else {
        assert ps == rest;
      }
    }
  }

  /** The positions after the last kept one are marked. */
  lemma {:induction false} SkippedAfterLast(dropped: seq<bool>, from: nat)
    requires from <= |dropped|
    ensures var ps := Positions(dropped, from);
      forall p :: |ps| > 0 && ps[|ps| - 1] < p < |dropped| ==> dropped[p]
    decreases |dropped| - from
  {
    if from < |dropped| {
      SkippedAfterLast(dropped, from + 1);
      var rest := Positions(dropped, from + 1);
      var ps := Positions(dropped, from);
      if dropped[from] {
        assert ps == rest;
      } else if |rest| == 0 {
        assert ps == [from];
        SkippedBeforeFirst(dropped, from + 1);
      } else {
        assert ps[|ps| - 1] == rest[|rest| - 1];
      }
    }
  }

  /** Where an unmarked position sits among `Positions`. */
  lemma {:induction false} PositionOf(dropped: seq<bool>, from: nat, p: nat) returns (k: nat)
    requires from <= p < |dropped| && !dropped[p]
    ensures k < |Positions(dropped, from)| && Positions(dropped, from)[k] == p
    decreases p - from
  {
    if from == p {
      k := 0;
    } else {
      var k' := PositionOf(dropped, from + 1, p);
      k := if dropped[from] then k' else k' + 1;
    }
  }

  /**
   * `transcriptChunks.filter(chunk => chunk.toKeep !== false)` from position
   * `from` on: the chunks at the unmarked positions, in order.
   */
  function Survivors(s: seq<Chunk>, dropped: seq<bool>, from: nat): (r: seq<Chunk>)
    requires |dropped| == |s| && from <= |s|
    ensures |r| == |Positions(dropped, from)|
    ensures forall k :: 0 <= k < |r| ==> r[k] == s[Positions(dropped, from)[k]]
    decreases |s| - from
  {
    if from == |s| then []
    else (if dropped[from] then [] else [s[from]]) + Survivors(s, dropped, from + 1)
  }

  /** The texts of the chunks, in order. */
  function Texts(cs: seq<Chunk>): (ts: seq<string>)
    ensures |ts| == |cs|
  {
    seq(|cs|, i requires 0 <= i < |cs| => cs[i].text)
  }

  /** A line followed by a newline splits off as the first piece. */
  lemma LineThenRest(a: string, rest: string)
    ensures Free(a, '\n') ==> Split(a + "\n" + rest, '\n') == [a] + Split(rest, '\n')
  {
    if Free(a, '\n') {
      SplitCons(a, rest, '\n');
    }
  }

  /**
   * `fullText` after the loop that appends `chunk.text + "\n"` for every chunk.
   * When no text holds a newline, reading it back line by line gives the
   * texts and one empty last line.
   */
  function FullText(cs: seq<Chunk>): (r: string)
    ensures (forall k :: 0 <= k < |cs| ==> Free(cs[k].text, '\n')) ==> Split(r, '\n') == Texts(cs) + [""]
    decreases |cs|
  {
    if |cs| == 0 then
      assert Split("", '\n') == [""];
      ""
    else
      var rest := FullText(cs[1..]);
      LineThenRest(cs[0].text, rest);
      assert Texts(cs) == [cs[0].text] + Texts(cs[1..]);
      (cs[0].text + "\n") + rest
  }

  /** The clean-up, with the de-duplication pass in variant `v`. */
  function CleanUpWith(v: Variant, transcript: string): string {
    var s := SortedChunks(transcript);
    StripBrackets(FullText(Survivors(s, Final(v, s).dropped, 0)))
  }

  /**
   * `cleanUpTranscript` as the code is written: every kept chunk's text with
   * its newline, each run through the bracket removal; nothing for a
   * transcript without '['; and, when no kept text holds '[', exactly the
   * kept texts line by line.
   */
  function CleanUpTranscriptAsWritten(transcript: string): (r: string)
    ensures r == StripEach(Kept(AsWritten, transcript))
    ensures Free(transcript, '[') ==> r == ""
    ensures (forall k :: 0 <= k < |Kept(AsWritten, transcript)| ==> Free(Kept(AsWritten, transcript)[k].text, '['))
      ==> Split(r, '\n') == Texts(Kept(AsWritten, transcript)) + [""]
  {
    CleanUpShape(AsWritten, transcript);
    CleanUpWith(AsWritten, transcript)
  }

  /** `cleanUpTranscript` with the first chunk not compared with itself; the same three facts hold. */
  function CleanUpTranscriptCorrected(transcript: string): (r: string)
    ensures r == StripEach(Kept(FirstSkipped, transcript))
    ensures Free(transcript, '[') ==> r == ""
    ensures (forall k :: 0 <= k < |Kept(FirstSkipped, transcript)| ==> Free(Kept(FirstSkipped, transcript)[k].text, '['))
      ==> Split(r, '\n') == Texts(Kept(FirstSkipped, transcript)) + [""]
  {
    CleanUpShape(FirstSkipped, transcript);
    CleanUpWith(FirstSkipped, transcript)
  }

  /** The chunks that survive the pass on a transcript. */
  function Kept(v: Variant, transcript: string): seq<Chunk> {
    var s := SortedChunks(transcript);
    Survivors(s, Final(v, s).dropped, 0)
  }

  /** Every sorted chunk's text is what `\s*(.*)` captured: no line terminator in it. */
  lemma SortedTextsCaptured(transcript: string)
    ensures forall p :: 0 <= p < |SortedChunks(transcript)| ==> IsCapturedText(SortedChunks(transcript)[p].text)
  {
    var cs := ParseChunks(transcript);
    ParsedTextsCaptured(transcript);
    forall p | 0 <= p < |Arrange(cs)|
      ensures IsCapturedText(Arrange(cs)[p].text)
    {
      ArrangedFromInput(cs, p);
    }
  }

  /** Every parsed chunk's text is what `\s*(.*)` captured. */
  lemma ParsedTextsCaptured(transcript: string)
    ensures forall k :: 0 <= k < |ParseChunks(transcript)| ==> IsCapturedText(ParseChunks(transcript)[k].text)
  {
    var cs := ParseChunks(transcript);
    var ms := TranscriptMatches(transcript);
    forall k | 0 <= k < |cs|
      ensures IsCapturedText(cs[k].text)
    {
      assert MatchOf(cs[k]) == ms[k];
    }
  }

  /** A chunk at an unmarked position survives, and a surviving chunk sat at an unmarked position. */
  lemma SurvivorsAreUnmarked(s: seq<Chunk>, dropped: seq<bool>)
    requires |dropped| == |s|
    ensures var r := Survivors(s, dropped, 0);
      && (forall k :: 0 <= k < |r| ==> exists p :: 0 <= p < |s| && !dropped[p] && r[k] == s[p])
      && (forall p :: 0 <= p < |s| && !dropped[p] ==> exists k :: 0 <= k < |r| && r[k] == s[p])
  {
    var r := Survivors(s, dropped, 0);
    var ps := Positions(dropped, 0);
    forall k | 0 <= k < |r|
      ensures exists p :: 0 <= p < |s| && !dropped[p] && r[k] == s[p]
    {
      assert r[k] == s[ps[k]];
    }
    forall p | 0 <= p < |s| && !dropped[p]
      ensures exists k :: 0 <= k < |r| && r[k] == s[p]
    {
      var k := PositionOf(dropped, 0, p);
      assert r[k] == s[p];
    }
  }

  /** `fullText` avoids every character that no text holds, other than the newline. */
  lemma {:induction false} FullTextFree(cs: seq<Chunk>, c: char)
    requires c != '\n'
    requires forall k :: 0 <= k < |cs| ==> Free(cs[k].text, c)
    ensures Free(FullText(cs), c)
    decreases |cs|
  {
    if |cs| > 0 {
      FullTextFree(cs[1..], c);
      var head := cs[0].text + "\n";
      assert forall i :: 0 <= i < |head| ==> head[i] != c;
    }
  }

  /** Every line of `fullText`, on its own: `StripBrackets` applied text by text. */
  function StripEach(cs: seq<Chunk>): string
    decreases |cs|
  {
    if |cs| == 0 then "" else StripBrackets(cs[0].text + "\n") + StripEach(cs[1..])
  }

  /**
   * Stripping `fullText` is stripping each text with its newline on its own:
   * a match may take the newline after a `]`, but never reaches past it.
   */
  lemma {:induction false} StripFullText(cs: seq<Chunk>)
    ensures StripBrackets(FullText(cs)) == StripEach(cs)
    decreases |cs|
  {
    if |cs| > 0 {
      var head := cs[0].text + "\n";
      assert EndsLine(head);
      StripConcat(head, FullText(cs[1..]));
      StripFullText(cs[1..]);
    }
  }

  /** A line without '[' comes through the removal unchanged. */
  lemma SearchNeedsBracket(line: string)
    requires Free(line, '[')
    ensures SearchLine(line).None?
  {
    forall q | 0 <= q <= |line|
      ensures MatchAt(line, q).None?
    {
      assert HeaderAt(line, q).None?;
    }
  }

  /** A piece of a split is free of every character the text is free of. */
  lemma {:induction false} SplitPiecesFree(s: string, sep: char, c: char)
    requires Free(s, c)
    ensures forall k :: 0 <= k < |Split(s, sep)| ==> Free(Split(s, sep)[k], c)
    decreases |s|
  {
    var i := NextIndex(s, sep, 0);
    if i < |s| {
      SplitPiecesFree(s[i + 1..], sep, c);
      assert Split(s, sep) == [s[..i]] + Split(s[i + 1..], sep);
    }
  }

  /** The clean-up of a transcript without a single bracket line is empty. */
  lemma NoLinesNoText(v: Variant, transcript: string)
    requires forall l :: 0 <= l < |Split(transcript, '\n')| ==> SearchLine(Split(transcript, '\n')[l]).None?
    ensures CleanUpWith(v, transcript) == ""
  {
    ParseChunksFromLines(transcript);
    var s := SortedChunks(transcript);
    assert |s| == 0;
    assert Survivors(s, Final(v, s).dropped, 0) == [];
    assert StripBrackets("") == "";
  }

  /** A text without '[' has no bracket line, so it cleans up to nothing. */
  lemma NoBracketNoText(v: Variant, transcript: string)
    requires Free(transcript, '[')
    ensures CleanUpWith(v, transcript) == ""
  {
    var lines := Split(transcript, '\n');
    SplitPiecesFree(transcript, '\n', '[');
    forall l | 0 <= l < |lines|
      ensures SearchLine(lines[l]).None?
    {
      SearchNeedsBracket(lines[l]);
    }
    NoLinesNoText(v, transcript);
  }

  /**
   * The output holds no timestamps: cleaning up a clean-up without '[' gives
   * the empty text, not the same text again.
   */
  lemma SecondCleanUpIsEmpty(v: Variant, transcript: string)
    requires Free(CleanUpWith(v, transcript), '[')
    ensures CleanUpWith(v, CleanUpWith(v, transcript)) == ""
  {
    NoBracketNoText(v, CleanUpWith(v, transcript));
  }

  /** The removal acts on each kept chunk's line separately. */
  lemma CleanUpPerLine(v: Variant, transcript: string)
    ensures CleanUpWith(v, transcript) == StripEach(Kept(v, transcript))
  {
    StripFullText(Kept(v, transcript));
  }

  /**
   * When no kept text contains '[', the output is exactly every kept text
   * followed by "\n": split at the newlines it reads back as the kept texts
   * and an empty last line.
   */
  lemma CleanUpOfPlainTexts(v: Variant, transcript: string)
    requires forall k :: 0 <= k < |Kept(v, transcript)| ==> Free(Kept(v, transcript)[k].text, '[')
    ensures CleanUpWith(v, transcript) == FullText(Kept(v, transcript))
    ensures Split(CleanUpWith(v, transcript), '\n') == Texts(Kept(v, transcript)) + [""]
  {
    var s := SortedChunks(transcript);
    var r := Kept(v, transcript);
    var ps := Positions(Final(v, s).dropped, 0);
    FullTextFree(r, '[');
    SortedTextsCaptured(transcript);
    forall k | 0 <= k < |r|
      ensures Free(r[k].text, '\n')
    {
      assert r[k] == s[ps[k]];
      assert IsCapturedText(s[ps[k]].text);
    }
  }

  /** The three facts both clean-up variants state about their output. */
  lemma CleanUpShape(v: Variant, transcript: string)
    ensures CleanUpWith(v, transcript) == StripEach(Kept(v, transcript))
    ensures Free(transcript, '[') ==> CleanUpWith(v, transcript) == ""
    ensures (forall k :: 0 <= k < |Kept(v, transcript)| ==> Free(Kept(v, transcript)[k].text, '['))
      ==> Split(CleanUpWith(v, transcript), '\n') == Texts(Kept(v, transcript)) + [""]
  {
    CleanUpPerLine(v, transcript);
    if Free(transcript, '[') {
      NoBracketNoText(v, transcript);
    }
    if forall k :: 0 <= k < |Kept(v, transcript)| ==> Free(Kept(v, transcript)[k].text, '[') {
      CleanUpOfPlainTexts(v, transcript);
    }
  }

  /** The kept chunks come out in start order, ties in input order. */
  lemma KeptInOrder(v: Variant, transcript: string)
    ensures var r := Kept(v, transcript);
      forall i, j :: 0 <= i < j < |r| ==> Precedes(r[i], r[j])
  {
    var s := SortedChunks(transcript);
    var r := Kept(v, transcript);
    var ps := Positions(Final(v, s).dropped, 0);
    assert ByStartThenIndex(s);
    forall i, j | 0 <= i < j < |r|
      ensures Precedes(r[i], r[j])
    {
      assert r[i] == s[ps[i]] && r[j] == s[ps[j]] && ps[i] < ps[j];
    }
  }

  /** No kept chunk includes another kept chunk. */
  lemma KeptDoNotInclude(v: Variant, transcript: string)
    ensures var r := Kept(v, transcript);
      forall i, j :: 0 <= i < |r| && 0 <= j < |r| ==> !Includes(r[i], r[j], ContainmentToleranceMs)
  {
    var s := SortedChunks(transcript);
    var r := Kept(v, transcript);
    var ps := Positions(Final(v, s).dropped, 0);
    forall i, j | 0 <= i < |r| && 0 <= j < |r|
      ensures !Includes(r[i], r[j], ContainmentToleranceMs)
    {
      KeptChunksDoNotInclude(v, s, ps[j], ps[i]);
    }
  }

  /**
   * Two neighbours among the surviving chunks, the second compared with
   * previous chunks (`Compares`): the second's normalised text does not start
   * with the first's, and the first's does not end with the second's, unless a
   * chunk sorted between them, since discarded, is a prefix of the second.
   */
  lemma NeighboursInOutput(v: Variant, s: seq<Chunk>, k: nat)
    requires var ps := Positions(Final(v, s).dropped, 0);
      k + 1 < |ps| && Compares(v, s, ps[k + 1])
    ensures var ps := Positions(Final(v, s).dropped, 0);
      var a, b := Norm(s[ps[k]].text), Norm(s[ps[k + 1]].text);
      || (!StartsWith(b, a) && !EndsWith(a, b))
      || exists j :: ps[k] < j < ps[k + 1] && StartsWith(b, Norm(s[j].text))
  {
    var ps := Positions(Final(v, s).dropped, 0);
    var q1, q2 := ps[k], ps[k + 1];
    PositionsSkipMarked(Final(v, s).dropped, 0);
    assert forall j :: q1 < j < q2 ==> !KeptAt(v, s, j);
    ConsecutiveKept(v, s, q1, q2);
  }
}

=== FILE: cleanup_scenarios.dfy ===
/**
 * Two-line transcripts run through the whole clean-up: one where a chunk is
 * dropped because a longer chunk includes it, and one where the lines come
 * out of time order, which shows the first sorted chunk being compared with
 * itself.
 */
module CleanUpScenarios {
  import opened Wrappers
  import opened Text
  import opened Timestamps
  import opened TranscriptLine
  import opened Chunks
  import opened Reconcile
  import opened Strip
  import opened CleanUp

  /** A stamp of the shape `msToTimestamp` writes holds no newline. */
  lemma ShapedFree(r: string)
    requires Shaped(r)
    ensures Free(r, '\n')
  {
  }

  /** A bracket line holds no newline when its parts hold none. */
  lemma BracketFree(a: string, b: string, text: string)
    requires Free(a, '\n') && Free(b, '\n') && Free(text, '\n')
    ensures Free(Bracket(a, b, text), '\n')
  {
    var r := Bracket(a, b, text);
    assert r == "[" + a + " --> " + b + "] " + text;
    forall k | 0 <= k < |r|
      ensures r[k] != '\n'
    {
      if k == 0 {
      } else if k < 1 + |a| {
        assert r[k] == a[k - 1];
      } else if k < 6 + |a| {
      } else if k < 6 + |a| + |b| {
        assert r[k] == b[k - 6 - |a|];
      } else if k < 8 + |a| + |b| {
      } else {
        assert r[k] == text[k - 8 - |a| - |b|];
      }
    }
  }

  /** A rendered line holds no newline. */
  lemma RenderFree(m: LineMatch)
    requires IsCapturedText(m.text)
    ensures Free(RenderMatch(m), '\n')
  {
    var a, b := MsToTimestamp(m.startMs), MsToTimestamp(m.endMs);
    ShapedFree(a);
    ShapedFree(b);
    assert Free(m.text, '\n');
    BracketFree(a, b, m.text);
  }

  /** The transcript made of two rendered lines. */
  function TwoLines(m1: LineMatch, m2: LineMatch): string
    requires IsCapturedText(m1.text) && IsCapturedText(m2.text)
  {
    RenderMatch(m1) + "\n" + RenderMatch(m2)
  }

  /** The chunk read from the `i`-th matching line. */
  function ChunkOf(m: LineMatch, i: nat): Chunk {
    Chunk(m.text, m.startMs, m.endMs, i, i)
  }

  /** One search result that found a match filters to that match. */
  lemma FoundOne(r: Option<LineMatch>)
    requires r.Some? && IsCapturedText(r.value.text)
    ensures Found([r]) == [r.value]
  {
    assert [r][1..] == [];
  }

  /** Two found matches filter to the two matches, in order. */
  lemma FoundTwo(r1: Option<LineMatch>, r2: Option<LineMatch>)
    requires r1.Some? && IsCapturedText(r1.value.text)
    requires r2.Some? && IsCapturedText(r2.value.text)
    ensures Found([r1, r2]) == [r1.value, r2.value]
  {
    assert [r1, r2] == [r1] + [r2];
    FoundConcat([r1], [r2]);
    FoundOne(r1);
    FoundOne(r2);
  }

  /** The search result of the `i`-th line. */
  lemma SearchLinesAt(lines: seq<string>, i: nat)
    requires i < |lines|
    ensures |SearchLines(lines)| == |lines| && SearchLines(lines)[i] == SearchLine(lines[i])
  {
  }

  /** A two-element sequence is the pair of its elements. */
  lemma PairOf<T>(rs: seq<T>, a: T, b: T)
    requires |rs| == 2 && rs[0] == a && rs[1] == b
    ensures rs == [a, b]
  {
  }

  /** The search results of two lines. */
  lemma SearchLinesTwo(l1: string, l2: string)
    ensures SearchLines([l1, l2]) == [SearchLine(l1), SearchLine(l2)]
  {
    SearchLinesAt([l1, l2], 0);
    SearchLinesAt([l1, l2], 1);
    PairOf(SearchLines([l1, l2]), SearchLine(l1), SearchLine(l2));
  }

  /** Two matching lines give their two matches, in order. */
  lemma MatchesTwo(l1: string, l2: string)
    requires SearchLine(l1).Some? && SearchLine(l2).Some?
    ensures Matches([l1, l2]) == [SearchLine(l1).value, SearchLine(l2).value]
  {
    SearchLinesTwo(l1, l2);
    FoundTwo(SearchLine(l1), SearchLine(l2));
  }

  /** A transcript whose two lines both match parses into their two chunks, in order. */
  lemma ParseOfLines(t: string, l1: string, l2: string)
    requires Split(t, '\n') == [l1, l2] && SearchLine(l1).Some? && SearchLine(l2).Some?
    ensures ParseChunks(t) == [ChunkOf(SearchLine(l1).value, 0), ChunkOf(SearchLine(l2).value, 1)]
  {
    var m1, m2 := SearchLine(l1).value, SearchLine(l2).value;
    assert TranscriptMatches(t) == [m1, m2] by {
      MatchesTwo(l1, l2);
    }
    FromTwoMatches(m1, m2);
  }

  /** The chunks of two matches, numbered 0 and 1. */
  lemma FromTwoMatches(m1: LineMatch, m2: LineMatch)
    ensures FromMatches([m1, m2]) == [ChunkOf(m1, 0), ChunkOf(m2, 1)]
  {
    var cs := FromMatches([m1, m2]);
    assert MatchOf(cs[0]) == m1 && cs[0].index == 0 && cs[0].sortIndex == 0;
    assert MatchOf(cs[1]) == m2 && cs[1].index == 1 && cs[1].sortIndex == 1;
  }

  /** Two rendered lines parse into their two chunks, in order. */
  lemma ParseTwoLines(m1: LineMatch, m2: LineMatch)
    requires IsCapturedText(m1.text) && IsCapturedText(m2.text)
    ensures ParseChunks(TwoLines(m1, m2)) == [ChunkOf(m1, 0), ChunkOf(m2, 1)]
  {
    var r1, r2 := RenderMatch(m1), RenderMatch(m2);
    RenderFree(m1);
    RenderFree(m2);
    SplitPair(r1, r2, '\n');
    ParseOfLines(TwoLines(m1, m2), r1, r2);
  }

  /** Two chunks in start order stay where they are. */
  lemma ArrangeInOrder(c0: Chunk, c1: Chunk)
    requires c0.startMs <= c1.startMs && c0.sortIndex == 0 && c1.sortIndex == 1
    ensures Arrange([c0, c1]) == [c0, c1]
  {
    assert [c0, c1][..1] == [c0];
    assert SortByStart([c0]) == [c0];
    assert Insert(c1, [c0]) == [c0, c1];
  }

  /** Two chunks out of start order swap places and are renumbered. */
  lemma ArrangeSwapped(c0: Chunk, c1: Chunk)
    requires c1.startMs < c0.startMs
    ensures Arrange([c0, c1]) == [c1.(sortIndex := 0), c0.(sortIndex := 1)]
  {
    assert [c0, c1][..1] == [c0];
    assert SortByStart([c0]) == [c0];
    assert Insert(c1, [c0]) == [c1, c0];
  }

  /** The survivors of a pair whose second chunk is marked. */
  lemma KeepFirst(s: seq<Chunk>)
    requires |s| == 2
    ensures Survivors(s, [false, true], 0) == [s[0]]
  {
    var d := [false, true];
    assert Survivors(s, d, 1) == [];
  }

  /** The survivors of a pair whose first chunk is marked. */
  lemma KeepSecond(s: seq<Chunk>)
    requires |s| == 2
    ensures Survivors(s, [true, false], 0) == [s[1]]
  {
    var d := [true, false];
    assert Survivors(s, d, 1) == [s[1]];
  }

  /** The survivors of a pair with no marks. */
  lemma KeepBoth(s: seq<Chunk>)
    requires |s| == 2
    ensures Survivors(s, [false, false], 0) == s
  {
    var d := [false, false];
    assert Survivors(s, d, 1) == [s[1]];
    assert [s[0]] + [s[1]] == s;
  }

  /** Both texts of a pair free of '[' makes every text of it free of '['. */
  lemma PairFree(s: seq<Chunk>)
    requires |s| == 2 && Free(s[0].text, '[') && Free(s[1].text, '[')
    ensures forall k :: 0 <= k < |s| ==> Free(s[k].text, '[')
  {
  }

  /** `fullText` of one chunk. */
  lemma FullTextOfOne(c: Chunk)
    ensures FullText([c]) == c.text + "\n"
  {
    assert [c][1..] == [];
  }

  /** `fullText` of two chunks. */
  lemma FullTextOfTwo(c0: Chunk, c1: Chunk)
    ensures FullText([c0, c1]) == c0.text + "\n" + c1.text + "\n"
  {
    assert [c0, c1][1..] == [c1];
    FullTextOfOne(c1);
    var a, b := c0.text + "\n", c1.text + "\n";
    assert FullText([c0, c1]) == a + b;
  }

  /** The clean-up once the sorted chunks and the marks are known. */
  lemma CleanUpOf(v: Variant, transcript: string, s: seq<Chunk>, dropped: seq<bool>, kept: seq<Chunk>)
    requires SortedChunks(transcript) == s && Final(v, s).dropped == dropped
    requires |dropped| == |s| && Survivors(s, dropped, 0) == kept
    requires forall k :: 0 <= k < |kept| ==> Free(kept[k].text, '[')
    ensures CleanUpWith(v, transcript) == FullText(kept)
  {
    FullTextFree(kept, '[');
  }

  /** The clean-up when a single chunk survives the pass. */
  lemma CleanUpOfOne(v: Variant, transcript: string, s: seq<Chunk>, dropped: seq<bool>, c: Chunk)
    requires SortedChunks(transcript) == s && Final(v, s).dropped == dropped
    requires |dropped| == |s| && Survivors(s, dropped, 0) == [c] && Free(c.text, '[')
    ensures CleanUpWith(v, transcript) == c.text + "\n"
  {
    FullTextOfOne(c);
    CleanUpOf(v, transcript, s, dropped, [c]);
  }

  /** Two lines in time order keep their order. */
  lemma InOrderSorted(m1: LineMatch, m2: LineMatch)
    requires IsCapturedText(m1.text) && IsCapturedText(m2.text)
    requires m1.startMs <= m2.startMs
    ensures SortedChunks(TwoLines(m1, m2)) == [ChunkOf(m1, 0), ChunkOf(m2, 1)]
  {
    ParseTwoLines(m1, m2);
    ArrangeInOrder(ChunkOf(m1, 0), ChunkOf(m2, 1));
  }

  /** The pass on two chunks in time order, the first including the second: the second is dropped. */
  lemma IncludedPass(v: Variant, s: seq<Chunk>)
    requires |s| == 2 && s[0].index == 0
    requires Includes(s[0], s[1], ContainmentToleranceMs) && !Includes(s[1], s[0], ContainmentToleranceMs)
    ensures Final(v, s).dropped == [false, true]
  {
    Visit(v, s, 0);
    Visit(v, s, 1);
    var st0 := Pass(v, s, 0);
    assert st0.dropped == [false, false];
    assert !Includes(s[0], s[0], ContainmentToleranceMs);
    assert Classify(v, s, st0.dropped, st0.prev, 0) == Kept;
    var st1 := Pass(v, s, 1);
    assert st1.dropped == [false, false];
    assert Classify(v, s, st1.dropped, st1.prev, 1) == Included;
  }

  /**
   * Two lines in time order where the first chunk includes the second (and
   * not the other way round): whichever variant runs, only the first text is
   * left.
   */
  lemma IncludedLineDropped(v: Variant, m1: LineMatch, m2: LineMatch)
    requires IsCapturedText(m1.text) && IsCapturedText(m2.text) && Free(m1.text, '[')
    requires m1.startMs <= m2.startMs
    requires Includes(ChunkOf(m1, 0), ChunkOf(m2, 1), ContainmentToleranceMs)
    requires !Includes(ChunkOf(m2, 1), ChunkOf(m1, 0), ContainmentToleranceMs)
    ensures CleanUpWith(v, TwoLines(m1, m2)) == m1.text + "\n"
  {
    var s := [ChunkOf(m1, 0), ChunkOf(m2, 1)];
    InOrderSorted(m1, m2);
    IncludedPass(v, s);
    KeepFirst(s);
    CleanUpOfOne(v, TwoLines(m1, m2), s, [false, true], s[0]);
  }

  /** The chunks of two lines out of time order, after sorting. */
  function Swapped(m1: LineMatch, m2: LineMatch): seq<Chunk> {
    [ChunkOf(m2, 1).(sortIndex := 0), ChunkOf(m1, 0).(sortIndex := 1)]
  }

  /** Two lines out of time order swap places. */
  lemma SwappedSorted(m1: LineMatch, m2: LineMatch)
    requires IsCapturedText(m1.text) && IsCapturedText(m2.text)
    requires m2.startMs < m1.startMs
    ensures SortedChunks(TwoLines(m1, m2)) == Swapped(m1, m2)
  {
    ParseTwoLines(m1, m2);
    ArrangeSwapped(ChunkOf(m1, 0), ChunkOf(m2, 1));
  }

  /** Neither of two chunks includes the other. */
  predicate Apart(s: seq<Chunk>)
    requires |s| == 2
  {
    !Includes(s[0], s[1], ContainmentToleranceMs) && !Includes(s[1], s[0], ContainmentToleranceMs)
  }

  /**
   * As written, two chunks apart, the first with a positive index and the
   * second with index 0: the first is compared with itself and discarded.
   */
  lemma SwappedAsWrittenPass(s: seq<Chunk>)
    requires |s| == 2 && Apart(s) && s[0].index > 0 && s[1].index == 0
    ensures Final(AsWritten, s).dropped == [true, false]
  {
    Visit(AsWritten, s, 0);
    Visit(AsWritten, s, 1);
    var st0 := Pass(AsWritten, s, 0);
    assert StartsWith(Norm(s[0].text), Norm(s[0].text));
    assert Classify(AsWritten, s, st0.dropped, st0.prev, 0) == ExtendsPrevious;
    var st1 := Pass(AsWritten, s, 1);
    assert st1 == State([true, false], 0);
    assert Classify(AsWritten, s, st1.dropped, st1.prev, 1) == Kept;
  }

  /** With the first visit skipped, both chunks of the same pair survive. */
  lemma SwappedCorrectedPass(s: seq<Chunk>)
    requires |s| == 2 && Apart(s) && s[1].index == 0
    ensures Final(FirstSkipped, s).dropped == [false, false]
  {
    Visit(FirstSkipped, s, 0);
    Visit(FirstSkipped, s, 1);
    var st0 := Pass(FirstSkipped, s, 0);
    assert Classify(FirstSkipped, s, st0.dropped, st0.prev, 0) == Kept;
    var st1 := Pass(FirstSkipped, s, 1);
    assert st1 == State([false, false], 0);
    assert Classify(FirstSkipped, s, st1.dropped, st1.prev, 1) == Kept;
  }

  /** Two chunks apart, the first read first, whose texts pass both neighbour tests: both survive. */
  lemma UnrelatedPass(v: Variant, s: seq<Chunk>)
    requires |s| == 2 && Apart(s) && s[0].index == 0
    requires !StartsWith(Norm(s[1].text), Norm(s[0].text)) && !EndsWith(Norm(s[0].text), Norm(s[1].text))
    ensures Final(v, s).dropped == [false, false]
  {
    Visit(v, s, 0);
    Visit(v, s, 1);
    var st0 := Pass(v, s, 0);
    assert Classify(v, s, st0.dropped, st0.prev, 0) == Kept;
    var st1 := Pass(v, s, 1);
    assert st1 == State([false, false], 0);
    assert Classify(v, s, st1.dropped, st1.prev, 1) == Kept;
  }

  /**
   * The neighbour tests are one-way: "ab" followed, well apart in time, by "a"
   * keeps both chunks, although the earlier text starts with the later one.
   */
  lemma PrefixFollowerSurvives(v: Variant)
    ensures var s := [Chunk("ab", 0, 1000, 0, 0), Chunk("a", 5000, 6000, 1, 1)];
      && Final(v, s).dropped == [false, false]
      && StartsWith(Norm(s[0].text), Norm(s[1].text))
  {
    var s := [Chunk("ab", 0, 1000, 0, 0), Chunk("a", 5000, 6000, 1, 1)];
    NormOfNormal("ab");
    NormOfNormal("a");
    assert !StartsWith("a", "ab") && !EndsWith("ab", "a");
    UnrelatedPass(v, s);
  }

  /**
   * Two lines out of time order, neither chunk including the other: as
   * written, only the first line's text is left.
   */
  lemma SwappedAsWritten(m1: LineMatch, m2: LineMatch)
    requires IsCapturedText(m1.text) && IsCapturedText(m2.text) && Free(m1.text, '[')
    requires m2.startMs < m1.startMs && Apart(Swapped(m1, m2))
    ensures CleanUpTranscriptAsWritten(TwoLines(m1, m2)) == m1.text + "\n"
  {
    var s := Swapped(m1, m2);
    SwappedSorted(m1, m2);
    SwappedAsWrittenPass(s);
    KeepSecond(s);
    CleanUpOfOne(AsWritten, TwoLines(m1, m2), s, [true, false], s[1]);
  }

  /** With the first visit skipped, both texts are left, in time order. */
  lemma SwappedCorrected(m1: LineMatch, m2: LineMatch)
    requires IsCapturedText(m1.text) && IsCapturedText(m2.text)
    requires Free(m1.text, '[') && Free(m2.text, '[')
    requires m2.startMs < m1.startMs && Apart(Swapped(m1, m2))
    ensures CleanUpTranscriptCorrected(TwoLines(m1, m2)) == m2.text + "\n" + m1.text + "\n"
  {
    var s := Swapped(m1, m2);
    assert SortedChunks(TwoLines(m1, m2)) == s by { SwappedSorted(m1, m2); }
    assert Final(FirstSkipped, s).dropped == [false, false] by { SwappedCorrectedPass(s); }
    assert Survivors(s, [false, false], 0) == s by { KeepBoth(s); }
    assert FullText(s) == m2.text + "\n" + m1.text + "\n" by { FullTextOfTwo(s[0], s[1]); }
    PairFree(s);
    CleanUpOf(FirstSkipped, TwoLines(m1, m2), s, [false, false], s);
  }

  /** A line is its text followed by a newline. */
  lemma AppendNewline(text: string, line: string)
    requires |line| == |text| + 1 && line[..|text|] == text && line[|text|] == '\n'
    ensures text + "\n" == line
  {
  }

  /** Two lines, each text followed by a newline. */
  lemma TwoNewlines(x: string, y: string, lx: string, ly: string, whole: string)
    requires x + "\n" == lx && y + "\n" == ly && whole == lx + ly
    ensures x + "\n" + y + "\n" == whole
  {
  }

  /**
   * `[00:00:00.000 --> 00:00:03.000] hello world` followed by
   * `[00:00:01.000 --> 00:00:02.000] hello` cleans up to `hello world` alone.
   */
  lemma ContainmentExample(v: Variant)
    ensures CleanUpWith(v, TwoLines(LineMatch(0, 3000, "hello world"), LineMatch(1000, 2000, "hello"))) == "hello world\n"
  {
    var m1, m2 := LineMatch(0, 3000, "hello world"), LineMatch(1000, 2000, "hello");
    AppendNewline(m1.text, "hello world\n");
    IncludedLineDropped(v, m1, m2);
  }

  /**
   * `[00:00:05.000 --> 00:00:06.000] b` followed by
   * `[00:00:01.000 --> 00:00:02.000] a`: as written the clean-up loses `a`.
   */
  lemma OutOfOrderExampleAsWritten()
    ensures CleanUpTranscriptAsWritten(TwoLines(LineMatch(5000, 6000, "b"), LineMatch(1000, 2000, "a"))) == "b\n"
  {
    var m1, m2 := LineMatch(5000, 6000, "b"), LineMatch(1000, 2000, "a");
    AppendNewline(m1.text, "b\n");
    SwappedAsWritten(m1, m2);
  }

  /** With the first visit skipped, the same transcript keeps `a` and `b`, in time order. */
  lemma OutOfOrderExampleCorrected()
    ensures CleanUpTranscriptCorrected(TwoLines(LineMatch(5000, 6000, "b"), LineMatch(1000, 2000, "a"))) == "a\nb\n"
  {
    var m1, m2 := LineMatch(5000, 6000, "b"), LineMatch(1000, 2000, "a");
    AppendNewline(m2.text, "a\n");
    AppendNewline(m1.text, "b\n");
    TwoNewlines(m2.text, m1.text, "a\n", "b\n", "a\nb\n");
    SwappedCorrected(m1, m2);
  }
}

=== FILE: decimal.dfy ===
/**
 * Decimal digit strings: `Number(digits)`, `n.toString()` and
 * `padStart(width, '0')` on non-negative integers.
 */
module Decimal {
  import opened Text

  predicate IsDigits(s: string) {
    forall i :: 0 <= i < |s| ==> IsDigit(s[i])
  }

  function DigitValue(c: char): nat
    requires IsDigit(c)
  {
    c as int - '0' as int
  }

  function DigitChar(d: nat): (c: char)
    requires d < 10
    ensures IsDigit(c) && DigitValue(c) == d
  {
    ('0' as int + d) as char
  }

  /** `Number(s)` for a string of ASCII digits (leading zeros allowed). */
  function DigitsValue(s: string): nat
    requires IsDigits(s)
  {
    DigitsValueAt(s, 0, |s|)
  }

  /** The value of the digits `s[i..j]`, read in place. */
  function DigitsValueAt(s: string, i: nat, j: nat): nat
    requires i <= j <= |s|
    requires forall k :: i <= k < j ==> IsDigit(s[k])
    decreases j - i
  {
    if j == i then 0 else DigitsValueAt(s, i, j - 1) * 10 + DigitValue(s[j - 1])
  }

  /** Digits read in place agree wherever the characters agree. */
  lemma {:induction false} DigitsValueAtShift(s: string, i: nat, j: nat, t: string, off: nat)
    requires i <= j <= |s| && j + off <= |t|
    requires forall k :: i <= k < j ==> IsDigit(s[k]) && t[k + off] == s[k]
    ensures forall k :: i + off <= k < j + off ==> IsDigit(t[k])
    ensures DigitsValueAt(s, i, j) == DigitsValueAt(t, i + off, j + off)
    decreases j - i
  {
    if j > i {
      DigitsValueAtShift(s, i, j - 1, t, off);
      assert t[j - 1 + off] == s[j - 1];
    }
  }

  /** Reading digits in place is reading the slice. */
  lemma DigitsValueAtSlice(s: string, i: nat, j: nat)
    requires i <= j <= |s|
    requires forall k :: i <= k < j ==> IsDigit(s[k])
    ensures IsDigits(s[i..j]) && DigitsValueAt(s, i, j) == DigitsValue(s[i..j])
  {
    DigitsValueAtShift(s[i..j], 0, j - i, s, i);
  }

  /** A run of zeros is worth nothing. */
  lemma {:induction false} ZerosValue(s: string, i: nat, j: nat)
    requires i <= j <= |s|
    requires forall k :: i <= k < j ==> s[k] == '0'
    ensures DigitsValueAt(s, i, j) == 0
    decreases j - i
  {
    if j > i {
      ZerosValue(s, i, j - 1);
    }
  }

  /** Zeros in front of the digits `s[k..j]` do not change their value. */
  lemma {:induction false} LeadingZerosAt(s: string, i: nat, k: nat, j: nat)
    requires i <= k <= j <= |s|
    requires forall x :: i <= x < k ==> s[x] == '0'
    requires forall x :: k <= x < j ==> IsDigit(s[x])
    ensures DigitsValueAt(s, i, j) == DigitsValueAt(s, k, j)
    decreases j - k
  {
    if j == k {
      ZerosValue(s, i, k);
    } else {
      LeadingZerosAt(s, i, k, j - 1);
    }
  }

  /** `n.toString()`: the shortest decimal numeral of `n`. */
  function NatToString(n: nat): (r: string)
    ensures 1 <= |r| && IsDigits(r)
    ensures DigitsValue(r) == n
    ensures |r| > 1 ==> r[0] != '0'
    ensures n < 10 ==> |r| == 1
    ensures n < 100 ==> |r| <= 2
    ensures n < 1000 ==> |r| <= 3
    decreases n
  {
    if n < 10 then [DigitChar(n)]
    else
      var p := NatToString(n / 10);
      var r := p + [DigitChar(n % 10)];
      DigitsValueAtShift(p, 0, |p|, r, 0);
      r
  }

  /** `c` repeated `n` times. */
  function Repeat(c: char, n: nat): (r: string)
    ensures |r| == n
    ensures forall i :: 0 <= i < n ==> r[i] == c
  {
    seq(n, i => c)
  }

  /** `s.padStart(width, fill)` for a one-character fill. */
  function PadStart(s: string, width: nat, fill: char): (r: string)
    ensures |r| == if |s| >= width then |s| else width
  {
    if |s| >= width then s else Repeat(fill, width - |s|) + s
  }

  /** Leading zeros do not change the value of a numeral. */
  lemma LeadingZeros(z: string, s: string)
    requires forall i :: 0 <= i < |z| ==> z[i] == '0'
    requires IsDigits(s)
    ensures IsDigits(z + s)
    ensures DigitsValue(z + s) == DigitsValue(s)
  {
    var x := z + s;
    assert forall k :: 0 <= k < |z| ==> x[k] == z[k];
    DigitsValueAtShift(s, 0, |s|, x, |z|);
    LeadingZerosAt(x, 0, |z|, |x|);
  }

  /** Zero-padding a numeral keeps its value. */
  lemma PadStartValue(s: string, width: nat)
    requires IsDigits(s)
    ensures IsDigits(PadStart(s, width, '0'))
    ensures DigitsValue(PadStart(s, width, '0')) == DigitsValue(s)
  {
    if |s| < width {
      LeadingZeros(Repeat('0', width - |s|), s);
    }
  }
}

=== FILE: density.dfy ===
/**
 * Extraction of the last dense summary from one chain-of-density response.
 *
 * A response starting with '[' is read with `/denser_summary":\s*"(.*)"/gmi`,
 * any other with `/Denser summary:.*\n*(.*)/gmi`; every match `matchAll`
 * yields overwrites the summary with its capture, so the capture of the last
 * match wins, and a response without a match gives "". `matchAll` always
 * returns an iterator, which is truthy, so the bullet-point fallback behind
 * `if (matches)` never runs and is not part of this model.
 *
 * Both patterns are modelled as deterministic scanners: each quantifier is
 * followed by a class it cannot overlap or by nothing, so the greedy choice is
 * the only match at a position, except for the JSON capture `(.*)"`, which
 * backtracks to the last '"' before the end of the line.
 */
module Density {
  import opened Wrappers
  import opened Text
  import opened TranscriptLine

  /** The two patterns. */
  datatype Pattern = JsonPattern | MarkerPattern

  /** The literal each pattern starts with. */
  function Literal(pat: Pattern): string {
    match pat
    case JsonPattern => "denser_summary\":"
    case MarkerPattern => "Denser summary:"
  }

  /** A match: where it starts, its capture `[start, stop)`, and where it ends. */
  datatype Match = Match(pos: nat, start: nat, stop: nat, end: nat)

  /** `lit` occurs at `p` under the `i` flag: ASCII letters compare without case. */
  predicate LiteralAt(s: string, p: nat, lit: string) {
    p + |lit| <= |s| && forall k :: 0 <= k < |lit| ==> LowerChar(s[p + k]) == LowerChar(lit[k])
  }

  /** End of the maximal run of '\n' starting at `i` (what `\n*` matches). */
  function NewlineRunEnd(s: string, i: nat): (j: nat)
    requires i <= |s|
    ensures i <= j <= |s|
    ensures j == |s| || s[j] != '\n'
    decreases |s| - i
  {
    if i < |s| && s[i] == '\n' then NewlineRunEnd(s, i + 1) else i
  }

  /** The last position in `[lo, hi)` holding '"'. */
  function LastQuote(s: string, lo: nat, hi: nat): (r: Option<nat>)
    requires hi <= |s|
    ensures r.None? <==> forall q :: lo <= q < hi ==> s[q] != '"'
    ensures r.Some? ==> lo <= r.value < hi && s[r.value] == '"'
    ensures r.Some? ==> forall q :: r.value < q < hi ==> s[q] != '"'
    decreases hi - lo
  {
    if hi <= lo then None
    else if s[hi - 1] == '"' then Some(hi - 1)
    else LastQuote(s, lo, hi - 1)
  }

  /** `denser_summary":\s*"(.*)"` at `p`. */
  function JsonMatchAt(s: string, p: nat): Option<Match>
    requires p <= |s|
  {
    var lit := Literal(JsonPattern);
    if !LiteralAt(s, p, lit) then None
    else
      var q := SpaceRunEnd(s, p + |lit|);
      if q == |s| || s[q] != '"' then None
      else
        match LastQuote(s, q + 1, TextEnd(s, q + 1))
        case None => None
        case Some(c) => Some(Match(p, q + 1, c, c + 1))
  }

  /** `Denser summary:.*\n*(.*)` at `p`: the rest of the marker's line, the newlines after it, then one line. */
  function MarkerMatchAt(s: string, p: nat): Option<Match>
    requires p <= |s|
  {
    var lit := Literal(MarkerPattern);
    if !LiteralAt(s, p, lit) then None
    else
      var b := NewlineRunEnd(s, TextEnd(s, p + |lit|));
      var e := TextEnd(s, b);
      Some(Match(p, b, e, e))
  }

  /** The match of `pat` at `p`, if any; a match is never empty and its capture lies inside it. */
  function MatchAt(pat: Pattern, s: string, p: nat): (r: Option<Match>)
    requires p <= |s|
    ensures r.Some? ==> r.value.pos == p && p < r.value.start <= r.value.stop <= r.value.end <= |s|
  {
    match pat
    case JsonPattern => JsonMatchAt(s, p)
    case MarkerPattern => MarkerMatchAt(s, p)
  }

  /** Matches found at every position of a text of length `|at|`, each starting where it is found. */
  predicate Sound(at: seq<Option<Match>>) {
    forall p :: 0 <= p < |at| && at[p].Some? ==>
      at[p].value.pos == p < at[p].value.start <= at[p].value.stop <= at[p].value.end <= |at|
  }

  /** The match attempt of `pat` at every position of `s`. */
  function Attempts(pat: Pattern, s: string): (at: seq<Option<Match>>)
    ensures |at| == |s| && Sound(at)
    ensures forall p :: 0 <= p < |s| ==> at[p] == MatchAt(pat, s, p)
  {
    seq(|s|, p requires 0 <= p < |s| => MatchAt(pat, s, p))
  }

  /** `[...s.matchAll(pat)]` from position `i`: the leftmost match, then the search resumes at its end. */
  function Scan(at: seq<Option<Match>>, i: nat): (ms: seq<Match>)
    requires Sound(at) && i <= |at|
    ensures forall k :: 0 <= k < |ms| ==> i <= ms[k].pos < ms[k].start <= ms[k].stop <= ms[k].end <= |at|
    decreases |at| - i
  {
    if i == |at| then []
    else if at[i].Some? then
      var rest := Scan(at, at[i].value.end);
      var ms := [at[i].value] + rest;
      assert forall k :: 0 < k < |ms| ==> ms[k] == rest[k - 1];
      ms
    else Scan(at, i + 1)
  }

  /** Each element of the scan is the match found at its position. */
  lemma {:induction false} ScanYieldsMatches(at: seq<Option<Match>>, i: nat)
    requires Sound(at) && i <= |at|
    ensures forall k :: 0 <= k < |Scan(at, i)| ==> at[Scan(at, i)[k].pos] == Some(Scan(at, i)[k])
    decreases |at| - i
  {
    if i < |at| {
      if at[i].Some? {
        ScanYieldsMatches(at, at[i].value.end);
        assert at[i].value.pos == i;
        var rest := Scan(at, at[i].value.end);
        var ms := [at[i].value] + rest;
        assert Scan(at, i) == ms;
        forall k | 0 <= k < |ms|
          ensures at[ms[k].pos] == Some(ms[k])
        {
          if k > 0 {
            assert ms[k] == rest[k - 1];
            assert at[rest[k - 1].pos] == Some(rest[k - 1]);
          } else {
            assert ms[0] == at[i].value;
            assert at[i] == Some(at[i].value);
          }
        }
      } else {
        assert Scan(at, i) == Scan(at, i + 1);
        ScanYieldsMatches(at, i + 1);
      }
    }
  }

  /** The matches of a scan do not overlap. */
  lemma {:induction false} ScanOrdered(at: seq<Option<Match>>, i: nat)
    requires Sound(at) && i <= |at|
    ensures forall k :: 0 < k < |Scan(at, i)| ==> Scan(at, i)[k - 1].end <= Scan(at, i)[k].pos
    decreases |at| - i
  {
    if i < |at| {
      if at[i].Some? {
        ScanOrdered(at, at[i].value.end);
        var rest := Scan(at, at[i].value.end);
        assert |rest| > 0 ==> at[i].value.end <= rest[0].pos;
        var ms := [at[i].value] + rest;
        assert Scan(at, i) == ms;
        forall k | 0 < k < |ms|
          ensures ms[k - 1].end <= ms[k].pos
        {
          assert ms[k] == rest[k - 1];
          if k > 1 {
            assert ms[k - 1] == rest[k - 2];
          }
        }
      } else {
        assert Scan(at, i) == Scan(at, i + 1);
        ScanOrdered(at, i + 1);
      }
    }
  }

  /** No match starts before the first match of a scan, nor anywhere when it yields nothing. */
  lemma {:induction false} ScanFirst(at: seq<Option<Match>>, i: nat)
    requires Sound(at) && i <= |at|
    ensures forall q :: i <= q < |at| && (|Scan(at, i)| == 0 || q < Scan(at, i)[0].pos) ==> at[q].None?
    decreases |at| - i
  {
    if i < |at| && at[i].None? {
      ScanFirst(at, i + 1);
    }
  }

  /** No match starts between the end of one match of a scan and the start of the next. */
  lemma {:induction false} ScanGaps(at: seq<Option<Match>>, i: nat)
    requires Sound(at) && i <= |at|
    ensures forall k, q :: 0 < k < |Scan(at, i)| && Scan(at, i)[k - 1].end <= q < Scan(at, i)[k].pos ==> at[q].None?
    decreases |at| - i
  {
    if i < |at| {
      if at[i].Some? {
        var e := at[i].value.end;
        ScanGaps(at, e);
        ScanFirst(at, e);
        var rest := Scan(at, e);
        var ms := [at[i].value] + rest;
        assert Scan(at, i) == ms;
        assert forall k :: 0 < k < |ms| ==> ms[k] == rest[k - 1];
      } else {
        assert Scan(at, i) == Scan(at, i + 1);
        ScanGaps(at, i + 1);
      }
    }
  }

  /** No match starts after the end of the last match of a scan. */
  lemma {:induction false} ScanAfterLast(at: seq<Option<Match>>, i: nat)
    requires Sound(at) && i <= |at|
    ensures |Scan(at, i)| > 0 ==> forall q :: Scan(at, i)[|Scan(at, i)| - 1].end <= q < |at| ==> at[q].None?
    decreases |at| - i
  {
    if i < |at| {
      if at[i].Some? {
        var e := at[i].value.end;
        ScanAfterLast(at, e);
        ScanFirst(at, e);
        var rest := Scan(at, e);
        assert Scan(at, i) == [at[i].value] + rest;
      } else {
        ScanAfterLast(at, i + 1);
      }
    }
  }

  /** Where no match starts, the scan yields nothing. */
  lemma {:induction false} ScanOfNoMatch(at: seq<Option<Match>>, i: nat)
    requires Sound(at) && i <= |at|
    requires forall q :: i <= q < |at| ==> at[q].None?
    ensures Scan(at, i) == []
    decreases |at| - i
  {
    if i < |at| {
      ScanOfNoMatch(at, i + 1);
    }
  }

  /** The text a match captures. */
  function Capture(s: string, m: Match): string
    requires m.start <= m.stop <= |s|
  {
    s[m.start..m.stop]
  }

  /** The loop over the matches: each one overwrites the summary with its capture. */
  function LastCapture(s: string, ms: seq<Match>, summary: string): string
    requires forall k :: 0 <= k < |ms| ==> ms[k].start <= ms[k].stop <= |s|
    decreases |ms|
  {
    if |ms| == 0 then summary else LastCapture(s, ms[1..], Capture(s, ms[0]))
  }

  /** The pattern a response is read with: the JSON one exactly when it starts with '['. */
  function PatternFor(response: string): Pattern {
    if StartsWith(response, "[") then JsonPattern else MarkerPattern
  }

  /** The matches `matchAll` yields on a response, with the response's pattern. */
  function Matches(response: string): (ms: seq<Match>)
    ensures forall k :: 0 <= k < |ms| ==> ms[k].start <= ms[k].stop <= |response|
  {
    Scan(Attempts(PatternFor(response), response), 0)
  }

  /** The dense summary extracted from one response: the last match's capture, or "" when nothing matches. */
  function ExtractSummary(response: string): (r: string)
    ensures Matches(response) == [] ==> r == ""
    ensures Matches(response) != [] ==> r == Capture(response, Matches(response)[|Matches(response)| - 1])
  {
    LastCaptureIsLast(response, Matches(response), "");
    LastCapture(response, Matches(response), "")
  }

  /** The loop keeps the capture of the last match, or the initial summary when there is none. */
  lemma {:induction false} LastCaptureIsLast(s: string, ms: seq<Match>, summary: string)
    requires forall k :: 0 <= k < |ms| ==> ms[k].start <= ms[k].stop <= |s|
    ensures |ms| == 0 ==> LastCapture(s, ms, summary) == summary
    ensures |ms| > 0 ==> LastCapture(s, ms, summary) == Capture(s, ms[|ms| - 1])
    decreases |ms|
  {
    if |ms| > 0 {
      LastCaptureIsLast(s, ms[1..], Capture(s, ms[0]));
    }
  }

  /**
   * The summary is the capture of the last match `matchAll` yields, and no
   * match of the response's pattern starts after that match ends.
   */
  lemma LastMatchWins(response: string) returns (m: Match)
    requires Matches(response) != []
    ensures m.pos < m.start <= m.stop <= m.end <= |response|
    ensures MatchAt(PatternFor(response), response, m.pos) == Some(m)
    ensures ExtractSummary(response) == response[m.start..m.stop]
    ensures forall q :: m.end <= q < |response| ==> MatchAt(PatternFor(response), response, q).None?
  {
    var ms := Matches(response);
    m := ms[|ms| - 1];
    LastIsMatch(response);
    LastEndsMatching(response);
  }

  /** The last match is the pattern's match at its own position. */
  lemma LastIsMatch(response: string)
    requires Matches(response) != []
    ensures var m := Matches(response)[|Matches(response)| - 1];
      m.pos < m.start <= m.stop <= m.end <= |response| && MatchAt(PatternFor(response), response, m.pos) == Some(m)
  {
    var at := Attempts(PatternFor(response), response);
    ScanYieldsMatches(at, 0);
    var ms := Scan(at, 0);
    assert at[ms[|ms| - 1].pos] == Some(ms[|ms| - 1]);
  }

  /** Nothing matches after the last match ends. */
  lemma LastEndsMatching(response: string)
    requires Matches(response) != []
    ensures var m := Matches(response)[|Matches(response)| - 1];
      forall q :: m.end <= q < |response| ==> MatchAt(PatternFor(response), response, q).None?
  {
    var at := Attempts(PatternFor(response), response);
    ScanAfterLast(at, 0);
  }

  /** A response in which its pattern never matches gives the empty summary, whatever the other pattern would find. */
  lemma NoMatchNoSummary(response: string)
    requires forall q :: 0 <= q < |response| ==> MatchAt(PatternFor(response), response, q).None?
    ensures ExtractSummary(response) == ""
  {
    ScanOfNoMatch(Attempts(PatternFor(response), response), 0);
  }

  /**
   * A response yields matches exactly where its pattern matches, leftmost first, without
   * overlap: none before the first, none in a gap, none after the last.
   */
  lemma MatchesAreLeftmost(response: string)
    ensures var ms := Matches(response);
      && (forall k :: 0 <= k < |ms| ==> MatchAt(PatternFor(response), response, ms[k].pos) == Some(ms[k]))
      && (forall k :: 0 < k < |ms| ==> ms[k - 1].end <= ms[k].pos)
      && (forall q :: 0 <= q < |response| && (|ms| == 0 || q < ms[0].pos) ==> MatchAt(PatternFor(response), response, q).None?)
      && (forall k, q :: 0 < k < |ms| && ms[k - 1].end <= q < ms[k].pos ==> MatchAt(PatternFor(response), response, q).None?)
      && (|ms| > 0 ==> forall q :: ms[|ms| - 1].end <= q < |response| ==> MatchAt(PatternFor(response), response, q).None?)
  {
    var at := Attempts(PatternFor(response), response);
    ScanYieldsMatches(at, 0);
    ScanOrdered(at, 0);
    ScanFirst(at, 0);
    ScanGaps(at, 0);
    ScanAfterLast(at, 0);
  }

  /** The marker literal at the start of `Marker + x`. */
  lemma MarkerAtStart(s: string, rest: string)
    requires s == Literal(MarkerPattern) + rest
    ensures LiteralAt(s, 0, Literal(MarkerPattern))
  {
    var lit := Literal(MarkerPattern);
    forall k | 0 <= k < |lit|
      ensures LowerChar(s[k]) == LowerChar(lit[k])
    {
      assert s[k] == lit[k];
    }
  }

  /**
   * A marker line followed by one more line: the capture is the next line,
   * whatever follows the marker on its own line.
   */
  lemma MarkerTakesNextLine(x: string, y: string)
    requires NoLineTerminator(x) && NoLineTerminator(y)
    ensures ExtractSummary(Literal(MarkerPattern) + x + "\n" + y) == y
  {
    var lit := Literal(MarkerPattern);
    var s := lit + x + "\n" + y;
    assert s == lit + (x + "\n" + y);
    assert PatternFor(s) == MarkerPattern by { assert s[0] == 'D'; }
    MarkerAtStart(s, x + "\n" + y);
    var nl := |lit| + |x|;
    assert s[nl] == '\n';
    forall k | |lit| <= k < nl
      ensures !IsLineTerminator(s[k])
    {
      assert s[k] == x[k - |lit|];
    }
    TextEndAt(s, |lit|, nl);
    forall k | nl + 1 <= k < |s|
      ensures !IsLineTerminator(s[k])
    {
      assert s[k] == y[k - nl - 1];
    }
    assert NewlineRunEnd(s, nl) == nl + 1 by {
      assert |y| == 0 || s[nl + 1] != '\n';
    }
    TextEndAt(s, nl + 1, |s|);
    var m := Match(0, nl + 1, |s|, |s|);
    assert MatchAt(MarkerPattern, s, 0) == Some(m);
    var at := Attempts(MarkerPattern, s);
    assert Scan(at, 0) == [m] + Scan(at, |s|);
    LastCaptureIsLast(s, [m], "");
    assert s[nl + 1..] == y;
  }

  /**
   * Two marker lines with their summaries on the same line: the first match
   * swallows the second marker line, so the summary is that whole line.
   */
  lemma SecondMarkerSwallowed(x: string, y: string)
    requires NoLineTerminator(x) && NoLineTerminator(y)
    ensures ExtractSummary(Literal(MarkerPattern) + x + "\n" + (Literal(MarkerPattern) + y))
         == Literal(MarkerPattern) + y
  {
    var second := Literal(MarkerPattern) + y;
    forall k | 0 <= k < |second|
      ensures !IsLineTerminator(second[k])
    {
      if k >= |Literal(MarkerPattern)| {
        assert second[k] == y[k - |Literal(MarkerPattern)|];
      }
    }
    MarkerTakesNextLine(x, second);
  }

  /** The JSON key with one space and an opening quote, as a model writes it. */
  function JsonField(x: string): string {
    Literal(JsonPattern) + " \"" + x + "\""
  }

  /** Where the pieces of `"[{" + JsonField(x) + "}]"` lie. */
  lemma JsonLayout(s: string, x: string)
    requires s == "[{" + JsonField(x) + "}]"
    ensures |s| == |x| + 23
    ensures forall k :: 0 <= k < 16 ==> s[k + 2] == Literal(JsonPattern)[k]
    ensures s[0] == '[' && s[1] == '{' && s[18] == ' ' && s[19] == '"'
    ensures forall k :: 0 <= k < |x| ==> s[k + 20] == x[k]
    ensures s[|x| + 20] == '"' && s[|x| + 21] == '}' && s[|x| + 22] == ']'
  {
    var lit := Literal(JsonPattern);
    assert s == "[{" + (lit + (" \"" + (x + ("\"" + "}]"))));
  }

  /** The layout of `"[{" + JsonField(x) + "}]"`, position by position. */
  predicate FieldLayout(s: string, x: string) {
    && |s| == |x| + 23
    && (forall k :: 0 <= k < 16 ==> s[k + 2] == Literal(JsonPattern)[k])
    && s[0] == '[' && s[1] == '{' && s[18] == ' ' && s[19] == '"'
    && (forall k :: 0 <= k < |x| ==> s[k + 20] == x[k])
    && s[|x| + 20] == '"' && s[|x| + 21] == '}' && s[|x| + 22] == ']'
  }

  /** The value's line runs to the end of the response, and its closing quote is the last one on it. */
  lemma FieldLine(s: string, x: string)
    requires FieldLayout(s, x) && Free(x, '"') && NoLineTerminator(x)
    ensures TextEnd(s, 20) == |s|
    ensures LastQuote(s, 20, |s|) == Some(|x| + 20)
  {
    forall k | 20 <= k < |s|
      ensures !IsLineTerminator(s[k])
    {
      if k < |x| + 20 {
        assert s[k] == x[k - 20];
      }
    }
    TextEndAt(s, 20, |s|);
    assert s[|s| - 1] != '"' && s[|s| - 2] != '"';
  }

  /** The key matches at position 2 and captures the value. */
  lemma FieldMatch(s: string, x: string)
    requires FieldLayout(s, x) && Free(x, '"') && NoLineTerminator(x)
    ensures MatchAt(JsonPattern, s, 2) == Some(Match(2, 20, |x| + 20, |x| + 21))
  {
    assert LiteralAt(s, 2, Literal(JsonPattern));
    assert IsSpace(s[18]) && !IsSpace(s[19]);
    SpaceRunEndAt(s, 18, 19);
    FieldLine(s, x);
  }

  /** Nothing else in the response matches. */
  lemma FieldOnlyMatch(s: string, x: string)
    requires FieldLayout(s, x)
    ensures MatchAt(JsonPattern, s, 0).None? && MatchAt(JsonPattern, s, 1).None?
    ensures forall q :: |x| + 21 <= q <= |s| ==> MatchAt(JsonPattern, s, q).None?
  {
    var lit := Literal(JsonPattern);
    assert !LiteralAt(s, 0, lit) by { assert LowerChar(s[0]) != LowerChar(lit[0]); }
    assert !LiteralAt(s, 1, lit) by { assert LowerChar(s[1]) != LowerChar(lit[0]); }
  }

  /** A response holding one JSON field yields the field's value, when that value has no quote and no line break. */
  lemma JsonFieldValue(x: string)
    requires Free(x, '"') && NoLineTerminator(x)
    ensures ExtractSummary("[{" + JsonField(x) + "}]") == x
  {
    var s := "[{" + JsonField(x) + "}]";
    JsonLayout(s, x);
    assert FieldLayout(s, x);
    assert PatternFor(s) == JsonPattern;
    var close := |x| + 20;
    var m := Match(2, 20, close, close + 1);
    FieldMatch(s, x);
    FieldOnlyMatch(s, x);
    var at := Attempts(JsonPattern, s);
    assert at[0].None? && at[1].None? && at[2] == Some(m);
    forall q | close + 1 <= q < |at|
      ensures at[q].None?
    {
      assert at[q] == MatchAt(JsonPattern, s, q);
    }
    ScanOfNoMatch(at, close + 1);
    assert Scan(at, 2) == [m] + Scan(at, close + 1);
    assert Scan(at, 0) == Scan(at, 1) == Scan(at, 2);
    LastCaptureIsLast(s, [m], "");
    assert s[20..close] == x;
  }
}

=== FILE: grouping.dfy ===
/**
 * How `chain_of_density` gathers the per-chunk summaries into groups for
 * the reduce step. Each summary is appended to the group at
 * `grouped_result_index`; a fresh empty group is pushed first whenever that
 * index has reached the last group; once the tokens of the current group
 * exceed the budget the index moves on. The result is compared with a
 * plain greedy packing, `Pack`.
 */
module Grouping {

  /** The token budget of one group. */
  const Budget := 1024

  /** `grouped_results` together with `grouped_result_index`. */
  datatype State = State(groups: seq<seq<string>>, index: nat)

  /** The number of tokens of a group, `tokens` standing for the tokenizer. */
  function TokenSum(tokens: string -> nat, g: seq<string>): nat
    decreases |g|
  {
    if g == [] then 0 else tokens(g[0]) + TokenSum(tokens, g[1..])
  }

  /** All the summaries of a list of groups, in order. */
  function Concat(gs: seq<seq<string>>): seq<string>
    decreases |gs|
  {
    if gs == [] then [] else gs[0] + Concat(gs[1..])
  }

  /** The groups that hold at least one summary, in order. */
  function NonEmpty(gs: seq<seq<string>>): (r: seq<seq<string>>)
    ensures |r| <= |gs|
    ensures forall k :: 0 <= k < |r| ==> r[k] != []
    decreases |gs|
  {
    if gs == [] then []
    else if gs[0] == [] then NonEmpty(gs[1..])
    else [gs[0]] + NonEmpty(gs[1..])
  }

  /** A group the index has moved past: it went over the budget with its last summary and not before. */
  predicate Closed(tokens: string -> nat, g: seq<string>) {
    |g| > 0 && TokenSum(tokens, g) > Budget && TokenSum(tokens, g[..|g| - 1]) <= Budget
  }

  /**
   * The states the loop can reach: closed groups before the index, an open
   * group within budget at the index, and at most one empty group after it.
   */
  predicate Valid(tokens: string -> nat, st: State) {
    && st.index <= |st.groups| <= st.index + 2
    && (forall k :: 0 <= k < st.index ==> Closed(tokens, st.groups[k]))
    && (st.index < |st.groups| ==> TokenSum(tokens, st.groups[st.index]) <= Budget)
    && (|st.groups| == st.index + 2 ==> st.groups[st.index] != [] && st.groups[st.index + 1] == [])
  }

  /** The group being filled; none yet counts as an empty one. */
  function Current(st: State): seq<string> {
    if st.index < |st.groups| then st.groups[st.index] else []
  }

  /** One turn of the loop for the summary `d`. */
  function AddSummary(tokens: string -> nat, st: State, d: string): (r: State)
    requires st.index <= |st.groups|
    ensures r.index <= |r.groups|
    ensures r.index == st.index || r.index == st.index + 1
  {
    var g := if st.index as int >= |st.groups| - 1 then st.groups + [[]] else st.groups;
    var cur := g[st.index] + [d];
    State(g[st.index := cur], if TokenSum(tokens, cur) > Budget then st.index + 1 else st.index)
  }

  /** The loop over the summaries `items`, from the state `st`. */
  function GroupFrom(tokens: string -> nat, st: State, items: seq<string>): (r: State)
    requires st.index <= |st.groups|
    ensures r.index <= |r.groups|
    ensures Valid(tokens, st) ==> Valid(tokens, r)
    decreases |items|
  {
    if items == [] then st
    else
      var next := AddSummary(tokens, st, items[0]);
      AddValid(tokens, st, items[0]);
      GroupFrom(tokens, next, items[1..])
  }

  /**
   * The groups `chain_of_density` builds from its summaries: leaving out its
   * empty groups, exactly the greedy packing, and every summary in order.
   */
  function GroupAll(tokens: string -> nat, items: seq<string>): (r: State)
    ensures Valid(tokens, r)
    ensures NonEmpty(r.groups) == Pack(tokens, [], items)
    ensures Concat(r.groups) == items
  {
    assert Valid(tokens, State([], 0));
    GroupFromPacks(tokens, State([], 0), items);
    var r := GroupFrom(tokens, State([], 0), items);
    ConcatNonEmpty(r.groups);
    PackConcat(tokens, [], items);
    assert [] + items == items;
    r
  }

  /**
   * The reference: greedy packing. Summaries join the open group `cur`;
   * a group is finished by the summary that takes it over the budget.
   */
  function Pack(tokens: string -> nat, cur: seq<string>, items: seq<string>): seq<seq<string>>
    decreases |items|
  {
    if items == [] then (if cur == [] then [] else [cur])
    else
      var c := cur + [items[0]];
      if TokenSum(tokens, c) > Budget then [c] + Pack(tokens, [], items[1..])
      else Pack(tokens, c, items[1..])
  }

  /** Tokens add up over a concatenation. */
  lemma {:induction false} TokenSumConcat(tokens: string -> nat, a: seq<string>, b: seq<string>)
    ensures TokenSum(tokens, a + b) == TokenSum(tokens, a) + TokenSum(tokens, b)
    decreases |a|
  {
    if a == [] {
      assert a + b == b;
    } else {
      TokenSumConcat(tokens, a[1..], b);
      assert (a + b)[0] == a[0] && (a + b)[1..] == a[1..] + b;
    }
  }

  /** Summaries flatten over a concatenation of lists of groups. */
  lemma {:induction false} ConcatAppend(a: seq<seq<string>>, b: seq<seq<string>>)
    ensures Concat(a + b) == Concat(a) + Concat(b)
    decreases |a|
  {
    if a == [] {
      assert a + b == b;
    } else {
      ConcatAppend(a[1..], b);
      assert (a + b)[0] == a[0] && (a + b)[1..] == a[1..] + b;
    }
  }

  /** Dropping the empty groups distributes over a concatenation. */
  lemma {:induction false} NonEmptyAppend(a: seq<seq<string>>, b: seq<seq<string>>)
    ensures NonEmpty(a + b) == NonEmpty(a) + NonEmpty(b)
    decreases |a|
  {
    if a == [] {
      assert a + b == b;
    } else {
      NonEmptyAppend(a[1..], b);
      assert (a + b)[0] == a[0] && (a + b)[1..] == a[1..] + b;
      if a[0] != [] {
        assert NonEmpty(a) == [a[0]] + NonEmpty(a[1..]);
      }
    }
  }

  /** A list of groups none of which is empty keeps all of them. */
  lemma {:induction false} NonEmptyKeepsAll(gs: seq<seq<string>>)
    requires forall k :: 0 <= k < |gs| ==> gs[k] != []
    ensures NonEmpty(gs) == gs
    decreases |gs|
  {
    if gs != [] {
      NonEmptyKeepsAll(gs[1..]);
    }
  }

  /** Dropping the empty groups loses no summary. */
  lemma {:induction false} ConcatNonEmpty(gs: seq<seq<string>>)
    ensures Concat(NonEmpty(gs)) == Concat(gs)
    decreases |gs|
  {
    if gs != [] {
      ConcatNonEmpty(gs[1..]);
      if gs[0] != [] {
        assert ([gs[0]] + NonEmpty(gs[1..]))[1..] == NonEmpty(gs[1..]);
      }
    }
  }

  /** A valid state is its closed groups, then what remains at and after the index. */
  lemma Shape(tokens: string -> nat, st: State)
    requires Valid(tokens, st)
    ensures st.groups == st.groups[..st.index] + st.groups[st.index..]
    ensures st.index == |st.groups| ==> st.groups[st.index..] == []
    ensures |st.groups| == st.index + 1 ==> st.groups[st.index..] == [Current(st)]
    ensures |st.groups| == st.index + 2 ==> st.groups[st.index..] == [Current(st), []]
  {
  }

  /** What one turn does to a valid state: the summary joins the current group, followed by an empty one unless none was started. */
  lemma AddShape(tokens: string -> nat, st: State, d: string)
    requires Valid(tokens, st)
    ensures AddSummary(tokens, st, d).groups
      == st.groups[..st.index] + [Current(st) + [d]] + (if |st.groups| == st.index then [] else [[]])
    ensures AddSummary(tokens, st, d).index
      == if TokenSum(tokens, Current(st) + [d]) > Budget then st.index + 1 else st.index
  {
    var r := AddSummary(tokens, st, d);
    var want := st.groups[..st.index] + [Current(st) + [d]] + (if |st.groups| == st.index then [] else [[]]);
    assert |r.groups| == |want|;
    forall k | 0 <= k < |want|
      ensures r.groups[k] == want[k]
    {
    }
  }

  /** The last summary of `cur + [d]` is `d`. */
  lemma DropLast(cur: seq<string>, d: string)
    ensures (cur + [d])[..|cur + [d]| - 1] == cur
  {
  }

  /** One turn keeps the state valid. */
  lemma AddValid(tokens: string -> nat, st: State, d: string)
    requires st.index <= |st.groups|
    ensures Valid(tokens, st) ==> Valid(tokens, AddSummary(tokens, st, d))
  {
    if Valid(tokens, st) {
      AddShape(tokens, st, d);
      DropLast(Current(st), d);
      var r := AddSummary(tokens, st, d);
      assert r.groups[..st.index] == st.groups[..st.index];
      assert r.groups[st.index] == Current(st) + [d];
    }
  }

  /** With no summary left, a valid state holds its closed groups and at most the open one. */
  lemma PacksAtEnd(tokens: string -> nat, st: State)
    requires Valid(tokens, st)
    ensures NonEmpty(st.groups) == st.groups[..st.index] + Pack(tokens, Current(st), [])
  {
    var closed := st.groups[..st.index];
    Shape(tokens, st);
    NonEmptyAppend(closed, st.groups[st.index..]);
    NonEmptyKeepsAll(closed);
    if |st.groups| == st.index + 2 {
      assert NonEmpty([Current(st), []]) == [Current(st)];
    } else if |st.groups| == st.index + 1 {
      assert NonEmpty([Current(st)]) == Pack(tokens, Current(st), []);
    }
  }

  /** One turn moves the summary `d` from the items still to come into the groups. */
  lemma PacksStep(tokens: string -> nat, st: State, d: string, rest: seq<string>)
    requires Valid(tokens, st)
    ensures AddSummary(tokens, st, d).groups[..AddSummary(tokens, st, d).index]
        + Pack(tokens, Current(AddSummary(tokens, st, d)), rest)
      == st.groups[..st.index] + Pack(tokens, Current(st), [d] + rest)
  {
    if TokenSum(tokens, Current(st) + [d]) > Budget {
      PacksStepOver(tokens, st, d, rest);
    } else {
      PacksStepWithin(tokens, st, d, rest);
    }
  }

  /** The turn that takes the current group over the budget closes it. */
  lemma PacksStepOver(tokens: string -> nat, st: State, d: string, rest: seq<string>)
    requires Valid(tokens, st) && TokenSum(tokens, Current(st) + [d]) > Budget
    ensures AddSummary(tokens, st, d).groups[..AddSummary(tokens, st, d).index]
        + Pack(tokens, Current(AddSummary(tokens, st, d)), rest)
      == st.groups[..st.index] + Pack(tokens, Current(st), [d] + rest)
  {
    var next := AddSummary(tokens, st, d);
    var c := Current(st) + [d];
    AddShape(tokens, st, d);
    assert ([d] + rest)[0] == d && ([d] + rest)[1..] == rest;
    assert next.groups[..next.index] == st.groups[..st.index] + [c];
    assert Current(next) == [];
    assert Pack(tokens, Current(st), [d] + rest) == [c] + Pack(tokens, [], rest);
  }

  /** The turn that keeps the current group within the budget extends it. */
  lemma PacksStepWithin(tokens: string -> nat, st: State, d: string, rest: seq<string>)
    requires Valid(tokens, st) && TokenSum(tokens, Current(st) + [d]) <= Budget
    ensures AddSummary(tokens, st, d).groups[..AddSummary(tokens, st, d).index]
        + Pack(tokens, Current(AddSummary(tokens, st, d)), rest)
      == st.groups[..st.index] + Pack(tokens, Current(st), [d] + rest)
  {
    var next := AddSummary(tokens, st, d);
    var c := Current(st) + [d];
    AddShape(tokens, st, d);
    assert ([d] + rest)[0] == d && ([d] + rest)[1..] == rest;
    assert next.groups[..next.index] == st.groups[..st.index];
    assert Current(next) == c;
    assert Pack(tokens, Current(st), [d] + rest) == Pack(tokens, c, rest);
  }

  /** The loop from a valid state yields its closed groups followed by the greedy packing of the rest. */
  lemma {:induction false} GroupFromPacks(tokens: string -> nat, st: State, items: seq<string>)
    requires Valid(tokens, st)
    ensures NonEmpty(GroupFrom(tokens, st, items).groups)
      == st.groups[..st.index] + Pack(tokens, Current(st), items)
    decreases |items|
  {
    if items == [] {
      PacksAtEnd(tokens, st);
    } else {
      var next := AddSummary(tokens, st, items[0]);
      AddValid(tokens, st, items[0]);
      GroupFromPacks(tokens, next, items[1..]);
      PacksStep(tokens, st, items[0], items[1..]);
      assert [items[0]] + items[1..] == items;
    }
  }

  /** Apart from the one being filled, every group the loop builds holds summaries; only the last one can be empty. */
  lemma OnlyLastEmpty(tokens: string -> nat, items: seq<string>)
    ensures forall k :: 0 <= k < |GroupAll(tokens, items).groups| - 1 ==> GroupAll(tokens, items).groups[k] != []
  {
    assert Valid(tokens, State([], 0));
  }

  /** Packing loses, adds and reorders nothing. */
  lemma {:induction false} PackConcat(tokens: string -> nat, cur: seq<string>, items: seq<string>)
    ensures Concat(Pack(tokens, cur, items)) == cur + items
    decreases |items|
  {
    if items != [] {
      var c := cur + [items[0]];
      PackConcat(tokens, [], items[1..]);
      PackConcat(tokens, c, items[1..]);
      assert cur + items == c + items[1..];
      if TokenSum(tokens, c) > Budget {
        ConcatAppend([c], Pack(tokens, [], items[1..]));
      }
    }
  }

  /**
   * Every packed group holds summaries and was within budget before its
   * last one; every group but the last went over the budget.
   */
  lemma {:induction false} PackShape(tokens: string -> nat, cur: seq<string>, items: seq<string>)
    requires TokenSum(tokens, cur) <= Budget
    ensures forall k :: 0 <= k < |Pack(tokens, cur, items)| ==>
      Pack(tokens, cur, items)[k] != []
      && TokenSum(tokens, Pack(tokens, cur, items)[k][..|Pack(tokens, cur, items)[k]| - 1]) <= Budget
    ensures forall k :: 0 <= k < |Pack(tokens, cur, items)| - 1 ==> Closed(tokens, Pack(tokens, cur, items)[k])
    decreases |items|
  {
    if items == [] {
      if cur != [] {
        TokenSumConcat(tokens, cur[..|cur| - 1], [cur[|cur| - 1]]);
        assert cur == cur[..|cur| - 1] + [cur[|cur| - 1]];
      }
    } else {
      var c := cur + [items[0]];
      DropLast(cur, items[0]);
      if TokenSum(tokens, c) > Budget {
        PackShape(tokens, [], items[1..]);
        var rest := Pack(tokens, [], items[1..]);
        assert Pack(tokens, cur, items) == [c] + rest;
        assert forall k :: 0 < k < |[c] + rest| ==> ([c] + rest)[k] == rest[k - 1];
      } else {
        PackShape(tokens, c, items[1..]);
      }
    }
  }

  /** Summaries within one budget in all stay in one group. */
  lemma {:induction false} PackWithinBudget(tokens: string -> nat, cur: seq<string>, items: seq<string>)
    requires cur + items != [] && TokenSum(tokens, cur + items) <= Budget
    ensures Pack(tokens, cur, items) == [cur + items]
    decreases |items|
  {
    if items == [] {
      assert cur + items == cur;
    } else {
      var c := cur + [items[0]];
      assert cur + items == c + items[1..];
      TokenSumConcat(tokens, c, items[1..]);
      PackWithinBudget(tokens, c, items[1..]);
    }
  }

  /** Summaries whose tokens are within budget in all make a single group. */
  lemma SingleGroup(tokens: string -> nat, items: seq<string>)
    requires items != [] && TokenSum(tokens, items) <= Budget
    ensures NonEmpty(GroupAll(tokens, items).groups) == [items]
  {
    assert [] + items == items;
    PackWithinBudget(tokens, [], items);
  }

  /** The open group `cur` takes the summaries up to the one that first takes it over the budget, and packing starts afresh after it. */
  lemma {:induction false} PackCrossing(tokens: string -> nat, cur: seq<string>, items: seq<string>, k: nat)
    requires 1 <= k <= |items|
    requires TokenSum(tokens, cur + items[..k - 1]) <= Budget && TokenSum(tokens, cur + items[..k]) > Budget
    ensures Pack(tokens, cur, items) == [cur + items[..k]] + Pack(tokens, [], items[k..])
    decreases k
  {
    var c := cur + [items[0]];
    if k == 1 {
      assert cur + items[..1] == c;
    } else {
      assert cur + items[..k - 1] == c + items[1..][..k - 2];
      assert cur + items[..k] == c + items[1..][..k - 1];
      TokenSumConcat(tokens, c, items[1..][..k - 2]);
      PackCrossing(tokens, c, items[1..], k - 1);
      assert items[1..][k - 1..] == items[k..];
    }
  }

  /**
   * When the running total of the summaries first exceeds the budget at the
   * `k`-th summary, the first `k` summaries make the first group and the
   * next summary, if any, opens the second.
   */
  lemma FirstGroupAtCrossing(tokens: string -> nat, items: seq<string>, k: nat)
    requires 1 <= k <= |items|
    requires TokenSum(tokens, items[..k - 1]) <= Budget && TokenSum(tokens, items[..k]) > Budget
    ensures |NonEmpty(GroupAll(tokens, items).groups)| >= 1
    ensures NonEmpty(GroupAll(tokens, items).groups)[0] == items[..k]
    ensures k < |items| ==> |NonEmpty(GroupAll(tokens, items).groups)| >= 2
    ensures k < |items| ==> NonEmpty(GroupAll(tokens, items).groups)[1][0] == items[k]
  {
    assert [] + items[..k - 1] == items[..k - 1] && [] + items[..k] == items[..k];
    PackCrossing(tokens, [], items, k);
    if k < |items| {
      var rest := Pack(tokens, [], items[k..]);
      PackConcat(tokens, [], items[k..]);
      assert [] + items[k..] == items[k..];
      PackShape(tokens, [], items[k..]);
      assert rest != [];
      assert Concat(rest) == rest[0] + Concat(rest[1..]);
    }
  }
}

=== FILE: languages.dfy ===
/** `LanguageModal.getSuggestions`: the language codes offered for what has been typed. */
module Languages {
  import opened Text

  /** `ALL_LANGUAGES` */
  const AllLanguages: seq<string> := ["en", "fr"]

  /** `lang.toLowerCase().startsWith(query.toLowerCase())` */
  predicate Suggests(lang: string, query: string) {
    StartsWith(Lower(lang), Lower(query))
  }

  /** `langs.filter(...)` with the predicate above. */
  function Filter(langs: seq<string>, query: string): (r: seq<string>)
    ensures |r| <= |langs|
    decreases |langs|
  {
    if langs == [] then []
    else if Suggests(langs[0], query) then [langs[0]] + Filter(langs[1..], query)
    else Filter(langs[1..], query)
  }

  /**
   * `getSuggestions(query)`: the languages whose lower-cased code starts with
   * the lower-cased query, every one of them and nothing else.
   */
  function Suggestions(query: string): (r: seq<string>)
    ensures forall k :: 0 <= k < |r| ==> Suggests(r[k], query)
    ensures forall k :: 0 <= k < |AllLanguages| && Suggests(AllLanguages[k], query) ==> AllLanguages[k] in r
  {
    FilterMembers(AllLanguages, query);
    Filter(AllLanguages, query)
  }

  /** Filtering keeps the matching entries and only those. */
  lemma {:induction false} FilterMembers(langs: seq<string>, query: string)
    ensures forall k :: 0 <= k < |Filter(langs, query)| ==> Suggests(Filter(langs, query)[k], query)
    ensures forall k :: 0 <= k < |langs| && Suggests(langs[k], query) ==> langs[k] in Filter(langs, query)
    decreases |langs|
  {
    if langs != [] {
      FilterMembers(langs[1..], query);
      var rest := Filter(langs[1..], query);
      if Suggests(langs[0], query) {
        assert forall k :: 0 < k < |[langs[0]] + rest| ==> ([langs[0]] + rest)[k] == rest[k - 1];
      }
      forall k | 0 < k < |langs|
        ensures langs[k] == langs[1..][k - 1]
      {
      }
    }
  }

  /** Filtering keeps the order: the filter of a concatenation is the concatenation of the filters. */
  lemma {:induction false} FilterAppend(a: seq<string>, b: seq<string>, query: string)
    ensures Filter(a + b, query) == Filter(a, query) + Filter(b, query)
    decreases |a|
  {
    if a == [] {
      assert a + b == b;
    } else {
      FilterAppend(a[1..], b, query);
      assert (a + b)[0] == a[0] && (a + b)[1..] == a[1..] + b;
    }
  }

  /** An empty query offers every language, in order. */
  lemma {:induction false} FilterEmptyQuery(langs: seq<string>)
    ensures Filter(langs, "") == langs
    decreases |langs|
  {
    if langs != [] {
      assert Suggests(langs[0], "");
      FilterEmptyQuery(langs[1..]);
    }
  }

  /** With nothing typed, both languages are offered. */
  lemma EmptyQueryOffersAll()
    ensures Suggestions("") == AllLanguages
  {
    FilterEmptyQuery(AllLanguages);
  }

  /** Lower-casing twice is lower-casing once. */
  lemma LowerIdempotent(s: string)
    ensures Lower(Lower(s)) == Lower(s)
  {
  }

  /** The query's case does not matter. */
  lemma SuggestionsIgnoreCase(query: string)
    ensures Suggestions(query) == Suggestions(Lower(query))
  {
    LowerIdempotent(query);
  }

  /** A query longer than every language code matches nothing. */
  lemma {:induction false} FilterLongQuery(langs: seq<string>, query: string)
    requires forall k :: 0 <= k < |langs| ==> |langs[k]| < |query|
    ensures Filter(langs, query) == []
    decreases |langs|
  {
    if langs != [] {
      FilterLongQuery(langs[1..], query);
    }
  }

  /** Both codes have two letters, so three typed characters leave nothing to offer. */
  lemma LongQueryOffersNothing(query: string)
    requires |query| > 2
    ensures Suggestions(query) == []
  {
    FilterLongQuery(AllLanguages, query);
  }

  /** Typing a language's first letter, in either case, offers that language alone. */
  lemma FirstLetterPicksOne(query: string, k: nat)
    requires k < |AllLanguages| && |query| == 1 && LowerChar(query[0]) == AllLanguages[k][0]
    ensures Suggestions(query) == [AllLanguages[k]]
  {
    assert Lower(query) == [AllLanguages[k][0]];
    assert Lower("en") == "en" && Lower("fr") == "fr";
  }
}

=== FILE: osa.dfy ===
/**
 * `optimalStringAlignmentDistance`: the optimal string alignment distance
 * (Damerau–Levenshtein restricted to non-overlapping edits) between two
 * texts, filled column by column into an (m+1)×(n+1) table.
 *
 * The transposition step adds the substitution `cost` of the cell rather than
 * a fixed 1. `Osa.SameAsUnitTransposition` shows that this never changes the
 * result: the textbook recurrence with a unit transposition gives the same
 * table.
 */
module Osa {

  /** What the source returns when either text is empty. */
  const EmptyDistance := 99

  function Min(a: nat, b: nat): nat {
    if a <= b then a else b
  }

  function Max(a: nat, b: nat): nat {
    if a >= b then a else b
  }

  /** The substitution cost of cell (i, j): 0 when the i-th and j-th characters agree. */
  function Cost(s: string, t: string, i: nat, j: nat): nat
    requires 1 <= i <= |s| && 1 <= j <= |t|
  {
    if s[i - 1] == t[j - 1] then 0 else 1
  }

  /** Whether cell (i, j) may be reached by swapping the two characters before it. */
  predicate Swappable(s: string, t: string, i: nat, j: nat)
    requires i <= |s| && j <= |t|
  {
    i > 1 && j > 1 && s[i - 1] == t[j - 2] && s[i - 2] == t[j - 1]
  }

  /**
   * One cell from its neighbours: insertion from the left, deletion from above,
   * substitution from the diagonal at `cost`, and, when the cell is `swap`pable,
   * the transposition value `back`.
   */
  function Combine(left: nat, up: nat, diag: nat, cost: nat, swap: bool, back: nat): nat {
    var v := Min(left + 1, Min(up + 1, diag + cost));
    if swap then Min(v, back) else v
  }

  /**
   * Cell (i, j) of the table: the distance between `s[..i]` and `t[..j]` as the
   * source's recurrence defines it, where a transposition is charged the
   * cell's substitution cost.
   */
  function Cell(s: string, t: string, i: nat, j: nat): nat
    requires i <= |s| && j <= |t|
    decreases i + j
  {
    if i == 0 then j
    else if j == 0 then i
    else
      var swap := Swappable(s, t, i, j);
      var cost := Cost(s, t, i, j);
      Combine(Cell(s, t, i, j - 1), Cell(s, t, i - 1, j), Cell(s, t, i - 1, j - 1), cost,
              swap, if swap then Cell(s, t, i - 2, j - 2) + cost else 0)
  }

  /**
   * `optimalStringAlignmentDistance(s, t)`: 99 when either text is empty;
   * otherwise between the length difference and the longer length, and 0
   * exactly for equal texts.
   */
  function Distance(s: string, t: string): (r: nat)
    ensures |s| > 0 && |t| > 0 ==> r <= Max(|s|, |t|)
    ensures |s| > 0 && |t| > 0 ==> r >= |s| - |t| && r >= |t| - |s|
    ensures |s| > 0 && |t| > 0 ==> (r == 0 <==> s == t)
  {
    if |s| == 0 || |t| == 0 then EmptyDistance
    else
      CellAtMostMax(s, t, |s|, |t|);
      CellAtLeastGap(s, t, |s|, |t|);
      CellZeroIffEqual(s, t);
      Cell(s, t, |s|, |t|)
  }

  /** The textbook recurrence, where a transposition always costs 1. */
  function UnitCell(s: string, t: string, i: nat, j: nat): nat
    requires i <= |s| && j <= |t|
    decreases i + j
  {
    if i == 0 then j
    else if j == 0 then i
    else
      var swap := Swappable(s, t, i, j);
      Combine(UnitCell(s, t, i, j - 1), UnitCell(s, t, i - 1, j), UnitCell(s, t, i - 1, j - 1), Cost(s, t, i, j),
              swap, if swap then UnitCell(s, t, i - 2, j - 2) + 1 else 0)
  }

  /** A cell, given its neighbours' values. */
  lemma CellFrom(s: string, t: string, i: nat, j: nat, left: nat, up: nat, diag: nat, back: nat)
    requires 1 <= i <= |s| && 1 <= j <= |t|
    requires left == Cell(s, t, i, j - 1) && up == Cell(s, t, i - 1, j) && diag == Cell(s, t, i - 1, j - 1)
    requires Swappable(s, t, i, j) ==> back == Cell(s, t, i - 2, j - 2)
    ensures Cell(s, t, i, j) == Combine(left, up, diag, Cost(s, t, i, j), Swappable(s, t, i, j), back + Cost(s, t, i, j))
  {
  }

  /** A cell of the textbook table, given its neighbours' values. */
  lemma UnitCellFrom(s: string, t: string, i: nat, j: nat, left: nat, up: nat, diag: nat, back: nat)
    requires 1 <= i <= |s| && 1 <= j <= |t|
    requires left == UnitCell(s, t, i, j - 1) && up == UnitCell(s, t, i - 1, j) && diag == UnitCell(s, t, i - 1, j - 1)
    requires Swappable(s, t, i, j) ==> back == UnitCell(s, t, i - 2, j - 2)
    ensures UnitCell(s, t, i, j) == Combine(left, up, diag, Cost(s, t, i, j), Swappable(s, t, i, j), back + 1)
  {
  }

  /** Fills cell (i, j) of `d` from its neighbours, as the body of the source's inner loop does. */
  method FillCell(s: string, t: string, d: array2<nat>, i: nat, j: nat)
    requires d.Length0 == |s| + 1 && d.Length1 == |t| + 1
    requires 1 <= i <= |s| && 1 <= j <= |t|
    requires d[i, j - 1] == Cell(s, t, i, j - 1) && d[i - 1, j] == Cell(s, t, i - 1, j)
    requires d[i - 1, j - 1] == Cell(s, t, i - 1, j - 1)
    requires Swappable(s, t, i, j) ==> d[i - 2, j - 2] == Cell(s, t, i - 2, j - 2)
    modifies d
    ensures d[i, j] == Cell(s, t, i, j)
    ensures forall k, l :: 0 <= k < d.Length0 && 0 <= l < d.Length1 && (k != i || l != j) ==> d[k, l] == old(d[k, l])
  {
    var cost := if s[i - 1] == t[j - 1] then 0 else 1;
    var swap := i > 1 && j > 1 && s[i - 1] == t[j - 2] && s[i - 2] == t[j - 1];
    var back := if swap then d[i - 2, j - 2] else 0;
    var left, up, diag := d[i, j - 1], d[i - 1, j], d[i - 1, j - 1];
    CellFrom(s, t, i, j, left, up, diag, back);
    d[i, j] := Combine(left, up, diag, cost, swap, back + cost);
  }

  /**
   * The table computed as the source does: first column and first row, then
   * column by column, each column top to bottom.
   */
  method ComputeDistance(s: string, t: string) returns (r: nat)
    ensures r == Distance(s, t)
    ensures |s| == 0 || |t| == 0 ==> r == EmptyDistance
  {
    if |s| == 0 || |t| == 0 {
      return EmptyDistance;
    }
    var m := |s|;
    var n := |t|;
    var d := new nat[m + 1, n + 1];
    var i := 0;
    while i <= m
      invariant 0 <= i <= m + 1
      invariant forall k :: 0 <= k < i ==> d[k, 0] == k
    {
      d[i, 0] := i;
      i := i + 1;
    }
    var j := 0;
    while j <= n
      invariant 0 <= j <= n + 1
      invariant forall k :: 0 <= k <= m ==> d[k, 0] == Cell(s, t, k, 0)
      invariant forall l :: 0 <= l < j ==> d[0, l] == Cell(s, t, 0, l)
    {
      d[0, j] := j;
      j := j + 1;
    }
    j := 1;
    while j <= n
      invariant 1 <= j <= n + 1
      invariant forall k, l {:trigger d[k, l]} :: 0 <= k <= m && 0 <= l < j ==> d[k, l] == Cell(s, t, k, l)
      invariant forall l {:trigger d[0, l]} :: 0 <= l <= n ==> d[0, l] == Cell(s, t, 0, l)
    {
      i := 1;
      while i <= m
        invariant 1 <= i <= m + 1
        invariant forall k, l {:trigger d[k, l]} :: 0 <= k <= m && 0 <= l < j ==> d[k, l] == Cell(s, t, k, l)
        invariant forall l {:trigger d[0, l]} :: 0 <= l <= n ==> d[0, l] == Cell(s, t, 0, l)
        invariant forall k {:trigger d[k, j]} :: 0 <= k < i ==> d[k, j] == Cell(s, t, k, j)
      {
        FillCell(s, t, d, i, j);
        i := i + 1;
      }
      j := j + 1;
    }
    r := d[m, n];
  }

  /** The diagonal step bounds a cell from above. */
  lemma DiagonalStep(s: string, t: string, i: nat, j: nat)
    requires 1 <= i <= |s| && 1 <= j <= |t|
    ensures Cell(s, t, i, j) <= Cell(s, t, i - 1, j - 1) + Cost(s, t, i, j)
  {
    var swap := Swappable(s, t, i, j);
    CellFrom(s, t, i, j, Cell(s, t, i, j - 1), Cell(s, t, i - 1, j), Cell(s, t, i - 1, j - 1),
             if swap then Cell(s, t, i - 2, j - 2) else 0);
  }

  /** A cell is never more than the longer of the two prefixes: substitute along the diagonal, then insert or delete. */
  lemma {:induction false} CellAtMostMax(s: string, t: string, i: nat, j: nat)
    requires i <= |s| && j <= |t|
    ensures Cell(s, t, i, j) <= Max(i, j)
    decreases i + j
  {
    if i > 0 && j > 0 {
      CellAtMostMax(s, t, i - 1, j - 1);
      DiagonalStep(s, t, i, j);
    }
  }

  /** `Combine` is at least `g` when every way into the cell is. */
  lemma CombineAtLeast(left: nat, up: nat, diag: nat, cost: nat, swap: bool, back: nat, g: int)
    requires left + 1 >= g && up + 1 >= g && diag + cost >= g && (swap ==> back >= g)
    ensures Combine(left, up, diag, cost, swap, back) >= g
  {
  }

  /** A cell is never less than the difference in the prefixes' lengths. */
  lemma {:induction false} CellAtLeastGap(s: string, t: string, i: nat, j: nat)
    requires i <= |s| && j <= |t|
    ensures Cell(s, t, i, j) >= i - j && Cell(s, t, i, j) >= j - i
    decreases i + j
  {
    if i > 0 && j > 0 {
      var swap := Swappable(s, t, i, j);
      var left, up, diag := Cell(s, t, i, j - 1), Cell(s, t, i - 1, j), Cell(s, t, i - 1, j - 1);
      var back := if swap then Cell(s, t, i - 2, j - 2) else 0;
      CellAtLeastGap(s, t, i, j - 1);
      CellAtLeastGap(s, t, i - 1, j);
      CellAtLeastGap(s, t, i - 1, j - 1);
      if swap {
        CellAtLeastGap(s, t, i - 2, j - 2);
      }
      CellFrom(s, t, i, j, left, up, diag, back);
      var cost := Cost(s, t, i, j);
      CombineAtLeast(left, up, diag, cost, swap, back + cost, i - j);
      CombineAtLeast(left, up, diag, cost, swap, back + cost, j - i);
    }
  }

  /** Equal prefixes are at distance 0. */
  lemma {:induction false} CellOfEqualPrefixes(s: string, t: string, i: nat)
    requires i <= |s| && i <= |t| && s[..i] == t[..i]
    ensures Cell(s, t, i, i) == 0
  {
    if i > 0 {
      assert s[..i - 1] == s[..i][..i - 1] && t[..i - 1] == t[..i][..i - 1];
      assert s[i - 1] == s[..i][i - 1] && t[i - 1] == t[..i][i - 1];
      CellOfEqualPrefixes(s, t, i - 1);
      DiagonalStep(s, t, i, i);
    }
  }

  /** A `Combine` of 0 comes from a free diagonal step. */
  lemma CombineZero(left: nat, up: nat, diag: nat, cost: nat, swap: bool, back: nat)
    requires Combine(left, up, diag, cost, swap, back) == 0 && (swap ==> diag + cost <= back)
    ensures diag + cost == 0
  {
  }

  /**
   * A transposition at a cell is never better than the diagonal step: when it
   * costs 1 it starts from a cell at most one above the diagonal's, and when
   * it is free the two characters swapped are the same, so the diagonal step
   * before it is free too.
   */
  lemma FreeSwapNoBetter(s: string, t: string, i: nat, j: nat)
    requires 1 <= i <= |s| && 1 <= j <= |t| && Swappable(s, t, i, j)
    ensures Cell(s, t, i - 1, j - 1) <= Cell(s, t, i - 2, j - 2) + 1
    ensures Cost(s, t, i, j) == 0 ==> Cell(s, t, i - 1, j - 1) <= Cell(s, t, i - 2, j - 2)
  {
    DiagonalStep(s, t, i - 1, j - 1);
    if Cost(s, t, i, j) == 0 {
      assert Cost(s, t, i - 1, j - 1) == 0;
    }
  }

  /** A cell of 0 comes from a free diagonal step from a cell of 0. */
  lemma CellZeroStep(s: string, t: string, i: nat, j: nat)
    requires 1 <= i <= |s| && 1 <= j <= |t| && Cell(s, t, i, j) == 0
    ensures Cell(s, t, i - 1, j - 1) == 0 && s[i - 1] == t[j - 1]
  {
    var swap := Swappable(s, t, i, j);
    var cost := Cost(s, t, i, j);
    var left, up, diag := Cell(s, t, i, j - 1), Cell(s, t, i - 1, j), Cell(s, t, i - 1, j - 1);
    var back := if swap then Cell(s, t, i - 2, j - 2) else 0;
    CellFrom(s, t, i, j, left, up, diag, back);
    if swap {
      FreeSwapNoBetter(s, t, i, j);
    }
    CombineZero(left, up, diag, cost, swap, back + cost);
  }

  /** A cell of 0 means the two prefixes are equal. */
  lemma {:induction false} CellZeroEqual(s: string, t: string, i: nat, j: nat)
    requires i <= |s| && j <= |t| && Cell(s, t, i, j) == 0
    ensures i == j && s[..i] == t[..j]
    decreases i + j
  {
    if i > 0 && j > 0 {
      CellZeroStep(s, t, i, j);
      CellZeroEqual(s, t, i - 1, j - 1);
      assert s[..i] == s[..i - 1] + [s[i - 1]] && t[..j] == t[..j - 1] + [t[j - 1]];
    }
  }

  /** The whole table ends in 0 exactly when the two texts are the same. */
  lemma CellZeroIffEqual(s: string, t: string)
    ensures Cell(s, t, |s|, |t|) == 0 <==> s == t
  {
    if s == t {
      CellOfEqualPrefixes(s, t, |s|);
    }
    if Cell(s, t, |s|, |t|) == 0 {
      CellZeroEqual(s, t, |s|, |t|);
      assert s == s[..|s|] && t == t[..|t|];
    }
  }

  /** Insertion and deletion play symmetric roles in `Combine`. */
  lemma CombineSwapped(left: nat, up: nat, diag: nat, cost: nat, swap: bool, back: nat)
    ensures Combine(left, up, diag, cost, swap, back) == Combine(up, left, diag, cost, swap, back)
  {
  }

  /** Two values that are the same `Combine` with insertion and deletion exchanged are equal. */
  lemma EqualCombines(x: nat, y: nat, left: nat, up: nat, diag: nat, cost: nat, swap: bool, back: nat)
    requires x == Combine(left, up, diag, cost, swap, back) && y == Combine(up, left, diag, cost, swap, back)
    ensures x == y
  {
    CombineSwapped(left, up, diag, cost, swap, back);
  }

  /** One step of the symmetry: a cell equals its transpose when its neighbours do. */
  lemma CellSymmetricStep(s: string, t: string, i: nat, j: nat)
    requires 1 <= i <= |s| && 1 <= j <= |t|
    requires Cell(s, t, i, j - 1) == Cell(t, s, j - 1, i)
    requires Cell(s, t, i - 1, j) == Cell(t, s, j, i - 1)
    requires Cell(s, t, i - 1, j - 1) == Cell(t, s, j - 1, i - 1)
    requires Swappable(s, t, i, j) ==> Cell(s, t, i - 2, j - 2) == Cell(t, s, j - 2, i - 2)
    ensures Cell(s, t, i, j) == Cell(t, s, j, i)
  {
    var swap := Swappable(s, t, i, j);
    assert Swappable(t, s, j, i) == swap;
    var cost := Cost(s, t, i, j);
    assert Cost(t, s, j, i) == cost;
    var left, up, diag := Cell(s, t, i, j - 1), Cell(s, t, i - 1, j), Cell(s, t, i - 1, j - 1);
    var back := if swap then Cell(s, t, i - 2, j - 2) else 0;
    CellFrom(s, t, i, j, left, up, diag, back);
    CellFrom(t, s, j, i, up, left, diag, back);
    EqualCombines(Cell(s, t, i, j), Cell(t, s, j, i), left, up, diag, cost, swap, back + cost);
  }

  /** Swapping the texts transposes the table. */
  lemma {:induction false} CellSymmetric(s: string, t: string, i: nat, j: nat)
    requires i <= |s| && j <= |t|
    ensures Cell(s, t, i, j) == Cell(t, s, j, i)
    decreases i + j
  {
    if i > 0 && j > 0 {
      CellSymmetric(s, t, i, j - 1);
      CellSymmetric(s, t, i - 1, j);
      CellSymmetric(s, t, i - 1, j - 1);
      if Swappable(s, t, i, j) {
        CellSymmetric(s, t, i - 2, j - 2);
      }
      CellSymmetricStep(s, t, i, j);
    }
  }

  /** The distance does not depend on the order of its arguments. */
  lemma DistanceSymmetric(s: string, t: string)
    ensures Distance(s, t) == Distance(t, s)
  {
    if |s| > 0 && |t| > 0 {
      CellSymmetric(s, t, |s|, |t|);
    }
  }

  /** A transposition value no better than the diagonal step does not matter. */
  lemma CombineBackIgnored(left: nat, up: nat, diag: nat, cost: nat, back1: nat, back2: nat)
    requires diag + cost <= back1 && diag + cost <= back2
    ensures Combine(left, up, diag, cost, true, back1) == Combine(left, up, diag, cost, true, back2)
  {
  }

  /** One cell of the two tables agrees when its neighbours do. */
  lemma UnitTranspositionStep(s: string, t: string, i: nat, j: nat)
    requires 1 <= i <= |s| && 1 <= j <= |t|
    requires Cell(s, t, i, j - 1) == UnitCell(s, t, i, j - 1) && Cell(s, t, i - 1, j) == UnitCell(s, t, i - 1, j)
    requires Cell(s, t, i - 1, j - 1) == UnitCell(s, t, i - 1, j - 1)
    requires Swappable(s, t, i, j) ==> Cell(s, t, i - 2, j - 2) == UnitCell(s, t, i - 2, j - 2)
    ensures Cell(s, t, i, j) == UnitCell(s, t, i, j)
  {
    var swap := Swappable(s, t, i, j);
    var cost := Cost(s, t, i, j);
    var left, up, diag := Cell(s, t, i, j - 1), Cell(s, t, i - 1, j), Cell(s, t, i - 1, j - 1);
    var back := if swap then Cell(s, t, i - 2, j - 2) else 0;
    CellFrom(s, t, i, j, left, up, diag, back);
    UnitCellFrom(s, t, i, j, left, up, diag, back);
    if swap && cost == 0 {
      FreeSwapNoBetter(s, t, i, j);
      CombineBackIgnored(left, up, diag, cost, back + cost, back + 1);
    }
  }

  /**
   * Charging the substitution cost for a transposition is the same as charging
   * 1: a swap of two distinct characters costs 1 either way, and a "swap" of
   * two equal characters is never better than matching them on the diagonal.
   */
  lemma {:induction false} SameAsUnitTransposition(s: string, t: string, i: nat, j: nat)
    requires i <= |s| && j <= |t|
    ensures Cell(s, t, i, j) == UnitCell(s, t, i, j)
    decreases i + j
  {
    if i > 0 && j > 0 {
      SameAsUnitTransposition(s, t, i, j - 1);
      SameAsUnitTransposition(s, t, i - 1, j);
      SameAsUnitTransposition(s, t, i - 1, j - 1);
      if Swappable(s, t, i, j) {
        SameAsUnitTransposition(s, t, i - 2, j - 2);
      }
      UnitTranspositionStep(s, t, i, j);
    }
  }

  /** A transposition bounds a cell from above. */
  lemma TranspositionStep(s: string, t: string, i: nat, j: nat)
    requires 1 <= i <= |s| && 1 <= j <= |t| && Swappable(s, t, i, j)
    ensures Cell(s, t, i, j) <= Cell(s, t, i - 2, j - 2) + Cost(s, t, i, j)
  {
    CellFrom(s, t, i, j, Cell(s, t, i, j - 1), Cell(s, t, i - 1, j), Cell(s, t, i - 1, j - 1), Cell(s, t, i - 2, j - 2));
  }

  /** A cell that cannot be reached by a transposition is at least `g` when its three neighbours' ways in are. */
  lemma LowerStep(s: string, t: string, i: nat, j: nat, g: int)
    requires 1 <= i <= |s| && 1 <= j <= |t| && !Swappable(s, t, i, j)
    requires Cell(s, t, i, j - 1) + 1 >= g && Cell(s, t, i - 1, j) + 1 >= g
    requires Cell(s, t, i - 1, j - 1) + Cost(s, t, i, j) >= g
    ensures Cell(s, t, i, j) >= g
  {
    var left, up, diag := Cell(s, t, i, j - 1), Cell(s, t, i - 1, j), Cell(s, t, i - 1, j - 1);
    CellFrom(s, t, i, j, left, up, diag, 0);
    CombineAtLeast(left, up, diag, Cost(s, t, i, j), false, Cost(s, t, i, j), g);
  }

  /** Swapping the first two letters of a four-letter text costs 1 (the source logs `"Abxy"` against `"bAxy"`). */
  lemma TranspositionExample(s: string, t: string)
    requires |s| == 4 && s[0] == 'A' && s[1] == 'b' && s[2] == 'x' && s[3] == 'y'
    requires |t| == 4 && t[0] == 'b' && t[1] == 'A' && t[2] == 'x' && t[3] == 'y'
    ensures Distance(s, t) == 1
  {
    assert Swappable(s, t, 2, 2) && Cost(s, t, 2, 2) == 1;
    TranspositionStep(s, t, 2, 2);
    assert Cost(s, t, 3, 3) == 0 && Cost(s, t, 4, 4) == 0;
    DiagonalStep(s, t, 3, 3);
    DiagonalStep(s, t, 4, 4);
    assert s != t by { assert s[0] != t[0]; }
  }

  /** The two four-letter texts whose first two letters differ in case. */
  predicate CaseSwapped(s: string, t: string) {
    && |s| == 4 && s[0] == 'A' && s[1] == 'b' && s[2] == 'x' && s[3] == 'y'
    && |t| == 4 && t[0] == 'a' && t[1] == 'B' && t[2] == 'x' && t[3] == 'y'
  }

  /** The first two letters of case-swapped texts are at distance 2. */
  lemma CaseSwappedPrefix(s: string, t: string)
    requires CaseSwapped(s, t)
    ensures Cell(s, t, 2, 2) == 2
  {
    DiagonalStep(s, t, 1, 1);
    DiagonalStep(s, t, 2, 2);
    CellAtLeastGap(s, t, 1, 2);
    CellAtLeastGap(s, t, 2, 1);
    LowerStep(s, t, 1, 1, 1);
    LowerStep(s, t, 2, 2, 2);
  }

  /** Changing the case of the first two letters costs 2 (the source logs `"Abxy"` against `"aBxy"`). */
  lemma SubstitutionExample(s: string, t: string)
    requires CaseSwapped(s, t)
    ensures Distance(s, t) == 2
  {
    CaseSwappedPrefix(s, t);
    DiagonalStep(s, t, 3, 3);
    DiagonalStep(s, t, 4, 4);
    CellAtLeastGap(s, t, 2, 3);
    CellAtLeastGap(s, t, 3, 2);
    CellAtLeastGap(s, t, 3, 4);
    CellAtLeastGap(s, t, 4, 3);
    LowerStep(s, t, 3, 3, 2);
    LowerStep(s, t, 4, 4, 2);
  }
}

=== FILE: reconcile.dfy ===
/**
 * The de-duplication pass of `cleanUpTranscript`: the chunks, already sorted
 * by start time, are visited in order, and each visit may mark the current
 * chunk or the previously kept chunk as not to be kept.
 *
 * The marks (`toKeep === false`) are a `seq<bool>` indexed by sorted
 * position; a chunk's `toKeep` is never set to `true`, so "undefined" and
 * "kept" are the same state. `prev` is the sorted position of
 * `previousChunk`, which starts as the first chunk.
 */
module Reconcile {
  import opened Text
  import opened Chunks

  /**
   * `AsWritten` compares a chunk with `previousChunk` whenever its input
   * index is positive, which on the first visit compares the first sorted
   * chunk with itself. `FirstSkipped` also skips the first visit.
   */
  datatype Variant = AsWritten | FirstSkipped

  /** Which branch of the loop body a visit takes. */
  datatype Rule =
    | Included         // another chunk still kept includes it: drop the chunk
    | ExtendsPrevious  // its text starts with the previous text: drop the previous chunk
    | EndOfPrevious    // the previous text ends with its text: drop the chunk
    | SameAsPrevious   // same text as the previous one: drop the chunk
    | Kept             // nothing applies

  datatype State = State(dropped: seq<bool>, prev: nat)

  /** Some chunk not marked as dropped includes the chunk at position `p`. */
  predicate IncludedByLive(s: seq<Chunk>, dropped: seq<bool>, p: nat)
    requires |dropped| == |s| && p < |s|
  {
    exists k :: 0 <= k < |s| && !dropped[k] && Includes(s[k], s[p], ContainmentToleranceMs)
  }

  /** Whether the visit of position `p` compares the chunk with `previousChunk` at all. */
  predicate Compares(v: Variant, s: seq<Chunk>, p: nat)
    requires p < |s|
  {
    s[p].index > 0 && (v == AsWritten || p > 0)
  }

  /**
   * The branch taken when visiting position `p`. The fourth branch can never
   * be taken: equal normalised texts already satisfy the `startsWith` test of
   * the second branch.
   */
  function Classify(v: Variant, s: seq<Chunk>, dropped: seq<bool>, prev: nat, p: nat): (r: Rule)
    requires |dropped| == |s| && p < |s| && prev < |s|
    ensures r != SameAsPrevious
    ensures r == Included <==> IncludedByLive(s, dropped, p)
    ensures r == ExtendsPrevious <==>
      !IncludedByLive(s, dropped, p) && Compares(v, s, p) && !dropped[prev]
      && StartsWith(Norm(s[p].text), Norm(s[prev].text))
    ensures r == EndOfPrevious <==>
      !IncludedByLive(s, dropped, p) && Compares(v, s, p) && !dropped[prev]
      && !StartsWith(Norm(s[p].text), Norm(s[prev].text)) && EndsWith(Norm(s[prev].text), Norm(s[p].text))
    ensures r == Kept ==> !Compares(v, s, p) || dropped[prev]
                          || (!StartsWith(Norm(s[p].text), Norm(s[prev].text))
                              && !EndsWith(Norm(s[prev].text), Norm(s[p].text)))
  {
    var current := Norm(s[p].text);
    var previous := Norm(s[prev].text);
    var compares := Compares(v, s, p) && !dropped[prev];
    if IncludedByLive(s, dropped, p) then Included
    else if compares && StartsWith(current, previous) then ExtendsPrevious
    else if compares && EndsWith(previous, current) then EndOfPrevious
    else if compares && previous == current then SameAsPrevious
    else Kept
  }

  /** The marks and `previousChunk` after a visit of `p` that took branch `rule`. */
  function Apply(rule: Rule, st: State, p: nat): (r: State)
    requires p < |st.dropped| && st.prev < |st.dropped|
    ensures |r.dropped| == |st.dropped|
    ensures forall k :: 0 <= k < |st.dropped| && k != p && k != st.prev ==> r.dropped[k] == st.dropped[k]
    ensures forall k :: 0 <= k < |st.dropped| && st.dropped[k] ==> r.dropped[k]
    ensures r.prev == p || r.prev == st.prev
    ensures !r.dropped[p] ==> r.prev == p
    ensures r.dropped[p] ==> r.prev == st.prev
  {
    var dropped :=
      if rule == Kept then st.dropped
      else if rule == ExtendsPrevious then st.dropped[st.prev := true]
      else st.dropped[p := true];
    State(dropped, if dropped[p] then st.prev else p)
  }

  /**
   * Of two chunks with the same normalised text, the later one, when it is
   * compared and not included, drops the previous one and takes its place.
   */
  lemma EqualTextReplacesPrevious(v: Variant, s: seq<Chunk>, st: State, p: nat)
    requires |st.dropped| == |s| && p < |s| && st.prev < |s| && st.prev != p
    requires Compares(v, s, p) && !st.dropped[st.prev] && !IncludedByLive(s, st.dropped, p)
    requires Norm(s[p].text) == Norm(s[st.prev].text)
    ensures Apply(Classify(v, s, st.dropped, st.prev, p), st, p).dropped[st.prev]
    ensures Apply(Classify(v, s, st.dropped, st.prev, p), st, p).dropped[p] == st.dropped[p]
    ensures Apply(Classify(v, s, st.dropped, st.prev, p), st, p).prev == p || st.dropped[p]
  {
    assert StartsWith(Norm(s[p].text), Norm(s[st.prev].text));
  }

  /** The branch a visit takes, given the marks, the previous position and the current one. */
  type Decision = (seq<bool>, nat, nat) -> Rule

  /** The loop body's tests on the sorted chunks `s`. */
  function Decide(v: Variant, s: seq<Chunk>): Decision {
    (dropped: seq<bool>, prev: nat, p: nat) =>
      if |dropped| == |s| && p < |s| && prev < |s| then Classify(v, s, dropped, prev, p) else Kept
  }

  /**
   * The state after visiting the first `n` of `count` positions, each visit
   * taking the branch `decide` picks: `previousChunk` is always the latest
   * visited position still kept, unless every visited position is dropped.
   */
  function Run(decide: Decision, count: nat, n: nat): (r: State)
    requires n <= count
    ensures |r.dropped| == count
    ensures r.prev < n || r.prev == 0
    ensures forall k :: n <= k < count ==> !r.dropped[k]
    ensures forall k :: r.prev < k < n ==> r.dropped[k]
    ensures n > 0 ==> !r.dropped[r.prev] || forall k :: 0 <= k < n ==> r.dropped[k]
    decreases n
  {
    if n == 0 then State(seq(count, _ => false), 0)
    else
      var st := Run(decide, count, n - 1);
      Apply(decide(st.dropped, st.prev, n - 1), st, n - 1)
  }

  /** The marks after the loop has visited the first `n` sorted chunks. */
  function Pass(v: Variant, s: seq<Chunk>, n: nat): State
    requires n <= |s|
  {
    Run(Decide(v, s), |s|, n)
  }

  /** The marks once every chunk has been visited. */
  function Final(v: Variant, s: seq<Chunk>): State {
    Pass(v, s, |s|)
  }

  /** The chunk at sorted position `p` survives the pass. */
  predicate KeptAt(v: Variant, s: seq<Chunk>, p: nat)
    requires p < |s|
  {
    !Final(v, s).dropped[p]
  }

  /** Visiting `p` takes the branch `Classify` picks. */
  lemma Visit(v: Variant, s: seq<Chunk>, p: nat)
    requires p < |s|
    ensures var st := Pass(v, s, p);
      Pass(v, s, p + 1) == Apply(Classify(v, s, st.dropped, st.prev, p), st, p)
  {
  }

  /** A position once marked stays marked. */
  lemma {:induction false} DropsPersist(decide: Decision, count: nat, n: nat, m: nat)
    requires n <= m <= count
    ensures forall k :: 0 <= k < count && Run(decide, count, n).dropped[k] ==> Run(decide, count, m).dropped[k]
    decreases m - n
  {
    if n < m {
      DropsPersist(decide, count, n, m - 1);
    }
  }

  /**
   * A visited position other than `previousChunk` is settled: no later visit
   * changes its mark, and it never becomes `previousChunk` again.
   */
  lemma {:induction false} Settled(decide: Decision, count: nat, n: nat, m: nat, k: nat)
    requires n <= m <= count && k < n && k != Run(decide, count, n).prev
    ensures k != Run(decide, count, m).prev
    ensures Run(decide, count, m).dropped[k] == Run(decide, count, n).dropped[k]
    decreases m - n
  {
    if n < m {
      Settled(decide, count, n, m - 1, k);
    }
  }

  /** A mark on `k` at the end was already there after `n` visits, and a chunk kept at the end was kept all along. */
  lemma KeptAlong(v: Variant, s: seq<Chunk>, n: nat, k: nat)
    requires n <= |s| && k < |s|
    ensures KeptAt(v, s, k) ==> !Pass(v, s, n).dropped[k]
  {
    DropsPersist(Decide(v, s), |s|, n, |s|);
  }

  /** A chunk still kept right after its own visit was not included by any chunk kept at that time. */
  lemma NotIncludedAtVisit(v: Variant, s: seq<Chunk>, p: nat)
    requires p < |s| && !Pass(v, s, p + 1).dropped[p]
    ensures !IncludedByLive(s, Pass(v, s, p).dropped, p)
  {
    var st := Pass(v, s, p);
    Visit(v, s, p);
    assert Classify(v, s, st.dropped, st.prev, p) != Included;
  }

  /** No surviving chunk includes another surviving chunk. */
  lemma KeptChunksDoNotInclude(v: Variant, s: seq<Chunk>, p: nat, k: nat)
    requires p < |s| && k < |s| && KeptAt(v, s, p) && KeptAt(v, s, k)
    ensures !Includes(s[k], s[p], ContainmentToleranceMs)
  {
    KeptAlong(v, s, p + 1, p);
    KeptAlong(v, s, p, k);
    NotIncludedAtVisit(v, s, p);
  }

  /**
   * When the chunk at `p` and the `previousChunk` it was compared with both
   * survive, the later normalised text does not start with the earlier one and
   * the earlier one does not end with the later one; everything between them
   * was dropped.
   */
  lemma KeptNeighbours(v: Variant, s: seq<Chunk>, p: nat)
    requires 0 < p < |s| && Compares(v, s, p)
    requires KeptAt(v, s, Pass(v, s, p).prev) && KeptAt(v, s, p)
    ensures var k := Pass(v, s, p).prev;
      && k < p
      && !StartsWith(Norm(s[p].text), Norm(s[k].text))
      && !EndsWith(Norm(s[k].text), Norm(s[p].text))
    ensures forall j :: Pass(v, s, p).prev < j < p ==> !KeptAt(v, s, j)
  {
    var st := Pass(v, s, p);
    var k := st.prev;
    KeptAlong(v, s, p + 1, p);
    KeptAlong(v, s, p + 1, k);
    KeptAlong(v, s, p, k);
    DropsPersist(Decide(v, s), |s|, p, |s|);
    Visit(v, s, p);
    assert Classify(v, s, st.dropped, k, p) == Kept;
  }

  /**
   * A `previousChunk` that was kept when the chunk at `p` was visited but is
   * dropped at the end, while that chunk survives, was replaced by it: the
   * chunk's text extends the previous one.
   */
  lemma Replaced(v: Variant, s: seq<Chunk>, p: nat)
    requires p < |s| && Pass(v, s, p).prev < p
    requires !Pass(v, s, p).dropped[Pass(v, s, p).prev]
    requires !KeptAt(v, s, Pass(v, s, p).prev) && KeptAt(v, s, p)
    ensures StartsWith(Norm(s[p].text), Norm(s[Pass(v, s, p).prev].text))
  {
    var st := Pass(v, s, p);
    KeptAlong(v, s, p + 1, p);
    Visit(v, s, p);
    Settled(Decide(v, s), |s|, p + 1, |s|, st.prev);
    assert Classify(v, s, st.dropped, st.prev, p) == ExtendsPrevious;
  }

  /**
   * Two consecutive surviving chunks: either the later one neither extends
   * the earlier one nor is its ending, or it replaced a chunk in between
   * whose text it extends.
   */
  lemma ConsecutiveKept(v: Variant, s: seq<Chunk>, q1: nat, q2: nat)
    requires q1 < q2 < |s| && Compares(v, s, q2)
    requires KeptAt(v, s, q1) && KeptAt(v, s, q2)
    requires forall j :: q1 < j < q2 ==> !KeptAt(v, s, j)
    ensures || (!StartsWith(Norm(s[q2].text), Norm(s[q1].text)) && !EndsWith(Norm(s[q1].text), Norm(s[q2].text)))
            || exists j :: q1 < j < q2 && StartsWith(Norm(s[q2].text), Norm(s[j].text))
  {
    var k := Pass(v, s, q2).prev;
    KeptAlong(v, s, q2, q1);
    if k == q1 {
      KeptNeighbours(v, s, q2);
    } else {
      assert !KeptAt(v, s, k);
      Replaced(v, s, q2);
    }
  }

  /**
   * As written, the first sorted chunk is compared with itself when it was
   * not the first chunk read: unless another chunk includes it, it is dropped.
   */
  lemma FirstChunkDropsItself(s: seq<Chunk>)
    requires |s| > 0 && s[0].index > 0
    requires forall k :: 0 <= k < |s| ==> !Includes(s[k], s[0], ContainmentToleranceMs)
    ensures !KeptAt(AsWritten, s, 0)
  {
    KeptAlong(AsWritten, s, 1, 0);
    Visit(AsWritten, s, 0);
    var st := Pass(AsWritten, s, 0);
    assert StartsWith(Norm(s[0].text), Norm(s[0].text));
    assert Classify(AsWritten, s, st.dropped, 0, 0) == ExtendsPrevious;
  }

  /** With the first visit skipped, the first sorted chunk is dropped there exactly when another chunk includes it. */
  lemma FirstChunkKeptUnlessIncluded(s: seq<Chunk>)
    requires |s| > 0
    ensures Pass(FirstSkipped, s, 1).dropped[0]
        <==> exists k :: 0 <= k < |s| && Includes(s[k], s[0], ContainmentToleranceMs)
  {
    Visit(FirstSkipped, s, 0);
    var st := Pass(FirstSkipped, s, 0);
    assert forall k :: 0 <= k < |s| ==> !st.dropped[k];
  }
}

=== FILE: reduction.dfy ===
/**
 * The whole of `chain_of_density`: every chunk of the transcript is sent
 * through the density prompt, the last dense summary is extracted from each
 * answer, the summaries are grouped under the token budget, every group that
 * holds a summary is combined by the reduce prompt, and several combined
 * summaries are combined once more.
 *
 * The text splitter, the tokenizer and the language model are parameters:
 * `docs` are the chunks' texts, `tokens` counts a text's tokens, `densify`
 * answers the density prompt for a chunk and `generate` answers a prompt.
 */
module Reduction {
  import opened Wrappers
  import opened Text
  import opened Grouping
  import Density

  /** The reduce prompt, `Combine the following summaries:\n{summaries}`. */
  function CombinePrompt(summaries: string): string {
    "Combine the following summaries:\n" + summaries
  }

  /** What the reduce chain answers for a group: its summaries joined by blank lines, in the reduce prompt. */
  function ReduceOne(generate: string -> string, g: seq<string>): string {
    generate(CombinePrompt(Join(g, "\n\n")))
  }

  /** The reduce chain applied to each group in turn. */
  function ReduceEach(generate: string -> string, gs: seq<seq<string>>): (r: seq<string>)
    ensures |r| == |gs|
    ensures forall k :: 0 <= k < |gs| ==> r[k] == ReduceOne(generate, gs[k])
    decreases |gs|
  {
    if gs == [] then []
    else
      var rest := ReduceEach(generate, gs[1..]);
      var r := [ReduceOne(generate, gs[0])] + rest;
      assert forall k :: 0 < k < |r| ==> r[k] == rest[k - 1];
      r
  }

  /** The loop over `grouped_results`: a group is reduced only when it holds a summary. */
  function ReduceGroups(generate: string -> string, groups: seq<seq<string>>): (r: seq<string>)
    ensures |r| <= |groups|
    decreases |groups|
  {
    if groups == [] then []
    else if groups[0] == [] then ReduceGroups(generate, groups[1..])
    else [ReduceOne(generate, groups[0])] + ReduceGroups(generate, groups[1..])
  }

  /** The last step: a single combined summary is returned as it is, several are combined once more and trimmed. */
  function FinalSummary(generate: string -> string, reduced: seq<string>): (r: string)
    ensures |reduced| == 1 ==> r == reduced[0]
    ensures |reduced| != 1 ==> Trim(r) == r
  {
    if |reduced| == 1 then reduced[0]
    else
      var answer := Trim(ReduceOne(generate, reduced));
      TrimOfTrimmed(answer);
      answer
  }

  /** The dense summary of each chunk, in order. */
  function Summaries(densify: string -> string, docs: seq<string>): (r: seq<string>)
    ensures |r| == |docs|
    ensures forall k :: 0 <= k < |docs| ==> r[k] == Density.ExtractSummary(densify(docs[k]))
    decreases |docs|
  {
    if docs == [] then []
    else
      var rest := Summaries(densify, docs[1..]);
      var r := [Density.ExtractSummary(densify(docs[0]))] + rest;
      assert forall k :: 0 < k < |r| ==> r[k] == rest[k - 1];
      r
  }

  /**
   * `chain_of_density`. Formatting the density prompt with the first chunk
   * throws when the splitter produced no chunk at all.
   */
  function ChainOfDensity(docs: seq<string>, tokens: string -> nat, densify: string -> string,
                          generate: string -> string): (r: Result<string, string>)
    ensures r.Failure? <==> docs == []
  {
    if docs == [] then Failure("docs[0] is undefined")
    else
      var groups := GroupAll(tokens, Summaries(densify, docs)).groups;
      Success(FinalSummary(generate, ReduceGroups(generate, groups)))
  }

  /** The reduce loop reduces exactly the groups that hold a summary, in order. */
  lemma {:induction false} ReduceSkipsEmpty(generate: string -> string, groups: seq<seq<string>>)
    ensures ReduceGroups(generate, groups) == ReduceEach(generate, NonEmpty(groups))
    decreases |groups|
  {
    if groups != [] {
      ReduceSkipsEmpty(generate, groups[1..]);
    }
  }

  /** Greedy packing of a non-empty list of summaries yields at least one group. */
  lemma PackNotEmpty(tokens: string -> nat, items: seq<string>)
    requires items != []
    ensures |Pack(tokens, [], items)| >= 1
  {
    PackConcat(tokens, [], items);
    assert [] + items == items;
  }

  /**
   * With at least one chunk, the answer is the final step applied to the
   * combined summaries of the greedy packing, of which there is at least one.
   */
  lemma ChainReducesPackedGroups(docs: seq<string>, tokens: string -> nat, densify: string -> string,
                                 generate: string -> string)
    requires docs != []
    ensures |Pack(tokens, [], Summaries(densify, docs))| >= 1
    ensures ChainOfDensity(docs, tokens, densify, generate)
      == Success(FinalSummary(generate, ReduceEach(generate, Pack(tokens, [], Summaries(densify, docs)))))
  {
    var items := Summaries(densify, docs);
    ReduceSkipsEmpty(generate, GroupAll(tokens, items).groups);
    PackNotEmpty(tokens, items);
  }

  /** Summaries within one budget are combined once, and that answer is returned untrimmed. */
  lemma ChainWithinBudget(docs: seq<string>, tokens: string -> nat, densify: string -> string,
                          generate: string -> string)
    requires docs != [] && TokenSum(tokens, Summaries(densify, docs)) <= Budget
    ensures ChainOfDensity(docs, tokens, densify, generate)
      == Success(generate(CombinePrompt(Join(Summaries(densify, docs), "\n\n"))))
  {
    var items := Summaries(densify, docs);
    ChainReducesPackedGroups(docs, tokens, densify, generate);
    assert [] + items == items;
    PackWithinBudget(tokens, [], items);
    assert ReduceEach(generate, [items]) == [ReduceOne(generate, items)];
  }

  /** Several groups are combined once each, then once more, and that last answer is trimmed. */
  lemma ChainSeveralGroups(docs: seq<string>, tokens: string -> nat, densify: string -> string,
                           generate: string -> string)
    requires docs != [] && |Pack(tokens, [], Summaries(densify, docs))| >= 2
    ensures ChainOfDensity(docs, tokens, densify, generate).Success?
    ensures ChainOfDensity(docs, tokens, densify, generate).value
      == Trim(generate(CombinePrompt(Join(ReduceEach(generate, Pack(tokens, [], Summaries(densify, docs))), "\n\n"))))
  {
    ChainReducesPackedGroups(docs, tokens, densify, generate);
  }
}

=== FILE: strip.dfy ===
/**
 * The last step of `cleanUpTranscript`: `fullText.replace(/\[.*\]\s/g, '')`.
 *
 * At a position holding '[' the pattern's `.*` runs over characters other
 * than line terminators and then gives back characters until a ']' followed
 * by one whitespace character (a line terminator included) fits: the match
 * ends after the LAST such ']' before the first line terminator. A global
 * replace scans left to right and resumes after each match.
 */
module Strip {
  import opened Wrappers
  import opened Text
  import opened TranscriptLine

  /** A ']' at `q` followed by a whitespace character. */
  predicate CloseAt(s: string, q: nat) {
    q + 1 < |s| && s[q] == ']' && IsSpace(s[q + 1])
  }

  /** The last `q` in `[lo, hi)` where `CloseAt` holds. */
  function LastClose(s: string, lo: nat, hi: nat): (r: Option<nat>)
    ensures r.None? <==> forall q :: lo <= q < hi ==> !CloseAt(s, q)
    ensures r.Some? ==> lo <= r.value < hi && CloseAt(s, r.value)
    ensures r.Some? ==> forall q :: r.value < q < hi ==> !CloseAt(s, q)
    decreases hi - lo
  {
    if hi <= lo then None
    else if CloseAt(s, hi - 1) then Some(hi - 1)
    else LastClose(s, lo, hi - 1)
  }

  /** Where the match of `\[.*\]\s` that starts at `p` ends, if there is one. */
  function BracketEnd(s: string, p: nat): (r: Option<nat>)
    requires p < |s|
    ensures r.Some? ==> p + 3 <= r.value <= |s|
  {
    if s[p] != '[' then None
    else
      match LastClose(s, p + 1, TextEnd(s, p + 1))
      case None => None
      case Some(q) => Some(q + 2)
  }

  /** Where the scan resumes after position `i`: after the match there, or at the next character. */
  function Resume(s: string, i: nat): (n: nat)
    requires i < |s|
    ensures i < n <= |s|
  {
    match BracketEnd(s, i)
    case Some(e) => e
    case None => i + 1
  }

  /** What position `i` contributes to the output: nothing when a match starts there, else its character. */
  function Emit(s: string, i: nat): string
    requires i < |s|
  {
    if BracketEnd(s, i).Some? then "" else [s[i]]
  }

  /** The global replace from position `i` on. */
  function StripFrom(s: string, i: nat): (r: string)
    requires i <= |s|
    ensures |r| <= |s| - i
    decreases |s| - i
  {
    if i == |s| then "" else Emit(s, i) + StripFrom(s, Resume(s, i))
  }

  /** `s.replace(/\[.*\]\s/g, '')`: it only removes, and text without '[' comes through unchanged. */
  function StripBrackets(s: string): (r: string)
    ensures |r| <= |s|
    ensures Free(s, '[') ==> r == s
  {
    if Free(s, '[') then
      StripFromFree(s, 0);
      StripFrom(s, 0)
    else
      StripFrom(s, 0)
  }

  /**
   * The `\s` after ']' also takes a newline: a text ending in a bracket
   * loses its line end and runs into the next line.
   */
  lemma NewlineAfterCloseJoinsLines()
    ensures StripBrackets("a [x]\nb\n") == "a b\n"
  {
    var s := "a [x]\nb\n";
    assert TextEnd(s, 3) == 5;
    assert LastClose(s, 3, 5) == Some(4);
    assert BracketEnd(s, 2) == Some(6);
    assert BracketEnd(s, 0).None? && BracketEnd(s, 1).None?;
    assert BracketEnd(s, 6).None? && BracketEnd(s, 7).None?;
    assert StripFrom(s, 6) == "b\n";
    assert StripFrom(s, 2) == "b\n";
  }

  /** A ']' followed by anything but whitespace closes nothing: the bracket stays. */
  lemma CloseNeedsFollowingSpace()
    ensures StripBrackets("[t]x\n") == "[t]x\n"
  {
    var s := "[t]x\n";
    assert TextEnd(s, 1) == 4;
    assert !CloseAt(s, 1) && !CloseAt(s, 2) && !CloseAt(s, 3);
    assert LastClose(s, 1, 4).None?;
    assert BracketEnd(s, 0).None?;
    StripFromFree(s, 1);
  }

  /** Text without '[' passes through unchanged. */
  lemma {:induction false} StripFromFree(s: string, i: nat)
    requires i <= |s|
    requires forall k :: i <= k < |s| ==> s[k] != '['
    ensures StripFrom(s, i) == s[i..]
    decreases |s| - i
  {
    if i < |s| {
      StripFromFree(s, i + 1);
      assert Resume(s, i) == i + 1 && Emit(s, i) == [s[i]];
      assert s[i..] == [s[i]] + s[i + 1..];
    }
  }

  /** Whether a ']' closes a match depends only on the ']' and the character after it. */
  lemma {:induction false} LastCloseAgree(s: string, t: string, lo: nat, hi: nat, off: nat)
    requires forall q :: lo <= q < hi ==> CloseAt(s, q) == CloseAt(t, q + off)
    ensures LastClose(s, lo, hi).None? == LastClose(t, lo + off, hi + off).None?
    ensures LastClose(s, lo, hi).Some? ==>
      LastClose(t, lo + off, hi + off).value == LastClose(s, lo, hi).value + off
    decreases hi - lo
  {
    if lo < hi && !CloseAt(s, hi - 1) {
      LastCloseAgree(s, t, lo, hi - 1, off);
    }
  }

  /** Behind a prefix `a`, matches are found where they are in `b`. */
  lemma BracketEndSuffix(a: string, b: string, j: nat)
    requires j < |b|
    ensures BracketEnd(a + b, |a| + j).None? == BracketEnd(b, j).None?
    ensures BracketEnd(b, j).Some? ==> BracketEnd(a + b, |a| + j).value == |a| + BracketEnd(b, j).value
  {
    var s := a + b;
    assert s[|a| + j] == b[j];
    if b[j] == '[' {
      var e := TextEnd(b, j + 1);
      TextRun(b, j + 1);
      TextEndAt(s, |a| + j + 1, |a| + e);
      forall q | j + 1 <= q < e
        ensures CloseAt(b, q) == CloseAt(s, q + |a|)
      {
        assert s[q + |a|] == b[q];
        if q + 1 < |b| {
          assert s[q + 1 + |a|] == b[q + 1];
        }
      }
      LastCloseAgree(b, s, j + 1, e, |a|);
    }
  }

  /** Behind a prefix `a`, the scan takes the step it takes in `b`. */
  lemma SuffixStep(a: string, b: string, j: nat)
    requires j < |b|
    ensures Resume(a + b, |a| + j) == |a| + Resume(b, j)
    ensures Emit(a + b, |a| + j) == Emit(b, j)
  {
    BracketEndSuffix(a, b, j);
    assert (a + b)[|a| + j] == b[j];
  }

  /** One step of the scan. */
  lemma StripStep(s: string, i: nat)
    requires i < |s|
    ensures StripFrom(s, i) == Emit(s, i) + StripFrom(s, Resume(s, i))
  {
  }

  /** One step of the scan behind a prefix, stated with the suffix's step. */
  lemma StepBehind(a: string, b: string, j: nat)
    requires j < |b|
    ensures StripFrom(a + b, |a| + j) == Emit(b, j) + StripFrom(a + b, |a| + Resume(b, j))
  {
    var s, i, k := a + b, |a| + j, |a| + Resume(b, j);
    assert Resume(s, i) == k && Emit(s, i) == Emit(b, j) by {
      SuffixStep(a, b, j);
    }
    StripStepTo(s, i, k);
  }

  /** One step of the scan, with the resume point named. */
  lemma StripStepTo(s: string, i: nat, k: nat)
    requires i < |s| && Resume(s, i) == k
    ensures StripFrom(s, i) == Emit(s, i) + StripFrom(s, k)
  {
  }

  /** The inductive step of `StripFromSuffix`: agreement after the step gives agreement before it. */
  lemma SuffixAgrees(a: string, b: string, j: nat, n: nat)
    requires j < |b| && n == Resume(b, j)
    requires StripFrom(a + b, |a| + n) == StripFrom(b, n)
    ensures StripFrom(a + b, |a| + j) == StripFrom(b, j)
  {
    StepBehind(a, b, j);
    StripStep(b, j);
  }

  /** Removal after a prefix is removal in the suffix alone. */
  lemma {:induction false} StripFromSuffix(a: string, b: string, j: nat)
    requires j <= |b|
    ensures StripFrom(a + b, |a| + j) == StripFrom(b, j)
    decreases |b| - j
  {
    if j < |b| {
      var n := Resume(b, j);
      StripFromSuffix(a, b, n);
      SuffixAgrees(a, b, j, n);
    }
  }

  /** A text ending in a line terminator. */
  predicate EndsLine(a: string) {
    |a| > 0 && IsLineTerminator(a[|a| - 1])
  }

  /** A match starting before the end of a line never reaches past that line's terminator. */
  lemma BracketEndPrefix(a: string, b: string, i: nat)
    requires EndsLine(a) && i < |a|
    ensures BracketEnd(a + b, i).None? == BracketEnd(a, i).None?
    ensures BracketEnd(a, i).Some? ==> BracketEnd(a + b, i).value == BracketEnd(a, i).value
  {
    var s := a + b;
    assert s[i] == a[i];
    if a[i] == '[' {
      assert i + 1 < |a|;
      var e := TextEnd(a, i + 1);
      TextRun(a, i + 1);
      assert e < |a|;
      forall k | i + 1 <= k <= e
        ensures s[k] == a[k]
      {
      }
      TextEndAt(s, i + 1, e);
      forall q | i + 1 <= q < e
        ensures CloseAt(a, q) == CloseAt(s, q)
      {
        assert s[q + 1] == a[q + 1];
      }
      LastCloseAgree(a, s, i + 1, e, 0);
    }
  }

  /** Before the end of the first line, the scan takes the same step with or without what follows. */
  lemma PrefixStep(a: string, b: string, i: nat)
    requires EndsLine(a) && i < |a|
    ensures Resume(a + b, i) == Resume(a, i)
    ensures Emit(a + b, i) == Emit(a, i)
  {
    BracketEndPrefix(a, b, i);
    assert (a + b)[i] == a[i];
  }

  /** At the end of `a`, what is left to strip is `b`. */
  lemma StripFromEnd(a: string, b: string)
    ensures StripFrom(a + b, |a|) == StripFrom(a, |a|) + StripFrom(b, 0)
  {
    StripFromSuffix(a, b, 0);
    assert StripFrom(a, |a|) == [];
  }

  /** Re-association of a three-part text, stated over names so that nothing in them is unfolded. */
  lemma Regroup(whole: string, left: string, x: string, y: string, z: string)
    requires whole == x + (y + z) && left == x + y
    ensures whole == left + z
  {
  }

  /** A text ending in a line terminator is stripped on its own: no match reaches past its last character. */
  lemma {:induction false} StripFromPrefix(a: string, b: string, i: nat)
    requires EndsLine(a) && i <= |a|
    ensures StripFrom(a + b, i) == StripFrom(a, i) + StripFrom(b, 0)
    decreases |a| - i
  {
    if i == |a| {
      StripFromEnd(a, b);
    } else {
      var n := Resume(a, i);
      PrefixStep(a, b, i);
      StripStep(a + b, i);
      StripStep(a, i);
      StripFromPrefix(a, b, n);
      Regroup(StripFrom(a + b, i), StripFrom(a, i), Emit(a, i), StripFrom(a, n), StripFrom(b, 0));
    }
  }

  /** Stripping a text whose first part ends a line strips the two parts separately. */
  lemma StripConcat(a: string, b: string)
    requires EndsLine(a)
    ensures StripBrackets(a + b) == StripBrackets(a) + StripBrackets(b)
  {
    StripFromPrefix(a, b, 0);
  }
}

=== FILE: text.dfy ===
/**
 * Character classes and string operations of JavaScript that the transcript
 * code relies on: `\d`, `\w`, `\s`, `.`, `toLowerCase`, `split`, `join`,
 * `startsWith`, `endsWith` and `trim`.
 *
 * `\w` without the `u` flag is ASCII; `\s` (and `trim`) use the full set of
 * ECMAScript WhiteSpace and LineTerminator code points. `toLowerCase` is
 * modelled on ASCII letters only.
 */
module Text {

  /** `\d` */
  predicate IsDigit(c: char) {
    '0' <= c <= '9'
  }

  /** `\w` (no `u` flag): ASCII letters, digits and underscore. */
  predicate IsWordChar(c: char) {
    'a' <= c <= 'z' || 'A' <= c <= 'Z' || IsDigit(c) || c == '_'
  }

  /** The characters `.` refuses to match. */
  predicate IsLineTerminator(c: char) {
    c == '\n' || c == '\r' || c == '\U{2028}' || c == '\U{2029}'
  }

  /** `\s`, and what `String.prototype.trim` removes. */
  predicate IsSpace(c: char) {
    || c == '\t' || c == '\n' || c == '\U{000B}' || c == '\U{000C}' || c == '\r'
    || c == ' ' || c == '\U{00A0}' || c == '\U{1680}'
    || ('\U{2000}' <= c <= '\U{200A}')
    || c == '\U{2028}' || c == '\U{2029}' || c == '\U{202F}' || c == '\U{205F}'
    || c == '\U{3000}' || c == '\U{FEFF}'
  }

  predicate AllSpace(s: string) {
    forall i :: 0 <= i < |s| ==> IsSpace(s[i])
  }

  /** `toLowerCase` on one character, restricted to ASCII letters. */
  function LowerChar(c: char): char {
    if 'A' <= c <= 'Z' then (c as int + 32) as char else c
  }

  /** `toLowerCase` on a string, restricted to ASCII letters. */
  function Lower(s: string): string {
    seq(|s|, i requires 0 <= i < |s| => LowerChar(s[i]))
  }

  /** A character that can appear in a normalised text. */
  predicate IsNormalChar(c: char) {
    ('a' <= c <= 'z' || IsDigit(c) || c == '_') || IsSpace(c)
  }

  /**
   * `s.replace(/[^\w\s]/gi, '').toLowerCase()`: deletes every character that is
   * neither a word character nor whitespace, then lowercases.
   */
  function Norm(s: string): (r: string)
    ensures |r| <= |s|
    ensures forall i :: 0 <= i < |r| ==> IsNormalChar(r[i])
  {
    if |s| == 0 then ""
    else (if IsWordChar(s[0]) || IsSpace(s[0]) then [LowerChar(s[0])] else "") + Norm(s[1..])
  }

  /** Normalisation distributes over concatenation. */
  lemma {:induction false} NormConcat(a: string, b: string)
    ensures Norm(a + b) == Norm(a) + Norm(b)
    decreases |a|
  {
    if |a| == 0 {
      assert a + b == b;
    } else {
      assert (a + b)[1..] == a[1..] + b;
      NormConcat(a[1..], b);
    }
  }

  /**
   * One character: deleted unless it is a word character or whitespace, and
   * lowercased when kept. With `NormConcat` this determines `Norm` on every text.
   */
  lemma NormChar(c: char)
    ensures Norm([c]) == if IsWordChar(c) || IsSpace(c) then [LowerChar(c)] else ""
  {
    assert [c][1..] == "";
  }

  /** A text made only of normal characters is its own normal form. */
  lemma {:induction false} NormOfNormal(s: string)
    requires forall i :: 0 <= i < |s| ==> IsNormalChar(s[i])
    ensures Norm(s) == s
    decreases |s|
  {
    if |s| > 0 {
      NormOfNormal(s[1..]);
      assert s == [s[0]] + s[1..];
    }
  }

  /** Normalising twice is normalising once. */
  lemma NormIdempotent(s: string)
    ensures Norm(Norm(s)) == Norm(s)
  {
    NormOfNormal(Norm(s));
  }

  /** `s.startsWith(p)` */
  predicate StartsWith(s: string, p: string) {
    p <= s
  }

  /** `s.endsWith(p)` */
  predicate EndsWith(s: string, p: string) {
    |p| <= |s| && s[|s| - |p|..] == p
  }

  /** No character of `s` is `c`. */
  predicate Free(s: string, c: char) {
    forall k :: 0 <= k < |s| ==> s[k] != c
  }

  /** The first position at or after `i` holding `c`, or `|s|` when there is none. */
  function NextIndex(s: string, c: char, i: nat): (j: nat)
    requires i <= |s|
    ensures i <= j <= |s|
    ensures j == |s| || s[j] == c
    decreases |s| - i
  {
    if i == |s| || s[i] == c then i else NextIndex(s, c, i + 1)
  }

  /** No `c` lies between `i` and the position `NextIndex` returns. */
  lemma {:induction false} NextIndexFirst(s: string, c: char, i: nat)
    requires i <= |s|
    ensures forall k :: i <= k < NextIndex(s, c, i) ==> s[k] != c
    decreases |s| - i
  {
    if i < |s| && s[i] != c {
      NextIndexFirst(s, c, i + 1);
    }
  }

  /** `NextIndex` stops at the first `c` and nowhere else. */
  lemma {:induction false} NextIndexAt(s: string, c: char, i: nat, j: nat)
    requires i <= j <= |s|
    requires forall k :: i <= k < j ==> s[k] != c
    requires j == |s| || s[j] == c
    ensures NextIndex(s, c, i) == j
    decreases j - i
  {
    if i < j {
      NextIndexAt(s, c, i + 1, j);
    }
  }

  /** `s.split(sep)` for a one-character separator: the pieces between separators, in order. */
  function Split(s: string, sep: char): (parts: seq<string>)
    ensures |parts| >= 1
    decreases |s|
  {
    var i := NextIndex(s, sep, 0);
    if i == |s| then [s] else [s[..i]] + Split(s[i + 1..], sep)
  }

  /** `parts.join(sep)` */
  function Join(parts: seq<string>, sep: string): string
    decreases |parts|
  {
    if |parts| == 0 then ""
    else if |parts| == 1 then parts[0]
    else parts[0] + sep + Join(parts[1..], sep)
  }

  /** Splitting a text that does not contain the separator yields the text itself. */
  lemma SplitWithoutSeparator(s: string, sep: char)
    requires Free(s, sep)
    ensures Split(s, sep) == [s]
  {
    NextIndexAt(s, sep, 0, |s|);
  }

  /** Two separator-free pieces joined by the separator split back into those two pieces. */
  lemma SplitPair(a: string, b: string, sep: char)
    requires Free(a, sep) && Free(b, sep)
    ensures Split(a + [sep] + b, sep) == [a, b]
  {
    SplitCons(a, b, sep);
    SplitWithoutSeparator(b, sep);
  }

  /** The first separator cuts off the first part. */
  lemma SplitCons(a: string, b: string, sep: char)
    requires Free(a, sep)
    ensures Split(a + [sep] + b, sep) == [a] + Split(b, sep)
  {
    var s := a + [sep] + b;
    assert s[|a|] == sep;
    NextIndexAt(s, sep, 0, |a|);
    assert s[..|a|] == a;
    assert s[|a| + 1..] == b;
  }

  /** Joining the parts of a split gives back the original text. */
  lemma {:induction false} JoinSplit(s: string, sep: char)
    ensures Join(Split(s, sep), [sep]) == s
    decreases |s|
  {
    var i := NextIndex(s, sep, 0);
    if i < |s| {
      var rest := Split(s[i + 1..], sep);
      JoinSplit(s[i + 1..], sep);
      assert Split(s, sep) == [s[..i]] + rest;
      assert ([s[..i]] + rest)[1..] == rest;
      assert s == s[..i] + [sep] + s[i + 1..];
    }
  }

  /** Splitting a join of separator-free parts gives back the parts. */
  lemma {:induction false} SplitJoin(parts: seq<string>, sep: char)
    requires |parts| >= 1
    requires forall i :: 0 <= i < |parts| ==> Free(parts[i], sep)
    ensures Split(Join(parts, [sep]), sep) == parts
    decreases |parts|
  {
    if |parts| == 1 {
      SplitWithoutSeparator(parts[0], sep);
    } else {
      SplitJoin(parts[1..], sep);
      SplitCons(parts[0], Join(parts[1..], [sep]), sep);
      assert parts == [parts[0]] + parts[1..];
    }
  }

  /** `s.trimStart()`: drops the leading whitespace. */
  function TrimStart(s: string): (r: string)
    ensures |r| <= |s| && r == s[|s| - |r|..]
    ensures AllSpace(s[..|s| - |r|])
    ensures |r| == 0 || !IsSpace(r[0])
    decreases |s|
  {
    if |s| > 0 && IsSpace(s[0]) then
      var r := TrimStart(s[1..]);
      assert s[..|s| - |r|] == [s[0]] + s[1..][..|s| - 1 - |r|];
      r
    else s
  }

  /** `s.trimEnd()`: drops the trailing whitespace. */
  function TrimEnd(s: string): (r: string)
    ensures |r| <= |s| && r == s[..|r|]
    ensures AllSpace(s[|r|..])
    ensures |r| == 0 || !IsSpace(r[|r| - 1])
    decreases |s|
  {
    if |s| > 0 && IsSpace(s[|s| - 1]) then
      var r := TrimEnd(s[..|s| - 1]);
      assert s[|r|..] == s[..|s| - 1][|r|..] + [s[|s| - 1]];
      r
    else s
  }

  /** `s.trim()`: the longest infix of `s` that neither starts nor ends with whitespace. */
  function Trim(s: string): (r: string)
    ensures |r| <= |TrimStart(s)| <= |s|
    ensures |r| == 0 || (!IsSpace(r[0]) && !IsSpace(r[|r| - 1]))
    ensures r == TrimStart(s)[..|r|]
    ensures AllSpace(s[..|s| - |TrimStart(s)|]) && AllSpace(TrimStart(s)[|r|..])
  {
    TrimEnd(TrimStart(s))
  }

  /** A text without leading or trailing whitespace is its own trim. */
  lemma TrimOfTrimmed(s: string)
    requires |s| == 0 || (!IsSpace(s[0]) && !IsSpace(s[|s| - 1]))
    ensures Trim(s) == s
  {
  }
}

=== FILE: timestamps.dfy ===
/**
 * The `hh:mm:ss.mmm` timestamp codec of the plugin host: `timestampToMs`
 * and `msToTimestamp`.
 */
module Timestamps {
  import opened Wrappers
  import opened Text
  import opened Decimal

  /**
   * The milliseconds of a time given as hours, minutes, seconds and millis,
   * summed in the source's order (an hour is 3600000 ms, a minute 60000, a second 1000).
   */
  function FieldsMs(h: nat, m: nat, s: nat, f: nat): nat {
    f + s * 1000 + m * 60000 + h * 3600000
  }

  predicate NonEmptyDigits(s: string) {
    |s| > 0 && IsDigits(s)
  }

  /**
   * `timestampToMs`: splits at ':' into hours, minutes and seconds, splits the
   * seconds at '.', and adds the four numbers scaled to milliseconds. The
   * fraction digits are read as a plain integer, so "1.5" is 1005 ms.
   * Text outside the `\d+:\d+:\d+\.\d+` shape gives None.
   */
  function TimestampToMs(ts: string): Option<nat> {
    TimeOfParts(Split(ts, ':'))
  }

  /** The value of the pieces of a timestamp split at ':'. */
  function TimeOfParts(parts: seq<string>): Option<nat> {
    if |parts| != 3 then None else TimeOfFields(parts[0], parts[1], Split(parts[2], '.'))
  }

  /** The value of hours, minutes and the seconds split at '.'. */
  function TimeOfFields(h: string, m: string, secs: seq<string>): Option<nat> {
    if |secs| != 2 then None
    else if !(NonEmptyDigits(h) && NonEmptyDigits(m) && NonEmptyDigits(secs[0]) && NonEmptyDigits(secs[1])) then None
    else Some(FieldsMs(DigitsValue(h), DigitsValue(m), DigitsValue(secs[0]), DigitsValue(secs[1])))
  }

  /** The text `h:m:s.f` built from its four fields. */
  function Stamp(h: string, m: string, s: string, f: string): string {
    h + ":" + m + ":" + (s + "." + f)
  }

  lemma SplitStampAtColons(h: string, m: string, tail: string)
    requires Free(h, ':') && Free(m, ':') && Free(tail, ':')
    ensures Split(h + ":" + m + ":" + tail, ':') == [h, m, tail]
  {
    assert h + ":" + m + ":" + tail == h + [':'] + (m + [':'] + tail);
    SplitCons(h, m + [':'] + tail, ':');
    SplitCons(m, tail, ':');
    SplitWithoutSeparator(tail, ':');
  }

  /** A digit string holds no separator. */
  lemma DigitsFree(s: string)
    requires IsDigits(s)
    ensures Free(s, ':') && Free(s, '.')
  {
  }

  /** The seconds and fraction joined at '.' hold no ':'. */
  lemma TailFree(s: string, f: string)
    requires IsDigits(s) && IsDigits(f)
    ensures Free(s + "." + f, ':')
  {
    var t := s + "." + f;
    forall k | 0 <= k < |t|
      ensures t[k] != ':'
    {
      if k < |s| {
        assert t[k] == s[k];
      } else if k > |s| {
        assert t[k] == f[k - |s| - 1];
      }
    }
  }

  lemma TimeOfFieldsValue(h: string, m: string, s: string, f: string)
    requires NonEmptyDigits(h) && NonEmptyDigits(m) && NonEmptyDigits(s) && NonEmptyDigits(f)
    ensures TimeOfFields(h, m, [s, f])
            == Some(FieldsMs(DigitsValue(h), DigitsValue(m), DigitsValue(s), DigitsValue(f)))
  {
  }

  /** The pieces of a text whose splits give four numerals. */
  lemma PartsOfSplit(t: string, h: string, m: string, tail: string, s: string, f: string)
    requires Split(t, ':') == [h, m, tail] && Split(tail, '.') == [s, f]
    requires NonEmptyDigits(h) && NonEmptyDigits(m) && NonEmptyDigits(s) && NonEmptyDigits(f)
    ensures TimeOfParts(Split(t, ':'))
            == Some(FieldsMs(DigitsValue(h), DigitsValue(m), DigitsValue(s), DigitsValue(f)))
  {
    TimeOfFieldsValue(h, m, s, f);
    assert TimeOfParts([h, m, tail]) == TimeOfFields(h, m, Split(tail, '.'));
  }

  /** The pieces of a well-formed timestamp, field by field. */
  lemma PartsOfStamp(h: string, m: string, s: string, f: string)
    requires NonEmptyDigits(h) && NonEmptyDigits(m) && NonEmptyDigits(s) && NonEmptyDigits(f)
    ensures TimeOfParts(Split(Stamp(h, m, s, f), ':'))
            == Some(FieldsMs(DigitsValue(h), DigitsValue(m), DigitsValue(s), DigitsValue(f)))
  {
    var tail := s + "." + f;
    DigitsFree(h);
    DigitsFree(m);
    DigitsFree(s);
    DigitsFree(f);
    TailFree(s, f);
    SplitStampAtColons(h, m, tail);
    SplitPair(s, f, '.');
    PartsOfSplit(Stamp(h, m, s, f), h, m, tail, s, f);
  }

  /** Three pieces joined at ':' and a pair joined at '.'. */
  lemma JoinThree(h: string, m: string, tail: string, s: string, f: string)
    requires Join([s, f], ".") == tail
    ensures Join([h, m, tail], ":") == Stamp(h, m, s, f)
  {
    assert [h, m, tail][1..] == [m, tail];
    assert [m, tail][1..] == [tail];
    assert [s, f][1..] == [f];
    assert tail == s + "." + f;
    assert Join([m, tail], ":") == m + ":" + tail;
    assert Join([h, m, tail], ":") == h + ":" + (m + ":" + tail);
    assert h + ":" + (m + ":" + tail) == h + ":" + m + ":" + tail;
  }

  /**
   * `timestampToMs` gives a value only for a text `h:m:s.f` with four
   * non-empty digit fields, and the value is their sum in milliseconds.
   */
  lemma TimestampShape(ts: string)
    ensures TimestampToMs(ts).Some? ==> exists h, m, s, f ::
      && NonEmptyDigits(h) && NonEmptyDigits(m) && NonEmptyDigits(s) && NonEmptyDigits(f)
      && ts == Stamp(h, m, s, f)
      && TimestampToMs(ts).value == FieldsMs(DigitsValue(h), DigitsValue(m), DigitsValue(s), DigitsValue(f))
  {
    var parts := Split(ts, ':');
    if TimeOfParts(parts).Some? {
      var tail := parts[2];
      var secs := Split(tail, '.');
      JoinSplit(ts, ':');
      JoinSplit(tail, '.');
      assert parts == [parts[0], parts[1], tail];
      assert secs == [secs[0], secs[1]];
      JoinThree(parts[0], parts[1], tail, secs[0], secs[1]);
      assert ts == Stamp(parts[0], parts[1], secs[0], secs[1]);
    }
  }

  /** The value of a well-formed timestamp, field by field. */
  lemma TimestampOfFields(h: string, m: string, s: string, f: string)
    requires NonEmptyDigits(h) && NonEmptyDigits(m) && NonEmptyDigits(s) && NonEmptyDigits(f)
    ensures TimestampToMs(Stamp(h, m, s, f))
            == Some(FieldsMs(DigitsValue(h), DigitsValue(m), DigitsValue(s), DigitsValue(f)))
  {
    PartsOfStamp(h, m, s, f);
  }

  /** `TimestampOfFields` for a text already known to be the stamp of its fields. */
  lemma TimestampOfFieldsAt(t: string, h: string, m: string, s: string, f: string)
    requires NonEmptyDigits(h) && NonEmptyDigits(m) && NonEmptyDigits(s) && NonEmptyDigits(f)
    requires t == Stamp(h, m, s, f)
    ensures TimestampToMs(t)
            == Some(FieldsMs(DigitsValue(h), DigitsValue(m), DigitsValue(s), DigitsValue(f)))
  {
    TimestampOfFields(h, m, s, f);
  }

  /** A time of day split into fields, as `msToTimestamp` computes them. */
  datatype Clock = Clock(hours: nat, minutes: nat, seconds: nat, millis: nat)

  function TotalMs(c: Clock): nat {
    FieldsMs(c.hours, c.minutes, c.seconds, c.millis)
  }

  /**
   * The fields `msToTimestamp` derives from a non-negative duration: floor
   * divisions for hours, minutes and seconds and `ms % 1000` for the millis.
   */
  function ClockOf(ms: nat): (c: Clock)
    ensures c.hours == ms / 3600000
    ensures c.minutes < 60 && c.seconds < 60 && c.millis < 1000
    ensures TotalMs(c) == ms
  {
    var c := Clock(ms / 3600000, (ms % 3600000) / 60000,
                   ((ms % 3600000) % 60000) / 1000, ms % 1000);
    ClockArithmetic(ms);
    c
  }

  lemma ClockArithmetic(ms: nat)
    ensures var r1 := ms % 3600000; var r2 := r1 % 60000;
            ms == FieldsMs(ms / 3600000, r1 / 60000, r2 / 1000, ms % 1000)
  {
    var h := ms / 3600000;
    var r1 := ms % 3600000;
    var m := r1 / 60000;
    var r2 := r1 % 60000;
    var s := r2 / 1000;
    var f := r2 % 1000;
    assert ms == h * 3600000 + r1;
    assert r1 == m * 60000 + r2;
    assert r2 == s * 1000 + f;
    RemainderOf(ms, h * 3600 + m * 60 + s, f);
  }

  /** The remainder of a multiple of 1000 plus a smaller part is that part. */
  lemma RemainderOf(ms: nat, k: nat, f: nat)
    requires f < 1000 && ms == k * 1000 + f
    ensures ms % 1000 == f
  {
  }

  /** Two-digit zero padding for hours, minutes and seconds. */
  function Pad2(n: nat): string {
    PadStart(NatToString(n), 2, '0')
  }

  /** Three-digit zero padding for milliseconds. */
  function Pad3(n: nat): string {
    PadStart(NatToString(n), 3, '0')
  }

  function Format(c: Clock): string {
    Stamp(Pad2(c.hours), Pad2(c.minutes), Pad2(c.seconds), Pad3(c.millis))
  }

  /**
   * The shape `msToTimestamp` produces: at least two hour digits, then ':',
   * two digits, ':', two digits, '.', three digits.
   */
  predicate Shaped(r: string) {
    && |r| >= 12
    && r[|r| - 10] == ':' && r[|r| - 7] == ':' && r[|r| - 4] == '.'
    && forall i :: 0 <= i < |r| && i != |r| - 10 && i != |r| - 7 && i != |r| - 4 ==> IsDigit(r[i])
  }

  /** Where the separators of a stamp with 2-, 2- and 3-digit tail fields sit. */
  lemma StampShape(h: string, m: string, s: string, f: string)
    requires IsDigits(h) && IsDigits(m) && IsDigits(s) && IsDigits(f)
    requires |h| >= 2 && |m| == 2 && |s| == 2 && |f| == 3
    ensures Shaped(Stamp(h, m, s, f))
  {
    var r := Stamp(h, m, s, f);
    var n := |h|;
    assert r == h + [':'] + m + [':'] + (s + ['.'] + f);
    assert forall i :: 0 <= i < n ==> r[i] == h[i];
    assert r[n + 1] == m[0] && r[n + 2] == m[1];
    assert r[n + 4] == s[0] && r[n + 5] == s[1];
    assert r[n + 7] == f[0] && r[n + 8] == f[1] && r[n + 9] == f[2];
  }

  /** A clock with in-range minutes, seconds and millis formats to `HH:MM:SS.mmm`. */
  lemma FormatShape(c: Clock)
    requires c.minutes < 60 && c.seconds < 60 && c.millis < 1000
    ensures Shaped(Format(c))
  {
    PadShape(c.hours, 2);
    PadShape(c.minutes, 2);
    PadShape(c.seconds, 2);
    PadShape(c.millis, 3);
    StampShape(Pad2(c.hours), Pad2(c.minutes), Pad2(c.seconds), Pad3(c.millis));
  }

  /** A padded numeral is all digits, at least `width` long, and exactly that when it fits. */
  lemma PadShape(n: nat, width: nat)
    requires width == 2 || width == 3
    ensures var p := PadStart(NatToString(n), width, '0');
      && IsDigits(p) && |p| >= width
      && (n < 100 ==> |p| == width)
      && (width == 3 && n < 1000 ==> |p| == 3)
  {
    PadStartValue(NatToString(n), width);
  }

  /** Every formatted clock parses back to its total. */
  lemma FormatParses(c: Clock)
    ensures TimestampToMs(Format(c)) == Some(TotalMs(c))
  {
    PaddedValue(c.hours, 2);
    PaddedValue(c.minutes, 2);
    PaddedValue(c.seconds, 2);
    PaddedValue(c.millis, 3);
    StampOfClock(c, Pad2(c.hours), Pad2(c.minutes), Pad2(c.seconds), Pad3(c.millis));
  }

  lemma StampOfClock(c: Clock, h: string, m: string, s: string, f: string)
    requires NonEmptyDigits(h) && NonEmptyDigits(m) && NonEmptyDigits(s) && NonEmptyDigits(f)
    requires DigitsValue(h) == c.hours && DigitsValue(m) == c.minutes
    requires DigitsValue(s) == c.seconds && DigitsValue(f) == c.millis
    ensures TimestampToMs(Stamp(h, m, s, f)) == Some(TotalMs(c))
  {
    TimestampOfFields(h, m, s, f);
  }

  /** A zero-padded numeral is a non-empty digit string with the padded number's value. */
  lemma PaddedValue(n: nat, width: nat)
    ensures var p := PadStart(NatToString(n), width, '0');
      NonEmptyDigits(p) && DigitsValue(p) == n
  {
    PadStartValue(NatToString(n), width);
  }

  /**
   * `msToTimestamp` on a non-negative duration: `HH:MM:SS.mmm` with at least two
   * hour digits, exactly two minute and second digits and three millisecond digits.
   */
  function MsToTimestamp(ms: nat): (r: string)
    ensures Shaped(r)
  {
    FormatShape(ClockOf(ms));
    Format(ClockOf(ms))
  }

  /** `timestampToMs(msToTimestamp(ms)) == ms` for every non-negative duration. */
  lemma RoundTrip(ms: nat)
    ensures TimestampToMs(MsToTimestamp(ms)) == Some(ms)
  {
    FormatParses(ClockOf(ms));
  }

  /** The fraction is read as an integer: "00:00:01.5" is 1005 ms, not 1500. */
  lemma FractionIsAnInteger()
    ensures TimestampToMs("00:00:01.5") == Some(1005)
  {
    assert DigitsValueAt("00", 0, 1) == 0 && DigitsValueAt("01", 0, 1) == 0;
    assert DigitsValue("00") == 0 && DigitsValue("01") == 1 && DigitsValue("5") == 5;
    TimestampOfFields("00", "00", "01", "5");
    assert Stamp("00", "00", "01", "5") == "00:00:01.5";
  }
}

=== FILE: transcript_line.dfy ===
/**
 * The timestamped transcript line `[hh:mm:ss.mmm --> hh:mm:ss.mmm] text` and
 * the unanchored pattern `\[(\d+:\d+:\d+\.\d+)\s+-->\s+(\d+:\d+:\d+\.\d+)\]\s*(.*)`
 * that both the clean-up and the recorder's absolute-time rewrite search for.
 *
 * At a fixed start position the pattern has at most one way to match: every
 * `\d+`, `\s+` and `\s*` is followed by a character its class cannot contain,
 * and the final `(.*)` runs to the first line terminator. So the match at a
 * position is computed by scanning maximal runs, and a search is the first
 * position where that scan succeeds.
 */
module TranscriptLine {
  import opened Wrappers
  import opened Text
  import opened Decimal
  import opened Timestamps

  /** What the pattern captures, with both timestamps converted by `timestampToMs`. */
  datatype LineMatch = LineMatch(startMs: nat, endMs: nat, text: string)

  /** A scanned timestamp: where it ends and its value in milliseconds. */
  datatype Scanned = Scanned(end: nat, ms: nat)

  predicate NoLineTerminator(t: string) {
    forall k :: 0 <= k < |t| ==> !IsLineTerminator(t[k])
  }

  /** What `\s*(.*)` can capture: no line terminator, no leading whitespace. */
  predicate IsCapturedText(t: string) {
    NoLineTerminator(t) && (|t| == 0 || !IsSpace(t[0]))
  }

  /** End of the maximal run of digits starting at `i`. */
  function DigitRunEnd(s: string, i: nat): (j: nat)
    requires i <= |s|
    ensures i <= j <= |s|
    ensures j == |s| || !IsDigit(s[j])
    decreases |s| - i
  {
    if i < |s| && IsDigit(s[i]) then DigitRunEnd(s, i + 1) else i
  }

  /** End of the maximal run of whitespace starting at `i`. */
  function SpaceRunEnd(s: string, i: nat): (j: nat)
    requires i <= |s|
    ensures i <= j <= |s|
    ensures j == |s| || !IsSpace(s[j])
    decreases |s| - i
  {
    if i < |s| && IsSpace(s[i]) then SpaceRunEnd(s, i + 1) else i
  }

  /** End of what `.*` matches from `i`: the first line terminator, or the end. */
  function TextEnd(s: string, i: nat): (j: nat)
    requires i <= |s|
    ensures i <= j <= |s|
    ensures j == |s| || IsLineTerminator(s[j])
    decreases |s| - i
  {
    if i < |s| && !IsLineTerminator(s[i]) then TextEnd(s, i + 1) else i
  }

  /** Everything a run covers is in its class (kept out of the scanners' contracts to keep them cheap). */
  lemma DigitRun(s: string, i: nat)
    requires i <= |s|
    ensures forall k :: i <= k < DigitRunEnd(s, i) ==> IsDigit(s[k])
    decreases |s| - i
  {
    if i < |s| && IsDigit(s[i]) {
      DigitRun(s, i + 1);
    }
  }

  lemma SpaceRun(s: string, i: nat)
    requires i <= |s|
    ensures forall k :: i <= k < SpaceRunEnd(s, i) ==> IsSpace(s[k])
    decreases |s| - i
  {
    if i < |s| && IsSpace(s[i]) {
      SpaceRun(s, i + 1);
    }
  }

  lemma TextRun(s: string, i: nat)
    requires i <= |s|
    ensures forall k :: i <= k < TextEnd(s, i) ==> !IsLineTerminator(s[k])
    decreases |s| - i
  {
    if i < |s| && !IsLineTerminator(s[i]) {
      TextRun(s, i + 1);
    }
  }

  lemma DigitRunEndAt(s: string, i: nat, j: nat)
    requires i <= j <= |s|
    requires forall k :: i <= k < j ==> IsDigit(s[k])
    requires j == |s| || !IsDigit(s[j])
    ensures DigitRunEnd(s, i) == j
    decreases j - i
  {
    if i < j {
      DigitRunEndAt(s, i + 1, j);
    }
  }

  lemma SpaceRunEndAt(s: string, i: nat, j: nat)
    requires i <= j <= |s|
    requires forall k :: i <= k < j ==> IsSpace(s[k])
    requires j == |s| || !IsSpace(s[j])
    ensures SpaceRunEnd(s, i) == j
    decreases j - i
  {
    if i < j {
      SpaceRunEndAt(s, i + 1, j);
    }
  }

  lemma TextEndAt(s: string, i: nat, j: nat)
    requires i <= j <= |s|
    requires forall k :: i <= k < j ==> !IsLineTerminator(s[k])
    requires j == |s| || IsLineTerminator(s[j])
    ensures TextEnd(s, i) == j
    decreases j - i
  {
    if i < j {
      TextEndAt(s, i + 1, j);
    }
  }

  /** A slice is the concatenation of its two halves. */
  lemma SliceConcat(s: string, i: nat, x: nat, y: nat)
    requires i <= x <= y <= |s|
    ensures s[i..y] == s[i..x] + s[x..y]
  {
  }

  /** A one-character slice. */
  lemma SliceSingle(s: string, x: nat)
    requires x < |s|
    ensures s[x..x + 1] == [s[x]]
  {
  }

  /** Four fields cut out at ':', ':' and '.' make up the stamp between them. */
  lemma SliceStamp(s: string, i: nat, a: nat, b: nat, c: nat, d: nat)
    requires i < a < b < c < d <= |s|
    requires s[a] == ':' && s[b] == ':' && s[c] == '.'
    ensures s[i..d] == Stamp(s[i..a], s[a + 1..b], s[b + 1..c], s[c + 1..d])
  {
    SliceSingle(s, a);
    SliceSingle(s, b);
    SliceSingle(s, c);
    SliceConcat(s, i, a, a + 1);
    SliceConcat(s, i, a + 1, b);
    SliceConcat(s, i, b, b + 1);
    SliceConcat(s, b + 1, c, c + 1);
    SliceConcat(s, b + 1, c + 1, d);
    SliceConcat(s, i, b + 1, d);
  }

  /** Digit runs read in place are the non-empty numerals of their slices. */
  lemma FieldSlices(s: string, i: nat, a: nat, b: nat, c: nat, d: nat)
    requires i < a < b < c < d <= |s|
    requires forall k :: i <= k < a ==> IsDigit(s[k])
    requires forall k :: a < k < b ==> IsDigit(s[k])
    requires forall k :: b < k < c ==> IsDigit(s[k])
    requires forall k :: c < k < d ==> IsDigit(s[k])
    requires a + 1 < b && b + 1 < c && c + 1 < d
    ensures NonEmptyDigits(s[i..a]) && NonEmptyDigits(s[a + 1..b])
    ensures NonEmptyDigits(s[b + 1..c]) && NonEmptyDigits(s[c + 1..d])
    ensures FieldsValue(s, i, a, b, c, d)
            == FieldsMs(DigitsValue(s[i..a]), DigitsValue(s[a + 1..b]),
                        DigitsValue(s[b + 1..c]), DigitsValue(s[c + 1..d]))
  {
    DigitsValueAtSlice(s, i, a);
    DigitsValueAtSlice(s, a + 1, b);
    DigitsValueAtSlice(s, b + 1, c);
    DigitsValueAtSlice(s, c + 1, d);
  }

  /** Four digit runs separated by ':', ':' and '.' form a timestamp worth the fields' total. */
  lemma StampFromRuns(s: string, i: nat, a: nat, b: nat, c: nat, d: nat)
    requires i < a < b < c < d <= |s|
    requires s[a] == ':' && s[b] == ':' && s[c] == '.'
    requires forall k :: i <= k < a ==> IsDigit(s[k])
    requires forall k :: a < k < b ==> IsDigit(s[k])
    requires forall k :: b < k < c ==> IsDigit(s[k])
    requires forall k :: c < k < d ==> IsDigit(s[k])
    requires a + 1 < b && b + 1 < c && c + 1 < d
    ensures TimestampToMs(s[i..d]) == Some(FieldsValue(s, i, a, b, c, d))
  {
    SliceStamp(s, i, a, b, c, d);
    FieldSlices(s, i, a, b, c, d);
    TimestampOfFieldsAt(s[i..d], s[i..a], s[a + 1..b], s[b + 1..c], s[c + 1..d]);
  }

  /** The milliseconds of the four digit runs `s[i..a]`, `s[a+1..b]`, `s[b+1..c]`, `s[c+1..d]`. */
  function FieldsValue(s: string, i: nat, a: nat, b: nat, c: nat, d: nat): nat
    requires i <= a < b < c < d <= |s|
    requires forall k :: i <= k < a ==> IsDigit(s[k])
    requires forall k :: a < k < b ==> IsDigit(s[k])
    requires forall k :: b < k < c ==> IsDigit(s[k])
    requires forall k :: c < k < d ==> IsDigit(s[k])
  {
    FieldsMs(DigitsValueAt(s, i, a), DigitsValueAt(s, a + 1, b),
             DigitsValueAt(s, b + 1, c), DigitsValueAt(s, c + 1, d))
  }

  /**
   * `\d+:\d+:\d+\.\d+` at position `i`: where the maximal match ends and its
   * value (that it is what `timestampToMs` makes of the capture is `ScanConverts`).
   */
  function ScanTimestamp(s: string, i: nat): (r: Option<Scanned>)
    requires i <= |s|
    ensures r.Some? ==> i < r.value.end <= |s|
    ensures r.Some? ==> r.value.end == |s| || !IsDigit(s[r.value.end])
  {
    var a := DigitRunEnd(s, i);
    if a == i || a == |s| || s[a] != ':' then None
    else
      var b := DigitRunEnd(s, a + 1);
      if b == a + 1 || b == |s| || s[b] != ':' then None
      else
        var c := DigitRunEnd(s, b + 1);
        if c == b + 1 || c == |s| || s[c] != '.' then None
        else
          var d := DigitRunEnd(s, c + 1);
          if d == c + 1 then None
          else
            DigitRun(s, i); DigitRun(s, a + 1); DigitRun(s, b + 1); DigitRun(s, c + 1);
            Some(Scanned(d, FieldsValue(s, i, a, b, c, d)))
  }

  /** A scanned timestamp's value is `timestampToMs` of the captured text. */
  lemma ScanConverts(s: string, i: nat)
    requires i <= |s|
    ensures var r := ScanTimestamp(s, i);
      r.Some? ==> TimestampToMs(s[i..r.value.end]) == Some(r.value.ms)
  {
    if ScanTimestamp(s, i).Some? {
      var a := DigitRunEnd(s, i);
      var b := DigitRunEnd(s, a + 1);
      var c := DigitRunEnd(s, b + 1);
      var d := DigitRunEnd(s, c + 1);
      DigitRun(s, i); DigitRun(s, a + 1); DigitRun(s, b + 1); DigitRun(s, c + 1);
      StampFromRuns(s, i, a, b, c, d);
    }
  }

  /** `\s*(.*)` from position `i`: the capture of `(.*)`. */
  function CaptureText(line: string, i: nat): (t: string)
    requires i <= |line|
    ensures IsCapturedText(t)
  {
    var t0 := SpaceRunEnd(line, i);
    TextRun(line, t0);
    line[t0..TextEnd(line, t0)]
  }

  /**
   * The bracketed header `[start --> end]` starting at position `p`: both
   * times and the position of the closing ']'.
   */
  datatype Header = Header(startMs: nat, endMs: nat, close: nat)

  function HeaderAt(line: string, p: nat): (r: Option<Header>)
    requires p <= |line|
    ensures r.Some? ==> p < r.value.close < |line| && line[r.value.close] == ']'
  {
    if p == |line| || line[p] != '[' then None
    else
      match ScanTimestamp(line, p + 1)
      case None => None
      case Some(st) =>
        var a := SpaceRunEnd(line, st.end);
        if a == st.end || a + 3 > |line| || line[a] != '-' || line[a + 1] != '-' || line[a + 2] != '>' then None
        else
          var b := SpaceRunEnd(line, a + 3);
          if b == a + 3 then None
          else
            match ScanTimestamp(line, b)
            case None => None
            case Some(en) =>
              if en.end == |line| || line[en.end] != ']' then None
              else Some(Header(st.ms, en.ms, en.end))
  }

  /** The match of the line pattern starting exactly at position `p`, if any. */
  function MatchAt(line: string, p: nat): (r: Option<LineMatch>)
    requires p <= |line|
    ensures r.Some? ==> IsCapturedText(r.value.text)
    ensures r.Some? <==> HeaderAt(line, p).Some?
  {
    match HeaderAt(line, p)
    case None => None
    case Some(h) => Some(LineMatch(h.startMs, h.endMs, CaptureText(line, h.close + 1)))
  }

  /** The leftmost present entry at or after `from`. */
  function FirstSome<T>(ms: seq<Option<T>>, from: nat): (r: Option<nat>)
    requires from <= |ms|
    ensures r.None? <==> forall q :: from <= q < |ms| ==> ms[q].None?
    ensures r.Some? ==> from <= r.value < |ms| && ms[r.value].Some?
    ensures r.Some? ==> forall q :: from <= q < r.value ==> ms[q].None?
    decreases |ms| - from
  {
    if from == |ms| then None
    else if ms[from].Some? then Some(from)
    else FirstSome(ms, from + 1)
  }

  /** The match attempt at every position of the line, the end included. */
  function Attempts(line: string): (ms: seq<Option<LineMatch>>)
    ensures |ms| == |line| + 1
    ensures forall q :: 0 <= q <= |line| ==> ms[q] == MatchAt(line, q)
  {
    seq(|line| + 1, q requires 0 <= q <= |line| => MatchAt(line, q))
  }

  /**
   * `line.match(/\[(\d+:\d+:\d+\.\d+)\s+-->\s+(\d+:\d+:\d+\.\d+)\]\s*(.*)/)`: the
   * match at the leftmost position where there is one.
   */
  function SearchLine(line: string): (r: Option<LineMatch>)
    ensures r.None? <==> forall q :: 0 <= q <= |line| ==> MatchAt(line, q).None?
    ensures r.Some? ==> exists p :: (0 <= p <= |line| && r == MatchAt(line, p)
      && forall q :: 0 <= q < p ==> MatchAt(line, q).None?)
    ensures r.Some? ==> IsCapturedText(r.value.text)
  {
    var ms := Attempts(line);
    match FirstSome(ms, 0)
    case None => None
    case Some(p) => ms[p]
  }

  /** The line the recorder writes: `[${start} --> ${end}] ${text}`. */
  function RenderLine(startMs: nat, endMs: nat, text: string): string {
    Bracket(MsToTimestamp(startMs), MsToTimestamp(endMs), text)
  }

  function Bracket(a: string, b: string, text: string): string {
    "[" + a + " --> " + b + "] " + text
  }

  /** `a` sits in `line` from position `i` on. */
  predicate Embedded(line: string, i: nat, a: string) {
    i + |a| <= |line| && forall k :: 0 <= k < |a| ==> line[i + k] == a[k]
  }

  /** The value of a shaped timestamp, read field by field. */
  function ShapedValue(a: string): nat
    requires Shaped(a)
  {
    var n := |a|;
    FieldsValue(a, 0, n - 10, n - 7, n - 4, n)
  }

  /** The digit runs of an embedded shaped timestamp end at its separators. */
  lemma ShapedRuns(line: string, i: nat, a: string)
    requires Shaped(a) && Embedded(line, i, a)
    requires i + |a| == |line| || !IsDigit(line[i + |a|])
    ensures var n := |a|;
      && DigitRunEnd(line, i) == i + n - 10 && DigitRunEnd(line, i + n - 9) == i + n - 7
      && DigitRunEnd(line, i + n - 6) == i + n - 4 && DigitRunEnd(line, i + n - 3) == i + n
  {
    var n := |a|;
    assert forall k :: i <= k < i + n ==> line[k] == a[k - i] by {
      forall k | i <= k < i + n ensures line[k] == a[k - i] {
        assert line[i + (k - i)] == a[k - i];
      }
    }
    DigitRunEndAt(line, i, i + n - 10);
    DigitRunEndAt(line, i + n - 9, i + n - 7);
    DigitRunEndAt(line, i + n - 6, i + n - 4);
    DigitRunEndAt(line, i + n - 3, i + n);
  }

  /** The fields of an embedded shaped timestamp are worth what the timestamp is worth. */
  lemma EmbeddedValue(line: string, i: nat, a: string)
    requires Shaped(a) && Embedded(line, i, a)
    ensures var n := |a|;
      && (forall k :: i <= k < i + n - 10 ==> IsDigit(line[k]))
      && (forall k :: i + n - 10 < k < i + n - 7 ==> IsDigit(line[k]))
      && (forall k :: i + n - 7 < k < i + n - 4 ==> IsDigit(line[k]))
      && (forall k :: i + n - 4 < k < i + n ==> IsDigit(line[k]))
      && FieldsValue(line, i, i + n - 10, i + n - 7, i + n - 4, i + n) == ShapedValue(a)
  {
    var n := |a|;
    assert forall k :: 0 <= k < n ==> line[k + i] == a[k];
    DigitsValueAtShift(a, 0, n - 10, line, i);
    DigitsValueAtShift(a, n - 9, n - 7, line, i);
    DigitsValueAtShift(a, n - 6, n - 4, line, i);
    DigitsValueAtShift(a, n - 3, n, line, i);
  }

  /** An embedded shaped timestamp followed by a non-digit scans to its end and its value. */
  lemma ScanShaped(line: string, i: nat, a: string)
    requires Shaped(a) && Embedded(line, i, a)
    requires i + |a| == |line| || !IsDigit(line[i + |a|])
    ensures ScanTimestamp(line, i) == Some(Scanned(i + |a|, ShapedValue(a)))
  {
    ShapedRuns(line, i, a);
    EmbeddedValue(line, i, a);
  }

  /** `ShapedValue` agrees with `timestampToMs`, so it inverts `msToTimestamp`. */
  lemma ShapedValueOf(ms: nat)
    ensures ShapedValue(MsToTimestamp(ms)) == ms
  {
    RoundTrip(ms);
    ShapedValueIs(MsToTimestamp(ms), ms);
  }

  /** A shaped text that `timestampToMs` reads as `v` has `ShapedValue` `v`. */
  lemma ShapedValueIs(a: string, v: nat)
    requires Shaped(a) && TimestampToMs(a) == Some(v)
    ensures ShapedValue(a) == v
  {
    var n := |a|;
    StampFromRuns(a, 0, n - 10, n - 7, n - 4, n);
    assert a[0..n] == a;
  }

  /** A header at the start of a line, assembled from its parts. */
  lemma HeaderAtStart(line: string, st: Scanned, a: nat, b: nat, en: Scanned)
    requires 0 < |line| && line[0] == '['
    requires ScanTimestamp(line, 1) == Some(st)
    requires st.end <= |line| && SpaceRunEnd(line, st.end) == a && a > st.end
    requires a + 3 <= |line| && line[a] == '-' && line[a + 1] == '-' && line[a + 2] == '>'
    requires SpaceRunEnd(line, a + 3) == b && b > a + 3
    requires ScanTimestamp(line, b) == Some(en)
    requires en.end < |line| && line[en.end] == ']'
    ensures HeaderAt(line, 0) == Some(Header(st.ms, en.ms, en.end))
  {
  }

  /** After one whitespace character, captured text is captured whole. */
  lemma CaptureAfterSpace(line: string, i: nat, text: string)
    requires i < |line| && IsSpace(line[i])
    requires |line| == i + 1 + |text| && Embedded(line, i + 1, text)
    requires IsCapturedText(text)
    ensures CaptureText(line, i) == text
  {
    assert forall k :: i + 1 <= k < |line| ==> line[k] == text[k - i - 1] by {
      forall k | i + 1 <= k < |line| ensures line[k] == text[k - i - 1] {
        assert line[i + 1 + (k - i - 1)] == text[k - i - 1];
      }
    }
    SpaceRunEndAt(line, i, i + 1);
    TextEndAt(line, i + 1, |line|);
  }

  /** Where the pieces of `[a --> b] text` sit in `line`. */
  predicate Layout(line: string, a: string, b: string, text: string) {
    var na, nb := |a|, |b|;
    && |line| == 8 + na + nb + |text|
    && line[0] == '[' && Embedded(line, 1, a) && line[1 + na] == ' '
    && line[2 + na] == '-' && line[3 + na] == '-' && line[4 + na] == '>' && line[5 + na] == ' '
    && Embedded(line, 6 + na, b) && line[6 + na + nb] == ']' && line[7 + na + nb] == ' '
    && Embedded(line, 8 + na + nb, text)
  }

  lemma BracketLayout(a: string, b: string, text: string)
    ensures Layout(Bracket(a, b, text), a, b, text)
  {
    assert Bracket(a, b, text) == ['['] + a + [' ', '-', '-', '>', ' '] + b + [']', ' '] + text;
  }

  /** The first timestamp of a laid-out line scans to its value. */
  lemma LayoutFirstStamp(line: string, a: string, b: string, text: string)
    requires Layout(line, a, b, text) && Shaped(a)
    ensures ScanTimestamp(line, 1) == Some(Scanned(1 + |a|, ShapedValue(a)))
  {
    ScanShaped(line, 1, a);
  }

  /** The second timestamp of a laid-out line scans to its value. */
  lemma LayoutSecondStamp(line: string, a: string, b: string, text: string)
    requires Layout(line, a, b, text) && Shaped(b)
    ensures ScanTimestamp(line, 6 + |a|) == Some(Scanned(6 + |a| + |b|, ShapedValue(b)))
  {
    ScanShaped(line, 6 + |a|, b);
  }

  /** The single spaces around the arrow of a laid-out line. */
  lemma LayoutArrow(line: string, a: string, b: string, text: string)
    requires Layout(line, a, b, text) && Shaped(b)
    ensures SpaceRunEnd(line, 1 + |a|) == 2 + |a| && SpaceRunEnd(line, 5 + |a|) == 6 + |a|
  {
    var na := |a|;
    SpaceRunEndAt(line, 1 + na, 2 + na);
    assert line[6 + na + 0] == b[0];
    SpaceRunEndAt(line, 5 + na, 6 + na);
  }

  /** The header of a laid-out line of two shaped timestamps is read back at position 0. */
  lemma LayoutHeader(line: string, a: string, b: string, text: string)
    requires Layout(line, a, b, text) && Shaped(a) && Shaped(b)
    ensures HeaderAt(line, 0) == Some(Header(ShapedValue(a), ShapedValue(b), 6 + |a| + |b|))
  {
    var na, nb := |a|, |b|;
    LayoutFirstStamp(line, a, b, text);
    LayoutSecondStamp(line, a, b, text);
    LayoutArrow(line, a, b, text);
    HeaderAtStart(line, Scanned(1 + na, ShapedValue(a)), 2 + na, 6 + na,
                  Scanned(6 + na + nb, ShapedValue(b)));
  }

  /** The text of a laid-out line is captured whole. */
  lemma LayoutCapture(line: string, a: string, b: string, text: string, close: nat)
    requires Layout(line, a, b, text) && IsCapturedText(text) && close == 6 + |a| + |b|
    ensures CaptureText(line, close + 1) == text
  {
    CaptureAfterSpace(line, close + 1, text);
  }

  /** A laid-out line of two shaped timestamps matches at its first character. */
  lemma LayoutMatches(line: string, a: string, b: string, text: string)
    requires Layout(line, a, b, text) && Shaped(a) && Shaped(b) && IsCapturedText(text)
    ensures MatchAt(line, 0) == Some(LineMatch(ShapedValue(a), ShapedValue(b), text))
  {
    LayoutHeader(line, a, b, text);
    LayoutCapture(line, a, b, text, 6 + |a| + |b|);
  }

  /** A rendered line matches at its first character, capturing what was rendered. */
  lemma RenderMatches(startMs: nat, endMs: nat, text: string)
    requires IsCapturedText(text)
    ensures MatchAt(RenderLine(startMs, endMs, text), 0) == Some(LineMatch(startMs, endMs, text))
  {
    var a, b := MsToTimestamp(startMs), MsToTimestamp(endMs);
    ShapedValueOf(startMs);
    ShapedValueOf(endMs);
    BracketLayout(a, b, text);
    LayoutMatches(Bracket(a, b, text), a, b, text);
  }

  /** Searching a rendered line finds what was rendered. */
  lemma RenderParses(startMs: nat, endMs: nat, text: string)
    requires IsCapturedText(text)
    ensures SearchLine(RenderLine(startMs, endMs, text)) == Some(LineMatch(startMs, endMs, text))
  {
    RenderMatches(startMs, endMs, text);
  }

  /** A match written out as a line; the pattern reads it back unchanged. */
  function RenderMatch(m: LineMatch): (r: string)
    requires IsCapturedText(m.text)
    ensures SearchLine(r) == Some(m)
  {
    RenderParses(m.startMs, m.endMs, m.text);
    RenderLine(m.startMs, m.endMs, m.text)
  }

  /** A match with both times moved forward by `t0`. */
  function ShiftMatch(t0: nat, m: LineMatch): LineMatch {
    LineMatch(t0 + m.startMs, t0 + m.endMs, m.text)
  }

  /**
   * The recorder's per-line rewrite: a matching line is re-emitted with both
   * times shifted by the block start `t0`, so that it parses back to the shifted
   * times and the same text; a line without a match produces nothing.
   */
  function RewriteLine(t0: nat, line: string): (r: Option<string>)
    ensures r.None? <==> SearchLine(line).None?
    ensures r.Some? ==> SearchLine(r.value) == Some(ShiftMatch(t0, SearchLine(line).value))
  {
    match SearchLine(line)
    case None => None
    case Some(m) => Some(RenderMatch(ShiftMatch(t0, m)))
  }

  /** The lines of a block that start with '[' (`lines.filter(line => line.startsWith('['))`). */
  function Bracketed(lines: seq<string>): (r: seq<string>)
    ensures |r| <= |lines|
    ensures forall k :: 0 <= k < |r| ==> StartsWith(r[k], "[") && r[k] in lines
    ensures forall l :: l in lines && StartsWith(l, "[") ==> l in r
  {
    if |lines| == 0 then []
    else (if StartsWith(lines[0], "[") then [lines[0]] else []) + Bracketed(lines[1..])
  }

  /** One line is kept exactly when it starts with '['. */
  lemma BracketedOne(l: string)
    ensures Bracketed([l]) == if StartsWith(l, "[") then [l] else []
  {
    assert [l][1..] == [];
  }

  /** The filter distributes over concatenation: kept lines keep their order and repeats. */
  lemma {:induction false} BracketedConcat(a: seq<string>, b: seq<string>)
    ensures Bracketed(a + b) == Bracketed(a) + Bracketed(b)
    decreases |a|
  {
    if |a| == 0 {
      assert a + b == b;
    } else {
      assert (a + b)[0] == a[0];
      assert (a + b)[1..] == a[1..] + b;
      BracketedConcat(a[1..], b);
    }
  }

  /** The search result of every line, in order. */
  function SearchLines(lines: seq<string>): (rs: seq<Option<LineMatch>>)
    ensures |rs| == |lines|
    ensures forall i :: 0 <= i < |lines| ==> rs[i] == SearchLine(lines[i])
    ensures forall i :: 0 <= i < |rs| && rs[i].Some? ==> IsCapturedText(rs[i].value.text)
  {
    seq(|lines|, i requires 0 <= i < |lines| => SearchLine(lines[i]))
  }

  /** The matches among the search results, in order. */
  function Found(rs: seq<Option<LineMatch>>): (ms: seq<LineMatch>)
    requires forall i :: 0 <= i < |rs| && rs[i].Some? ==> IsCapturedText(rs[i].value.text)
    ensures |ms| <= |rs|
    ensures forall k :: 0 <= k < |ms| ==> IsCapturedText(ms[k].text)
    ensures forall k :: 0 <= k < |ms| ==> Some(ms[k]) in rs
    ensures forall i :: 0 <= i < |rs| && rs[i].Some? ==> rs[i].value in ms
    ensures ms == [] <==> forall i :: 0 <= i < |rs| ==> rs[i].None?
  {
    if |rs| == 0 then []
    else
      var rest := Found(rs[1..]);
      assert forall i :: 1 <= i < |rs| ==> rs[i] == rs[1..][i - 1];
      if rs[0].None? then rest else [rs[0].value] + rest
  }

  /** Filtering the search results distributes over concatenation: matches keep the lines' order. */
  lemma {:induction false} FoundConcat(a: seq<Option<LineMatch>>, b: seq<Option<LineMatch>>)
    requires forall i :: 0 <= i < |a| && a[i].Some? ==> IsCapturedText(a[i].value.text)
    requires forall i :: 0 <= i < |b| && b[i].Some? ==> IsCapturedText(b[i].value.text)
    ensures forall i :: 0 <= i < |a + b| && (a + b)[i].Some? ==> IsCapturedText((a + b)[i].value.text)
    ensures Found(a + b) == Found(a) + Found(b)
    decreases |a|
  {
    assert forall i :: 0 <= i < |a + b| ==> (a + b)[i] == if i < |a| then a[i] else b[i - |a|];
    if |a| == 0 {
      assert a + b == b;
    } else {
      assert (a + b)[1..] == a[1..] + b;
      FoundConcat(a[1..], b);
    }
  }

  /** The `k`-th match is the search result of some line. */
  lemma MatchFromLine(lines: seq<string>, k: nat)
    requires k < |Matches(lines)|
    ensures exists l :: 0 <= l < |lines| && SearchLine(lines[l]) == Some(Matches(lines)[k])
  {
    var rs := SearchLines(lines);
    var l :| 0 <= l < |rs| && rs[l] == Some(Matches(lines)[k]);
    assert SearchLine(lines[l]) == rs[l];
  }

  /** A line with a match contributes it to the matches. */
  lemma LineToMatch(lines: seq<string>, l: nat)
    requires l < |lines| && SearchLine(lines[l]).Some?
    ensures exists k :: 0 <= k < |Matches(lines)| && SearchLine(lines[l]) == Some(Matches(lines)[k])
  {
    var rs := SearchLines(lines);
    var ms := Matches(lines);
    assert rs[l] == SearchLine(lines[l]);
    assert rs[l].value in ms;
    var k :| 0 <= k < |ms| && ms[k] == rs[l].value;
  }

  /** Some line of `lines` gives the match `m`. */
  predicate SomeLineGives(lines: seq<string>, m: LineMatch) {
    exists l :: 0 <= l < |lines| && SearchLine(lines[l]) == Some(m)
  }

  /** No line of `lines` matches the bracket pattern. */
  predicate NoLineMatches(lines: seq<string>) {
    forall l :: 0 <= l < |lines| ==> SearchLine(lines[l]).None?
  }

  /** No line matches exactly when there are no matches. */
  lemma NoMatches(lines: seq<string>)
    ensures Matches(lines) == [] <==> NoLineMatches(lines)
  {
    var rs := SearchLines(lines);
    if Matches(lines) == [] {
      forall l | 0 <= l < |lines|
        ensures SearchLine(lines[l]).None?
      {
        assert rs[l] == SearchLine(lines[l]);
      }
    } else {
      var i :| 0 <= i < |rs| && rs[i].Some?;
      assert SearchLine(lines[i]).Some?;
    }
  }

  /** The matches of the lines that have one, in order. */
  function Matches(lines: seq<string>): (ms: seq<LineMatch>)
    ensures forall k :: 0 <= k < |ms| ==> IsCapturedText(ms[k].text)
  {
    Found(SearchLines(lines))
  }

  /**
   * Every matching line rewritten, in order: the k-th output line reads back
   * as the k-th match shifted by `t0`. Each is appended to the transcript
   * followed by a newline.
   */
  function RewriteAll(t0: nat, lines: seq<string>): (out: seq<string>)
    ensures |out| == |Matches(lines)|
    ensures forall k :: 0 <= k < |out| ==> SearchLine(out[k]) == Some(ShiftMatch(t0, Matches(lines)[k]))
  {
    var ms := Matches(lines);
    seq(|ms|, k requires 0 <= k < |ms| => RenderMatch(ShiftMatch(t0, ms[k])))
  }

  /**
   * The stdout handler's treatment of one recogniser block once `t0` is known:
   * keep the lines starting with '[', join them with '\n', split again and
   * rewrite each; the result is what gets appended to the transcript file.
   * When no line holds a newline, there is one output line per bracket line
   * that matches, and the k-th reads back as the k-th match shifted by `t0`.
   */
  function RewriteBlock(t0: nat, lines: seq<string>): (r: seq<string>)
    ensures (forall k :: 0 <= k < |lines| ==> Free(lines[k], '\n')) ==> |r| == |Matches(Bracketed(lines))|
    ensures (forall k :: 0 <= k < |lines| ==> Free(lines[k], '\n'))
      ==> forall k :: 0 <= k < |r| ==> SearchLine(r[k]) == Some(ShiftMatch(t0, Matches(Bracketed(lines))[k]))
  {
    BlockMatches(lines);
    RewriteAll(t0, Split(Join(Bracketed(lines), "\n"), '\n'))
  }

  /** The join-then-split keeps the matches of the bracket lines. */
  lemma BlockMatches(lines: seq<string>)
    ensures (forall k :: 0 <= k < |lines| ==> Free(lines[k], '\n'))
      ==> Matches(Split(Join(Bracketed(lines), "\n"), '\n')) == Matches(Bracketed(lines))
  {
    var b := Bracketed(lines);
    if forall k :: 0 <= k < |lines| ==> Free(lines[k], '\n') {
      if |b| > 0 {
        SplitJoin(b, '\n');
      } else {
        assert Split("", '\n') == [""];
        assert MatchAt("", 0) == None;
      }
    }
  }

  /** The join-then-split in the handler gives back the bracketed lines themselves. */
  lemma RewriteBlockLines(t0: nat, lines: seq<string>)
    requires forall k :: 0 <= k < |lines| ==> Free(lines[k], '\n')
    ensures |Bracketed(lines)| > 0 ==> RewriteBlock(t0, lines) == RewriteAll(t0, Bracketed(lines))
    ensures |Bracketed(lines)| == 0 ==> RewriteBlock(t0, lines) == []
  {
    var b := Bracketed(lines);
    if |b| > 0 {
      SplitJoin(b, '\n');
    }
  }
}

=== FILE: wrappers.dfy ===
/** Optional values and results shared by the other modules. */
module Wrappers {

  /** A value that may be missing: the model's stand-in for a regex `match` returning null. */
  datatype Option<+T> = None | Some(value: T)

  /** The outcome of an operation that can throw in the source. */
  datatype Result<+T, +E> = Success(value: T) | Failure(error: E)
}
